=== FILE: README.md ===
# sgv in Dafny

sgv is a command-line manager for Go toolchains. It installs Go versions under
a versions directory and points a `current` link at the active one. It reads
the Go version a project's `go.mod` requires. It lists, removes and
auto-selects versions. It keeps a cache of the remote catalog, and a per-version
overlay of environment variables. This project models the decidable core of
those operations as pure Dafny functions over explicit state and proves what
they promise.

The global settings of `internal/config` are replaced by an explicit record
`Config(versionsDir, currentPath, envDir)`. The filesystem is a map from path to
`Dir | File(content) | Link(target) | Unstatable | ...` (`FileSystem`). Every
comparison of versions goes through `Semver.Compare`. This is a specification
of `golang.org/x/mod/semver.Compare` for release versions only, following
item 11 (precedence) of Semantic Versioning 2.0.0:
- a valid string is `v<N>[.<N>[.<N>]]` with no leading zeros;
- a prerelease or build suffix (`v1.23.0-rc.1`) is not modelled, so such a
  string is invalid here although the library accepts it;
- missing components are 0;
- every other string is invalid, ranks below every valid one and ties with the other invalid ones.

Modules, in dependency order:

| module | file | models |
|---|---|---|
| `Wrappers`, `Text`, `Order` | wrappers.dfy, text.dfy, order.dfy | `Result`/`Option`, the `strings` helpers used (prefixes, split at a byte, `TrimSpace`, ASCII case mapping), byte-order comparison, sorting a set, filtering, first-occurrence de-duplication |
| `FileSystem` | filesystem.dfy | paths (`filepath.Join`, `Base`, `Dir` on clean paths), directory listing, `RemoveAll` |
| `Semver` | semver.dfy | `semver.Compare` |
| `GoMod` | gomod.dfy | the go.mod directive regular expressions under RE2 semantics |
| `UtilCmd` | util_cmd.dfy | `cmd/util.go`: the newer `findGoModVersion` and the version helpers |
| `RootCmd` | root_cmd.dfy | `cmd/root.go`: the older `findGoModVersion` and the root command |
| `Version` | version.dfy | `internal/version/version.go` |
| `SwitchContract` | switch_contract.dfy | the switch that `internal/version/version_test.go` demands |
| `Cache` | cache.dfy | `internal/version/cache.go` |
| `EnvStore` | env_store.dfy | the `env` package as `internal/env/env_test.go` pins it down |
| `EnvCmd`, `RmCmd`, `SubCmd`, `ListCmd`, `AutoCmd` | env_cmd.dfy, rm_cmd.dfy, sub_cmd.dfy, list_cmd.dfy, auto_cmd.dfy | the commands `env`, `rm`, `sub`, `list`, `auto` |

`cmd/util.go` and `cmd/root.go` both define `findGoModVersion`. They are two
snapshots of one function, so each has its own module:
- `UtilCmd.FindGoModVersion` takes the last `go` line and lets a newer
  `toolchain` line override it;
- `RootCmd.FindGoModVersion` takes the first line that is exactly a `go`
  directive, and treats a go.mod without one as an error.

`normalizeGoVersion` and `isGoVersionCompatible` have identical bodies in the
two files and are defined once, in `UtilCmd`. The `auto` command uses the
`cmd/util.go` snapshot.

`SwitchToVersion` in `internal/version/version.go:116-133` does not do what
`TestSwitchToVersion` in `internal/version/version_test.go:22-120` asserts. The
implementation removes whatever is at the pointer path and then links to
`<versions>/<v>/go`. It does not check that the version is installed. It does
not restore the pointer when the link cannot be made. The test demands three
things:
- a missing version is an error and leaves no pointer;
- a regular file at the pointer path is an error and is left intact;
- the link is made under a temporary name and renamed into place.

Both are modelled, and neither is derived from the other. `Version.SwitchToVersion` is the
implementation. The lemmas `Version.AsWrittenAcceptsMissingVersion`,
`Version.AsWrittenReplacesRegularFile` and
`Version.AsWrittenMissingTargetScenario` show the inputs on which it breaks the
test. `SwitchContract.SwitchValidated` is the switch that `TestSwitchToVersion`
(`internal/version/version_test.go`) demands, with the properties that test
demands proved about it. The rest of the model (`RootCmd.Run`) uses the
implementation.

## Model

| member | source | states |
|---|---|---|
| UtilCmd.LastCaptureSpec | cmd/util.go:31-41 | no line matches exactly when the scan has no capture; otherwise the capture comes from a matching line after which no line matches |
| UtilCmd.LastLineWins | cmd/util.go:34-37 | a later matching line replaces whatever an earlier line captured (no early return) |
| UtilCmd.NonMatchingLineKeeps | cmd/util.go:34-40 | a line that does not match leaves the captured version alone |
| UtilCmd.ScanLines | cmd/util.go:31-41 | the loop leaves in each variable `go` plus the capture of the last matching line of its pattern, or `""` when no line matches |
| UtilCmd.Chosen | cmd/util.go:43-49 | the version chosen is empty only when both directives are missing, and is one of the two |
| UtilCmd.ChosenIsNewest | cmd/util.go:43-49 | the chosen version is at least each present directive under semver, and the `go` version wins unless the toolchain is strictly newer |
| UtilCmd.FindGoModVersion | cmd/util.go:15-58 | a missing go.mod gives `""` with no error; a go.mod that cannot be read, a failing stat and a missing working directory are errors |
| UtilCmd.FindGoModVersionEmpty | cmd/util.go:47-52 | a present go.mod yields `""` exactly when no line holds a `go` or `toolchain` directive |
| UtilCmd.FindGoModVersionFromLine | cmd/util.go:33-48 | a non-empty result is the 1.21-normalised version of a `go` or `toolchain` directive on some line of the file |
| UtilCmd.NormalizeGoVersion | cmd/util.go:80-88 | the result is always `v` followed by the input with one leading `go` removed, so the last branch is unreachable |
| UtilCmd.NormalizeGoVersionPrefix | cmd/util.go:80-88 | writing the `go` prefix or leaving it off gives the same normal form |
| UtilCmd.NormalizeGoModVersion | cmd/util.go:63-77 | the result is the input, or the input with `.0` appended when it has exactly two components |
| UtilCmd.NormalizeGoModVersionOfTwo | cmd/util.go:72-76 | `goX.Y` becomes `goX.Y.0` exactly when X.Y is at least 1.21 |
| UtilCmd.NormalizeGoModVersionOfThree | cmd/util.go:72-76 | a three-component version is returned unchanged |
| UtilCmd.NormalizeGoModVersionIdempotent | cmd/util.go:63-77 | applying the 1.21 rule twice is the same as applying it once |
| UtilCmd.NormalizeGoModVersionKeepsPrecedence | cmd/util.go:60-77 | the rule never changes how a version compares under semver |
| UtilCmd.CompatibleReflexive | cmd/util.go:91-95 | every version is compatible with itself |
| UtilCmd.CompatibleTransitive | cmd/util.go:91-95 | compatibility chains: a ≥ b and b ≥ c give a ≥ c |
| UtilCmd.CompatibleTotal | cmd/util.go:91-95 | of any two versions one is compatible with the other |
| UtilCmd.SupportedUpward | cmd/util.go:98-107 | support is monotone: a version compatible with a supported one is supported |
| UtilCmd.SupportedOfTwo | cmd/util.go:98-107 | `goX.Y` is supported exactly when X.Y is at least 1.13 |
| UtilCmd.ReleaseCandidateUnsupported | cmd/util.go:98-107 | `go1.21rc1` is not a valid semantic version and so is not supported |
| GoMod.Directive | cmd/util.go:28-29 | a capture is a version of the shape `N.N` or `N.N.N`, and the line is the keyword, white space, the lead text and that version, then anything |
| GoMod.DirectiveComplete | cmd/util.go:28-29 | every line spelled keyword, white space, lead and a version shape matches, and the capture is at least that version |
| GoMod.VersionPrefixIsLongest | cmd/util.go:28 | with no end anchor the capture is the longest version-shaped prefix, so trailing text is ignored |
| GoMod.VersionPrefixOfShape | cmd/util.go:28 | a version shape alone is captured whole |
| GoMod.CarriageReturnLine | cmd/util.go:28-33 | the unanchored pattern captures `1.21` from `go 1.21` followed by a carriage return |
| GoMod.AnchoredGo | cmd/root.go:33 | the end-anchored pattern captures only when the whole line is `go`, white space and a version shape |
| GoMod.AnchoredGoComplete | cmd/root.go:33 | every line that is exactly `go`, white space and a version shape is captured whole |
| GoMod.AnchoredAgrees | cmd/root.go:33 | where the anchored pattern matches, the unanchored `go` pattern of cmd/util.go captures the same version |
| GoMod.AnchoredRejectsCarriageReturn | cmd/root.go:33-34 | the end anchor rejects a line that ends in a carriage return |
| Semver.CompareReflexive | cmd/util.go:94 | every string compares equal to itself |
| Semver.CompareAntisymmetric | cmd/util.go:94 | swapping the operands negates the result |
| Semver.CompareTransitive | cmd/util.go:94 | ≥ chains, and strictly once either step is strict |
| Semver.CompareTotal | cmd/util.go:94 | any two strings are ordered one way or the other |
| Semver.InvalidRanksLowest | cmd/util.go:94 | invalid strings rank below every valid one and tie with each other |
| Semver.CompareIsNumeric | cmd/util.go:73 | comparison of any two release versions is numeric on major, minor, patch (so `v1.2.3` is below `v1.2.4`), with a missing patch read as 0 |
| Semver.ParseTwo | cmd/util.go:73 | `vX.Y` parses with patch 0, so `v1.21` equals `v1.21.0` |
| Semver.ReleaseCandidateInvalid | cmd/util.go:106 | `v1.21rc1` is not a valid version |
| Semver.NumeralOfValue | cmd/util.go:73 | a numeral without leading zeros is recovered from its value |
| RootCmd.FirstCaptureSpec | cmd/root.go:35-40 | no line matches exactly when there is no capture; otherwise the capture is that of a matching line before which none matches |
| RootCmd.FindGoModVersion | cmd/root.go:20-47 | `""` with no error exactly for a missing go.mod; a present go.mod succeeds only through a matching line |
| RootCmd.FindGoModVersionFirstLine | cmd/root.go:33-41 | a present go.mod succeeds exactly when some line is an exact `go` directive, and then yields `go` plus the first such line's version |
| RootCmd.SuitableSpec | cmd/root.go:102-110 | the fallback finds nothing exactly when no installed version is compatible, and otherwise an installed compatible version at or below every compatible one |
| RootCmd.FindSuitable | cmd/root.go:102-110 | the loop as written computes that fallback |
| RootCmd.RequestedName | cmd/root.go:77-80 | the requested version gets a `go` prefix when it lacks one and keeps its version text |
| RootCmd.Requirement | cmd/root.go:82-88 | a go.mod lookup error counts as no requirement |
| RootCmd.ChooseVersion | cmd/root.go:75-120 | the version settled on is the prefixed request or an installed version; a request below the requirement whose installed listing fails ends the run with the listing error |
| RootCmd.ChooseWithoutRequirement | cmd/root.go:82-90 | without a usable requirement the prefixed request is used |
| RootCmd.ChooseKeepsCompatible | cmd/root.go:90-92 | a request that meets the requirement is kept |
| RootCmd.ChooseOverride | cmd/root.go:92-118 | a request below the requirement fails exactly when no installed version is compatible, and is otherwise replaced by the minimum compatible installed one |
| RootCmd.Run | cmd/root.go:74-142 | a failed choice exits before touching the filesystem or the installer; otherwise the chosen version is the one installed and switched to |
| RootCmd.Finish | cmd/root.go:135-141 | the run ends with the outcome of the switch |
| RootCmd.RunInstallsOnlyWhenMissing | cmd/root.go:122-133 | the installer is called exactly when the chosen version's directory is absent |
| RootCmd.RunSwitchesToChosen | cmd/root.go:135-141 | after a successful run the active version reads back as the chosen one |
| Version.GetLocalVersions | internal/version/version.go:42-57 | succeeds exactly when the versions directory is a directory; the result is in strictly ascending byte order and holds exactly the names of its sub-directories |
| Version.GetCurrentVersion | internal/version/version.go:60-70 | succeeds exactly when the pointer is a link, and yields the base name of the parent of its target |
| Version.CurrentOfTarget | internal/version/version.go:66-69 | a pointer to `<versions>/<v>/go` reads back as `v` |
| Version.FirstStable | internal/version/version.go:106-110 | the index of the first stable entry, and none exactly when no entry is stable |
| Version.GetLatestGoVersion | internal/version/version.go:100-113 | a fetch error is passed on; otherwise the first stable entry in catalog order, and an error exactly when none is stable |
| Version.UniqueVersions | internal/version/version.go:152-163 | the scraped versions without duplicates, each one kept |
| Version.SwitchToVersion | internal/version/version.go:116-133 | succeeds exactly when the pointer is absent or removable and its directory exists; on success the pointer is a link to `<versions>/<v>/go`; on failure the filesystem is unchanged or only the pointer is gone; a stat error changes nothing |
| Version.SwitchThenCurrent | internal/version/version.go:127-128 | after a successful switch to a plain name, reading the pointer gives that name back |
| Version.AsWrittenAcceptsMissingVersion | internal/version/version.go:126-132 | a version that is not installed is switched to, and a pointer is created |
| Version.AsWrittenReplacesRegularFile | internal/version/version.go:118-121 | a regular file at the pointer path is deleted and replaced |
| Version.AsWrittenMissingTargetScenario | internal/version/version_test.go:72-85 | on the test's "target missing" input the implementation succeeds and leaves a pointer |
| SwitchContract.SwitchValidated | internal/version/version_test.go:22-120 | succeeds exactly when the version is installed, the pointer is free or a link, and the temporary link can be made and renamed; success points the pointer at the version, and failure changes nothing |
| SwitchContract.NoTemporaryLeft | internal/version/version_test.go:62-69 | no path is added except the pointer, so no temporary link remains |
| SwitchContract.ValidatedThenCurrent | internal/version/version_test.go:52-60 | after a successful switch the active version reads back as the one switched to |
| SwitchContract.ValidatedReplacesLink | internal/version/version_test.go:39-60 | an existing link to another version is replaced by one to `<versions>/<v>/go` |
| SwitchContract.ValidatedRejectsMissing | internal/version/version_test.go:72-85 | a version that is not installed is refused and no pointer appears |
| SwitchContract.ValidatedKeepsRegularFile | internal/version/version_test.go:87-120 | a regular file at the pointer path is refused and its content kept |
| SwitchContract.ValidatedMissingTargetScenario | internal/version/version_test.go:72-85 | on the test's "target missing" input the switch fails and leaves no pointer |
| Cache.Decode | internal/version/cache.go:43-45 | only an encoded catalog decodes |
| Cache.DecodeEncode | internal/version/cache.go:67 | decoding undoes encoding |
| Cache.NewVersionCache | internal/version/cache.go:18-23 | a new cache starts with a duration of one hour |
| Cache.LoadFresh | internal/version/cache.go:26-48 | fails when the file is missing or older than the duration; succeeds exactly when the file is present, not too old and decodes, with its catalog |
| Cache.LoadStale | internal/version/cache.go:51-63 | succeeds whatever the age exactly when the file is present and decodes |
| Cache.IsExpired | internal/version/cache.go:99-105 | a missing file is expired; otherwise expiry is the age test of `LoadFresh` |
| Cache.FreshIsStaleUnexpired | internal/version/cache.go:26-63 | a fresh load succeeds exactly when the cache is not expired and the stale load succeeds, and then both agree |
| Cache.BoundaryIsFresh | internal/version/cache.go:33 | an age equal to the duration is still fresh and one nanosecond more is expired |
| Cache.Save | internal/version/cache.go:66-88 | never fails; the cache file is the new catalog exactly when every step succeeds and is unchanged otherwise; once written, the temporary file is gone exactly when the rename or the ignored removal succeeds, and otherwise holds the new catalog |
| Cache.SaveThenLoad | internal/version/cache.go:66-88 | after a successful save no temporary file remains, and the stale load, and the fresh load for one duration, give back what was saved |
| Cache.FailedRenameKeepsCache | internal/version/cache.go:83-87 | a failed rename leaves both loads as they were; the temporary file is gone exactly when its removal succeeds |
| Cache.Clear | internal/version/cache.go:91-96 | a missing file is no error; success leaves no cache file, and failure changes nothing |
| Cache.ClearThenLoad | internal/version/cache.go:91-96 | after a successful clear both loads fail and the cache is expired |
| Cache.SetCacheDuration | internal/version/cache.go:108-110 | only the duration changes |
| Cache.DurationOnlyMovesBoundary | internal/version/cache.go:108-110 | a longer duration leaves the stale load alone and never turns a fresh cache stale |
| Cache.GetCacheInfo | internal/version/cache.go:113-119 | the modification time is reported exactly when the file exists |
| Cache.CacheInfoExpiry | internal/version/cache.go:113-119 | the reported expiry is that of `IsExpired` |
| EnvStore.ValidateVarName | internal/env/env_test.go:13-43 | no error exactly for ASCII names of `[A-Za-z_][A-Za-z0-9_]*`; the error mentions the name |
| EnvStore.ScanMatchesGrammar | internal/env/env_test.go:13-43 | the character scan accepts exactly the grammar |
| EnvStore.ValidNameExamples | internal/env/env_test.go:19-32 | the accepted and rejected names of the test table |
| EnvStore.ProtectedIgnoresCase | internal/env/env_test.go:45-80 | protection does not depend on letter case |
| EnvStore.ProtectedIsValid | internal/env/env_test.go:214-245 | every protected name is a valid name, so protected keys get the protection error |
| EnvStore.ProtectedExamples | internal/env/env_test.go:51-69 | `goroot`, `GoPath` and `CGO_ENABLED` are protected; `GODEBUG`, `GOWORK`, `GO_CUSTOM`, `MY_VAR` and `""` are not |
| EnvStore.ParseLine | internal/env/env_test.go:600-673 | a line fails exactly when it is malformed; blank and `#` lines change nothing; any other line sets its key to the text after the first `=` |
| EnvStore.MalformedLineFails | internal/env/env_test.go:633-641 | one malformed line fails the whole load |
| EnvStore.ParsedContentIsWellFormed | internal/env/env_test.go:600-673 | whatever loads has grammar keys and values without line feeds |
| EnvStore.SerializedLines | internal/env/env_test.go:351-405 | a saved file is the two header comments, then one `KEY=VALUE` line per variable in ascending key order |
| EnvStore.ParseSerialize | internal/env/env_test.go:273-311 | loading what was saved gives back every map with grammar keys and line-feed-free values, including empty, quoted and non-ASCII values |
| EnvStore.EnvFilesDistinct | internal/env/env_test.go:313-349 | different versions have different files |
| EnvStore.LoadEnvVars | internal/env/env_test.go:107-115 | a version with no file has no variables and no error; whatever loads is well formed |
| EnvStore.SaveEnvVars | internal/env/env_test.go:675-768 | succeeds exactly when the directory can be created or exists and the file is writable; it writes only the version's file and the directory |
| EnvStore.CheckedLoad | internal/env/env_test.go:529-569 | invalid names fail with a message naming the key, protected ones with the key and `protected`, and a failed load with `failed to load existing variables` |
| EnvStore.SetEnvVar | internal/env/env_test.go:117-180 | succeeds exactly when the checks pass and the store is writable; a failed check is passed on |
| EnvStore.UnsetEnvVar | internal/env/env_test.go:182-211 | succeeds only for a key that is set; an unset key fails with the key and `not found` |
| EnvStore.ClearAllEnvVars | cmd/env.go:136-139 | removes only the version's file; a missing file is no error |
| EnvStore.SaveThenLoad | internal/env/env_test.go:701-750 | what a successful save wrote is what the next load reads |
| EnvStore.SaveIsolated | internal/env/env_test.go:313-349 | saving one version's variables leaves every other version's load unchanged |
| EnvStore.SetThenLoad | internal/env/env_test.go:117-180 | after a set the load is the previous variables with the key set to the value, so a second set overwrites |
| EnvStore.SetIsolated | internal/env/env_test.go:313-349 | setting a variable of one version leaves every other version alone |
| EnvStore.UnsetThenLoad | internal/env/env_test.go:182-201 | after an unset the load is the previous variables without that key |
| EnvStore.ClearThenLoad | cmd/env.go:136-141 | after clearing, the version has no variables |
| EnvStore.MissingEqualsFails | internal/env/env_test.go:633-636 | a file with a line without `=` fails to load |
| EnvStore.LeadingDigitFails | internal/env/env_test.go:638-641 | a file with a key starting with a digit fails to load |
| EnvStore.EqualsInValueKept | internal/env/env_test.go:643-646 | a value keeps the `=` signs after the first one |
| EnvStore.BadKeyMalformed | internal/env/env_test.go:600-673 | a line whose key breaks the grammar is malformed |
| EnvCmd.ParseWriteArg | cmd/env.go:64-76 | fails exactly when there is no `=` or the trimmed key is empty; otherwise the trimmed parts around the first `=` |
| EnvCmd.ParseWriteArgOfPair | cmd/env.go:66-72 | a trimmed key without `=` and a trimmed value written `KEY=VALUE` parse back to themselves, `=` in the value included |
| EnvCmd.HandleWrite | cmd/env.go:64-85 | a rejected argument never reaches the store; an accepted one is set under the trimmed key |
| EnvCmd.HandleWriteStores | cmd/env.go:71-79 | after a successful write the trimmed key loads as the trimmed value |
| EnvCmd.HandleUnset | cmd/env.go:87-100 | the key is trimmed and an empty key is refused before the store is called |
| EnvCmd.HandleClear | cmd/env.go:102-143 | nothing happens for an empty overlay or any answer but `y`; the overlay is cleared only after `y` |
| EnvCmd.ListLines | cmd/env.go:159-171 | one `  KEY=VALUE` line per variable, in ascending key order |
| EnvCmd.UnsetKeys | cmd/env.go:191-210 | exactly the keys in another version's overlay that are neither protected nor set for the current version |
| EnvCmd.OutputShellFormat | cmd/env.go:176-219 | succeeds exactly when the overlay loads and, with `--clean`, all overlays do; unsets only with `--clean`, then one export per variable |
| EnvCmd.ExportsOncePerKey | cmd/env.go:213-216 | every variable is exported, each export is of a variable, and none repeats |
| EnvCmd.CleanKeepsCurrent | cmd/env.go:201-209 | a key set for the current version is never unset |
| EnvCmd.Dispatch | cmd/env.go:39-60 | a command line giving two or more of `--write`, `--unset`, `--clear` is refused before any handler; otherwise the handler is chosen by clear, then shell, then write, then unset, then list |
| EnvCmd.DispatchNamesOneMutation | cmd/env.go:230 | whenever clear, write or unset runs, no other flag of the exclusive group was given |
| EnvCmd.CombinedFlagsRejected | cmd/env.go:230 | any two of the exclusive flags are refused whatever their values and whatever `--shell` says |
| EnvCmd.ShellBesideOneFlag | cmd/env.go:43-51 | `--shell` beside write or unset wins, but clear comes first |
| RmCmd.NormalizeArg | cmd/rm.go:91-94 | an argument gets a `go` prefix when it lacks one and is otherwise kept |
| RmCmd.InSeriesNeedsDot | cmd/rm.go:109 | a series member other than the series itself continues it with a dot |
| RmCmd.SeriesExample | cmd/rm.go:109 | `1.2` does not select `go1.22.1`; `1.22` selects `go1.22.1` and `go1.22` |
| RmCmd.ResolveSpec | cmd/rm.go:96-120 | an argument resolves to what it selects; a full version passes through whether installed or not |
| RmCmd.FindInArgumentOrder | cmd/rm.go:88-123 | the result for two argument lists is the result for the first followed by the result for the second |
| RmCmd.FindSpec | cmd/rm.go:88-123 | a version is found exactly when some argument selects it |
| RmCmd.FinalVersions | cmd/rm.go:42-57 | the final list has no duplicates and holds exactly the found versions that are installed and not active |
| RmCmd.FinalKeepsOrder | cmd/rm.go:43-57 | the final list keeps the order in which versions were first found |
| RmCmd.RemoveVersionsSpec | cmd/rm.go:73-83 | a path disappears exactly when it is a listed version's directory or below one, and every other path is kept unchanged |
| RmCmd.Run | cmd/rm.go:24-84 | fails exactly when the installed list cannot be read; an unreadable current version counts as none; removal happens exactly for a non-empty list and a `y` answer |
| RmCmd.RunSparesActive | cmd/rm.go:49-52 | the active version's directory survives |
| RmCmd.RunNeedsConfirmation | cmd/rm.go:64-71 | without a `y` answer nothing is removed |
| SubCmd.SeriesArg | cmd/sub.go:24-27 | the series always starts with `1.`; one leading `go` is dropped and `1.` put in front unless already there |
| SubCmd.SeriesArgIdempotent | cmd/sub.go:24-27 | a series is its own argument |
| SubCmd.SeriesArgExamples | cmd/sub.go:24-27 | `go1.22`, `1.22` and `22` all name the series `1.22` |
| SubCmd.Matches | cmd/sub.go:44-49 | exactly the catalog versions with the plain prefix `go` and the series |
| SubCmd.SeriesPrefixTakesLongerMinors | cmd/sub.go:46 | with no dot guard the series `1.2` also takes `go1.21` |
| SubCmd.SortBySemverSpec | cmd/sub.go:51-53 | the listing is in ascending semver order and is a permutation of the matches |
| SubCmd.Rows | cmd/sub.go:61-67 | a row is marked installed exactly when its version is a local version |
| SubCmd.Run | cmd/sub.go:23-70 | fails exactly when the fetch or the local listing fails, with the source's messages; the series is the normalised argument |
| SubCmd.RunListsSeries | cmd/sub.go:39-67 | the rows are sorted, distinct, hold exactly the catalog versions of the series and mark exactly the local ones |
| SubCmd.Render | cmd/sub.go:55-67 | the title, then the "no versions" notice for no rows, or one line per row with ` (installed)` where marked |
| ListCmd.GetMajorVersion | cmd/list.go:66-72 | with two or more dot parts the key is `go` and the first two; with no dot the version itself |
| ListCmd.GetMajorVersionIdempotent | cmd/list.go:66-72 | a series key is its own series key |
| ListCmd.MajorOfTwo | cmd/list.go:67-71 | `go<a>.<b>` with dot-free parts is keyed by itself |
| ListCmd.MajorOfMore | cmd/list.go:67-71 | `go<a>.<b>.<rest>` (for example `go1.22.4`) is keyed `go<a>.<b>`: everything from the second dot on is dropped |
| ListCmd.Run | cmd/list.go:19-62 | fails exactly when the local listing fails; prints the "none installed" notice exactly for an empty inventory, and otherwise the inventory grouped by series with the readable active version marked |
| ListCmd.RunMarksCurrent | cmd/list.go:27-31 | in the report an entry is marked exactly when the active version can be read and is that entry; an unreadable one marks nothing |
| ListCmd.RunListsInventory | cmd/list.go:38-62 | in the report a series lists exactly the installed versions of that series, and every installed version is listed |
| ListCmd.GroupKeysAscending | cmd/list.go:47-51 | group keys are strictly ascending in byte order |
| ListCmd.GroupMembers | cmd/list.go:40-44 | a group holds exactly the installed versions with its key, and no group is empty |
| ListCmd.EveryVersionGrouped | cmd/list.go:40-44 | every installed version has the group of its key |
| ListCmd.GroupKeepsOrder | cmd/list.go:40-44 | a group keeps the inventory order |
| ListCmd.Entries | cmd/list.go:53-62 | exactly the entries equal to the active version are marked current |
| AutoCmd.Decide | cmd/auto.go:19-89 | not a Go project exactly for an empty requirement; an offer is the supported requirement itself, local exactly when installed, and never the active version; a switch happens exactly on a confirmed offer |
| AutoCmd.Run | cmd/auto.go:19-28 | without go.mod the directory is not a Go project |
| AutoCmd.OfferLines | cmd/auto.go:62-67 | the offer says "will download" exactly when the version is not installed |
| AutoCmd.SwitchOnlyOnYes | cmd/auto.go:77-85 | a switch happens only after the answer `y` or `Y` |
| AutoCmd.UnsupportedFails | cmd/auto.go:31-34 | a requirement below 1.13 fails whatever else holds |
| AutoCmd.UnreadableCurrentOffers | cmd/auto.go:50-54 | an unreadable active version counts as none, so a supported requirement is offered |
| AutoCmd.ActiveRequirementIsKept | cmd/auto.go:58-60 | when the requirement is active nothing is offered |
| AutoCmd.NoSuitableUnreachable | cmd/auto.go:86-89 | the "no suitable version" exit cannot happen: no failure carries its message, and every failure is an `Error` report or unreadable input |

## Left out

- Network and HTML: `GetRemoteVersions`, `FetchAllGoVersions` and `fetchAllGoVersions` fetch over HTTP and scan HTML with a regular expression. The catalog and the list of scraped matches are inputs.
- JSON: `json.Marshal`/`json.Unmarshal` are the abstract pair `Cache.Encode`/`Cache.Decode`. Marshalling never fails.
- Clock: `time.Since` and modification times are integer nanoseconds passed in.
- Installer: `internal/installer/installer.go` (download, gzip/tar extraction, progress bar) is not part of this model. `RootCmd.Run` takes it as a function parameter.
- `internal/config/config.go` (home directory, `MkdirAll`, exit) is replaced by the `Config` record.
- `cmd/latest.go`, `cmd/update.go`, `cmd/install.go`, `cmd/uninstall.go`, `cmd/listRemote.go`, `cmd/version.go` and `main.go` are command wiring and printing around the modelled functions. `GetSGVVersion` reads build information.
- Permissions are abstract: a node is readable or not, removable or not. Concurrent access to the env store is not modelled, since the tests tolerate lost updates.
- Output: printing is modelled only where it decides something (`SubCmd.Render`, `AutoCmd.OfferLines`, `EnvCmd.ListLines`). Colours in `list` are not modelled. Prompts are input strings. `fmt.Scanln` is the `AutoCmd.Answer` datatype.
- Map iteration order is unspecified in Go:
  - `FetchAllGoVersions` keeps first occurrences (`Version.UniqueVersions`);
  - `outputShellFormat` exports in ascending key order;
  - `--clean` unsets are a set.
- SubCmd.SortBySemverSpec: `sort.Slice` is not stable, so the source leaves the order of versions that compare equal open. The model keeps their input order. The contract states only the ascending order and the permutation.
- RmCmd.Run: cobra's arity check (`cobra.MinimumNArgs(1)`) is not modelled; with no arguments the model finds nothing to remove, where cobra refuses the command before it runs.
- RmCmd.Run: a failing `os.RemoveAll` of one version is reported and skipped by the source. The model treats every removal as succeeding.
- RootCmd.Run: `os.Stat` of the install path is taken to fail only on a missing or unstatable node.
- The switch that `auto` triggers runs the root command again with the chosen version. `AutoCmd.Decide` stops at `SwitchTo` and does not compose with `RootCmd.Run`.
- EnvStore: the `env` package's implementation is not part of this model. The following are chosen to satisfy the tests and are not taken from code:
  - the order of the checks (name, then protection, then load);
  - the exact error messages beyond the substrings the tests require;
  - the exact layout of the header, of which the tests fix only its two lines as substrings;
  - lines are not trimmed before parsing: a whitespace-only line, an indented `#` comment or a line such as ` A=1` is malformed and makes the whole load fail;
  - `GetCurrentVersion` and `GetAllEnvVars` of that package, which are inputs.
- EnvStore.ClearAllEnvVars: modelled as removing the version's file.
- EnvStore.ProtectedIgnoresCase: case mapping is ASCII only, whereas Go's `strings.ToUpper` also maps non-ASCII letters.
- EnvStore.ParseSerialize: values containing a line feed are not round-tripped, as the tests note.
- Cache.Save: a failing `os.WriteFile` is taken to leave the temporary file as it was; a partly written temporary file is not modelled.
- Semver.Compare: prerelease and build suffixes are not modelled. A request such as `1.23.0-rc.1`, which `semver.Compare` ranks as a valid prerelease, is invalid in the model, so `RootCmd.ChooseVersion` finds it incompatible with every valid requirement and falls back to the installed versions.
- EnvCmd.Dispatch: cobra's refusal of combined exclusive flags is the action `Rejected`; the text of cobra's error message is not modelled.
- Cache.GetCacheInfo: a failing `Stat` is treated as a missing file. The path component of the result is not modelled.
- Paths are joined with `/` without `filepath.Clean`. Results are stated for plain names without separators.

=== FILE: auto_cmd.dfy ===
/** The `auto` command of `cmd/auto.go`: decide, from the go.mod
    requirement, the installed versions, the active version and the user's
    answer, whether to switch. The switch itself is the root command run
    with the chosen version (`RootCmd.Run`). */
module AutoCmd {
  import opened Wrappers
  import opened Text
  import opened FileSystem
  import opened Version
  import opened GoMod
  import UtilCmd

  /** The offer shown before the prompt: the candidate and whether it is
      installed (otherwise it would be downloaded). */
  datatype Offer = Offer(version: string, local: bool)

  /** What the user typed: a line that `fmt.Scanln` cannot read, or a word. */
  datatype Answer = InvalidInput | Word(text: string)

  /** How `auto` ends. `Failed` is an exit with status 1 and its message. */
  datatype AutoOutcome =
    | Failed(message: string)
    | NotGoProject
    | AlreadyActive
    | Aborted(offer: Offer)
    | SwitchTo(offer: Offer)

  /** The message for a requirement below the support floor. */
  function UnsupportedMessage(required: string): string {
    "Error: The Go version required by go.mod (" + required + ") is not supported. sgv only supports Go 1.13 and later."
  }

  /** The message of the exit for a requirement that no version meets. */
  function NoSuitableMessage(required: string): string {
    "No " + "Go version found (local or remote) that meets the go.mod requirement (" + required + "). Please install a compatible version manually."
  }

  /** Only the word `y`, in either case, confirms. */
  predicate Confirms(answer: Answer) {
    answer.Word? && ToLower(answer.text) == "y"
  }

  /** The decision of `auto`'s `Run` over what it reads: the go.mod
      requirement, the installed versions and the active version. The
      candidate is the requirement itself; no installed version is searched
      for. */
  function Decide(requirement: Result<string, string>, locals: Result<seq<string>, string>,
                  current: Result<string, string>, answer: Answer): (r: AutoOutcome)
    ensures r == NotGoProject <==> requirement == Ok("")
    ensures r.Aborted? || r.SwitchTo? ==>
      && requirement == Ok(r.offer.version)
      && UtilCmd.IsGoVersionSupported(r.offer.version)
      && locals.Ok?
      && (r.offer.local <==> r.offer.version in locals.value)
      && current != Ok(r.offer.version)
    ensures r.SwitchTo? <==> (r.Aborted? || r.SwitchTo?) && Confirms(answer)
  {
    match requirement
    case Err(e) => Failed("Error determining go.mod version: " + e)
    case Ok(required) =>
      if required == "" then NotGoProject
      else if !UtilCmd.IsGoVersionSupported(required) then Failed(UnsupportedMessage(required))
      else match locals
        case Err(e) => Failed("Error getting local versions: " + e)
        case Ok(installed) =>
          var suitable := required;
          var offer := Offer(suitable, suitable in installed);
          var active := match current case Ok(v) => v case Err(_) => "";
          if suitable == "" then
            Failed(NoSuitableMessage(required))
          else if active != "" && suitable == active then AlreadyActive
          else if answer.InvalidInput? then Failed("Invalid input")
          else if ToLower(answer.text) == "y" then SwitchTo(offer)
          else Aborted(offer)
  }

  /** `auto`'s `Run`: the go.mod lookup of `cmd/util.go`, then the decision. */
  function Run(lookup: GoModLookup, fs: Fs, cfg: Config, answer: Answer): (r: AutoOutcome)
    ensures r == Decide(UtilCmd.FindGoModVersion(lookup), GetLocalVersions(fs, cfg), GetCurrentVersion(fs, cfg), answer)
    ensures lookup.Absent? ==> r == NotGoProject
  {
    Decide(UtilCmd.FindGoModVersion(lookup), GetLocalVersions(fs, cfg), GetCurrentVersion(fs, cfg), answer)
  }

  /** The lines printed before the prompt. */
  function OfferLines(required: string, offer: Offer): (lines: seq<string>)
    ensures |lines| == 2
    ensures lines[0] == "go.mod requires Go version: " + required
    ensures offer.local <==> lines[1] == "Found suitable version: " + offer.version + "."
  {
    var found := "Found suitable version: " + offer.version + ".";
    [ "go.mod requires Go version: " + required,
      if offer.local then found else LongerDiffers(found, " (Will download and install)"); found + " (Will download and install)" ]
  }

  lemma LongerDiffers(a: string, b: string)
    ensures b != "" ==> a + b != a
  {
    if b != "" {
      assert |a + b| > |a|;
    }
  }

  /** A switch happens only after the user confirms with `y`; any other
      word aborts, and unreadable input fails. */
  lemma SwitchOnlyOnYes(requirement: Result<string, string>, locals: Result<seq<string>, string>,
                        current: Result<string, string>, answer: Answer)
    requires Decide(requirement, locals, current, answer).SwitchTo?
    ensures answer == Word("y") || answer == Word("Y")
  {
    LowerIsY(answer.text);
  }

  /** A requirement below Go 1.13 fails whatever else holds, and nothing is
      offered. */
  lemma UnsupportedFails(required: string, locals: Result<seq<string>, string>,
                         current: Result<string, string>, answer: Answer)
    requires required != "" && !UtilCmd.IsGoVersionSupported(required)
    ensures Decide(Ok(required), locals, current, answer) == Failed(UnsupportedMessage(required))
  {
  }

  /** When the active version cannot be read, none counts as active: a
      supported requirement is always offered. */
  lemma UnreadableCurrentOffers(required: string, installed: seq<string>, e: string, word: string)
    requires required != "" && UtilCmd.IsGoVersionSupported(required)
    ensures Decide(Ok(required), Ok(installed), Err(e), Word(word)).Aborted?
      || Decide(Ok(required), Ok(installed), Err(e), Word(word)).SwitchTo?
  {
    var offer := Offer(required, required in installed);
    assert Decide(Ok(required), Ok(installed), Err(e), Word(word))
      == if ToLower(word) == "y" then SwitchTo(offer) else Aborted(offer);
  }

  /** When the requirement is the active version nothing is offered,
      whatever the answer would have been. */
  lemma ActiveRequirementIsKept(required: string, installed: seq<string>, answer: Answer)
    requires required != "" && UtilCmd.IsGoVersionSupported(required)
    ensures Decide(Ok(required), Ok(installed), Ok(required), answer) == AlreadyActive
  {
  }

  /** The "no suitable version" exit cannot happen: the candidate is the
      requirement, which is not empty at that point, so every failure is
      one of the `Error` reports or the unreadable answer. */
  lemma NoSuitableUnreachable(requirement: Result<string, string>, locals: Result<seq<string>, string>,
                              current: Result<string, string>, answer: Answer)
    ensures Decide(requirement, locals, current, answer).Failed? ==>
      var m := Decide(requirement, locals, current, answer).message;
      && ((|m| > 0 && m[0] == 'E') || m == "Invalid input")
      && forall required :: m != NoSuitableMessage(required)
  {
    FailureReports(requirement, locals, current, answer);
    ReportsAreNotNoSuitable(requirement, locals, current, answer);
  }

  lemma FailureReports(requirement: Result<string, string>, locals: Result<seq<string>, string>,
                       current: Result<string, string>, answer: Answer)
    ensures Decide(requirement, locals, current, answer).Failed? ==>
      var m := Decide(requirement, locals, current, answer).message;
      (|m| > 0 && m[0] == 'E') || m == "Invalid input"
  {
    match requirement
    case Err(e) => LookupFailure(e, locals, current, answer);
    case Ok(required) =>
      if required != "" {
        if !UtilCmd.IsGoVersionSupported(required) {
          UnsupportedFailure(required, locals, current, answer);
        } else if locals.Err? {
          LocalsFailure(required, locals.error, current, answer);
        } else {
          AnswerFailure(required, locals.value, current, answer);
        }
      }
  }

  lemma LookupFailure(e: string, locals: Result<seq<string>, string>, current: Result<string, string>, answer: Answer)
    ensures Decide(Err(e), locals, current, answer).message[0] == 'E'
  {
    ErrorOpening("Error determining go.mod version: ", e);
  }

  lemma UnsupportedFailure(required: string, locals: Result<seq<string>, string>, current: Result<string, string>, answer: Answer)
    requires required != "" && !UtilCmd.IsGoVersionSupported(required)
    ensures Decide(Ok(required), locals, current, answer).message[0] == 'E'
  {
    ErrorOpening("Error: The Go version required by go.mod (", required + ") is not supported. sgv only supports Go 1.13 and later.");
  }

  lemma LocalsFailure(required: string, e: string, current: Result<string, string>, answer: Answer)
    requires required != "" && UtilCmd.IsGoVersionSupported(required)
    ensures Decide(Ok(required), Err(e), current, answer).message[0] == 'E'
  {
    ErrorOpening("Error getting local versions: ", e);
  }

  lemma AnswerFailure(required: string, installed: seq<string>, current: Result<string, string>, answer: Answer)
    requires required != "" && UtilCmd.IsGoVersionSupported(required)
    ensures Decide(Ok(required), Ok(installed), current, answer).Failed? ==>
      Decide(Ok(required), Ok(installed), current, answer).message == "Invalid input"
  {
  }

  /** A message built on an `Error` opening starts with `E`. */
  lemma ReportsAreNotNoSuitable(requirement: Result<string, string>, locals: Result<seq<string>, string>,
                                current: Result<string, string>, answer: Answer)
    requires var r := Decide(requirement, locals, current, answer);
      r.Failed? ==> (|r.message| > 0 && r.message[0] == 'E') || r.message == "Invalid input"
    ensures Decide(requirement, locals, current, answer).Failed? ==>
      forall required :: Decide(requirement, locals, current, answer).message != NoSuitableMessage(required)
  {
    forall required ensures NoSuitableMessage(required)[0] == 'N' {
      NoSuitableOpening(required);
    }
  }

  lemma NoSuitableOpening(required: string)
    ensures NoSuitableMessage(required)[0] == 'N'
  {
    assert "No "[0] == 'N';
  }

  lemma ErrorOpening(opening: string, rest: string)
    requires |opening| > 0 && opening[0] == 'E'
    ensures (opening + rest)[0] == 'E'
  {
  }
}

=== FILE: cache.dfy ===
/** The remote-catalog cache of `internal/version/cache.go`: one cache file
    with a modification time, a temporary file used while saving, and a
    freshness duration. The clock is an integer count of nanoseconds (the
    unit of Go's `time.Duration`) passed in as `now`; JSON encoding is the
    abstract pair `Encode`/`Decode`. */
module Cache {
  import opened Wrappers
  import opened Version

  /** `time.Hour` in nanoseconds, the duration a new cache starts with. */
  const Hour: int := 3_600_000_000_000

  /** What reading a file gives: the encoding of a catalog, bytes that do
      not decode, or a read error. */
  datatype Content = Encoded(versions: seq<GoVersion>) | Garbled | Unreadable

  /** A file that `Stat` finds, with its modification time. */
  datatype Entry = Entry(modTime: int, content: Content)

  /** The cache: the cache file, the temporary file beside it
      (`cacheFile + ".tmp"`), and the freshness duration. `None` is a file
      whose `Stat` fails. */
  datatype VersionCache = VersionCache(file: Option<Entry>, temp: Option<Entry>, duration: int)

  /** `json.Marshal` of a catalog. */
  function Encode(vs: seq<GoVersion>): Content {
    Encoded(vs)
  }

  /** `json.Unmarshal` into a catalog; `Garbled` does not decode. */
  function Decode(c: Content): (r: Option<seq<GoVersion>>)
    ensures r.None? <==> !c.Encoded?
  {
    if c.Encoded? then Some(c.versions) else None
  }

  /** Decoding undoes encoding. */
  lemma DecodeEncode(vs: seq<GoVersion>)
    ensures Decode(Encode(vs)) == Some(vs)
  {
  }

  /** `NewVersionCache` over whatever files exist: the duration is one hour. */
  function NewVersionCache(file: Option<Entry>, temp: Option<Entry>): (c: VersionCache)
    ensures c.duration == Hour && c.file == file && c.temp == temp
  {
    VersionCache(file, temp, Hour)
  }

  /** The age test shared by `LoadFresh` and `IsExpired`: strictly older
      than the duration. */
  predicate TooOld(e: Entry, now: int, duration: int) {
    now - e.modTime > duration
  }

  /** `LoadFresh`: the catalog, if the file exists, is not older than the
      duration, reads and decodes. */
  function LoadFresh(c: VersionCache, now: int): (r: Result<seq<GoVersion>, string>)
    ensures c.file.None? ==> r == Err("cache file not found")
    ensures c.file.Some? && TooOld(c.file.value, now, c.duration) ==> r == Err("cache expired")
    ensures r.Ok? <==> c.file.Some? && !TooOld(c.file.value, now, c.duration) && c.file.value.content.Encoded?
    ensures r.Ok? ==> r.value == c.file.value.content.versions
  {
    match c.file
    case None => Err("cache file not found")
    case Some(e) =>
      if TooOld(e, now, c.duration) then Err("cache expired")
      else if e.content.Unreadable? then Err("failed to read cache file")
      else match Decode(e.content)
        case None => Err("failed to unmarshal cached data")
        case Some(vs) => Ok(vs)
  }

  /** `LoadStale`: the catalog whatever its age. */
  function LoadStale(c: VersionCache): (r: Result<seq<GoVersion>, string>)
    ensures r.Ok? <==> c.file.Some? && c.file.value.content.Encoded?
    ensures r.Ok? ==> r.value == c.file.value.content.versions
    ensures r.Err? && c.file.Some? && c.file.value.content.Garbled? ==> r.error == "failed to unmarshal stale cache"
  {
    match c.file
    case None => Err("failed to read stale cache")
    case Some(e) =>
      if e.content.Unreadable? then Err("failed to read stale cache")
      else match Decode(e.content)
        case None => Err("failed to unmarshal stale cache")
        case Some(vs) => Ok(vs)
  }

  /** `IsExpired`: a file that cannot be found counts as expired. */
  function IsExpired(c: VersionCache, now: int): (r: bool)
    ensures c.file.None? ==> r
    ensures c.file.Some? ==> (r <==> TooOld(c.file.value, now, c.duration))
  {
    match c.file
    case None => true
    case Some(e) => TooOld(e, now, c.duration)
  }

  /** A fresh load is a stale load that is not expired: the two loads agree
      on every fresh cache, and `LoadFresh` fails exactly when the cache is
      expired or the stale load fails. */
  lemma FreshIsStaleUnexpired(c: VersionCache, now: int)
    ensures LoadFresh(c, now).Ok? <==> !IsExpired(c, now) && LoadStale(c).Ok?
    ensures LoadFresh(c, now).Ok? ==> LoadFresh(c, now) == LoadStale(c)
    ensures LoadFresh(c, now) == Err("cache expired") <==> c.file.Some? && IsExpired(c, now)
  {
  }

  /** An age exactly equal to the duration is still fresh; one nanosecond
      more is expired. */
  lemma BoundaryIsFresh(c: VersionCache, modTime: int, vs: seq<GoVersion>)
    requires c.file == Some(Entry(modTime, Encode(vs)))
    ensures LoadFresh(c, modTime + c.duration) == Ok(vs)
    ensures LoadFresh(c, modTime + c.duration + 1) == Err("cache expired")
    ensures !IsExpired(c, modTime + c.duration) && IsExpired(c, modTime + c.duration + 1)
  {
  }

  /** Which steps of `Save` succeed: creating the cache directory, writing
      the temporary file, renaming it over the cache file, and removing the
      temporary file after a failed rename. */
  datatype SaveOutcome = SaveOutcome(mkdirOk: bool, writeOk: bool, renameOk: bool, removeOk: bool)

  /** `Save`: best effort, never an error. The encoding is written to the
      temporary file at time `now` and renamed over the cache file; after a
      failed rename the temporary file is removed, and a failing removal is
      ignored, so the temporary file then stays behind. */
  function Save(c: VersionCache, vs: seq<GoVersion>, now: int, outcome: SaveOutcome): (r: VersionCache)
    ensures r.duration == c.duration
    ensures r.file == Some(Entry(now, Encode(vs))) || r.file == c.file
    ensures outcome.mkdirOk && outcome.writeOk && outcome.renameOk ==> r.file == Some(Entry(now, Encode(vs)))
    ensures !(outcome.mkdirOk && outcome.writeOk && outcome.renameOk) ==> r.file == c.file
    ensures outcome.mkdirOk && outcome.writeOk ==>
      (r.temp.None? <==> outcome.renameOk || outcome.removeOk)
    ensures outcome.mkdirOk && outcome.writeOk && r.temp.Some? ==> r.temp == Some(Entry(now, Encode(vs)))
    ensures !(outcome.mkdirOk && outcome.writeOk) ==> r == c
  {
    if !outcome.mkdirOk || !outcome.writeOk then c
    else
      var staged := c.(temp := Some(Entry(now, Encode(vs))));
      if !outcome.renameOk then
        if outcome.removeOk then staged.(temp := None) else staged
      else staged.(file := staged.temp, temp := None)
  }

  /** After a successful save, the stale load gives back what was saved,
      and so does the fresh load for one duration from the save; whether a
      removal would have succeeded does not matter. */
  lemma SaveThenLoad(c: VersionCache, vs: seq<GoVersion>, now: int, later: int, removeOk: bool)
    requires now <= later <= now + c.duration
    ensures var saved := Save(c, vs, now, SaveOutcome(true, true, true, removeOk));
      && saved.temp.None?
      && LoadStale(saved) == Ok(vs)
      && LoadFresh(saved, later) == Ok(vs)
      && !IsExpired(saved, later)
  {
    DecodeEncode(vs);
  }

  /** A save whose rename fails loads exactly what the cache held before;
      the temporary file is gone exactly when its removal succeeds, and
      otherwise holds the new encoding. */
  lemma FailedRenameKeepsCache(c: VersionCache, vs: seq<GoVersion>, now: int, later: int, removeOk: bool)
    ensures var saved := Save(c, vs, now, SaveOutcome(true, true, false, removeOk));
      && (saved.temp.None? <==> removeOk)
      && (!removeOk ==> saved.temp == Some(Entry(now, Encode(vs))))
      && LoadStale(saved) == LoadStale(c)
      && LoadFresh(saved, later) == LoadFresh(c, later)
  {
  }

  /** What `Clear` leaves and the error it reports, if any. */
  datatype ClearResult = ClearResult(cache: VersionCache, error: Option<string>)

  /** `Clear`: removes the cache file; a file that is not there is no error.
      `removeOk` says whether removing an existing file succeeds. */
  function Clear(c: VersionCache, removeOk: bool): (r: ClearResult)
    ensures r.error.None? <==> c.file.None? || removeOk
    ensures r.error.None? ==> r.cache.file.None?
    ensures r.error.Some? ==> r.cache == c
    ensures r.cache.temp == c.temp && r.cache.duration == c.duration
  {
    if c.file.None? then ClearResult(c, None)
    else if removeOk then ClearResult(c.(file := None), None)
    else ClearResult(c, Some("failed to clear cache"))
  }

  /** After a successful clear every load fails and the cache is expired. */
  lemma ClearThenLoad(c: VersionCache, removeOk: bool, now: int)
    requires Clear(c, removeOk).error.None?
    ensures LoadStale(Clear(c, removeOk).cache).Err?
    ensures LoadFresh(Clear(c, removeOk).cache, now) == Err("cache file not found")
    ensures IsExpired(Clear(c, removeOk).cache, now)
  {
  }

  /** `SetCacheDuration`: replaces the duration and nothing else. */
  function SetCacheDuration(c: VersionCache, duration: int): (r: VersionCache)
    ensures r.duration == duration
    ensures r.file == c.file && r.temp == c.temp
  {
    c.(duration := duration)
  }

  /** The duration only moves the freshness boundary: the stale load is
      unaffected, and a longer duration never turns a fresh cache stale. */
  lemma DurationOnlyMovesBoundary(c: VersionCache, duration: int, now: int)
    requires duration >= c.duration
    ensures LoadStale(SetCacheDuration(c, duration)) == LoadStale(c)
    ensures LoadFresh(c, now).Ok? ==> LoadFresh(SetCacheDuration(c, duration), now) == LoadFresh(c, now)
    ensures IsExpired(SetCacheDuration(c, duration), now) ==> IsExpired(c, now)
  {
  }

  /** What `GetCacheInfo` reports besides the path: whether the cache is
      expired, and the modification time when the file exists (the zero time
      otherwise, here `None`). */
  function GetCacheInfo(c: VersionCache, now: int): (r: (bool, Option<int>))
    ensures r.1.None? <==> c.file.None?
    ensures r.1.Some? ==> r.1.value == c.file.value.modTime
  {
    match c.file
    case None => (true, None)
    case Some(e) => (IsExpired(c, now), Some(e.modTime))
  }

  /** The expiry `GetCacheInfo` reports is that of `IsExpired`. */
  lemma CacheInfoExpiry(c: VersionCache, now: int)
    ensures GetCacheInfo(c, now).0 == IsExpired(c, now)
  {
  }
}

=== FILE: env_cmd.dfy ===
/** The `env` command of `cmd/env.go`: parsing of the `-w KEY=VALUE` and
    `-u KEY` arguments, the `--clear` confirmation, the `--shell [--clean]`
    output, and the order in which the flags are looked at. Printed text is
    returned as sequences of lines; the user's answer is an input string. */
module EnvCmd {
  import opened Wrappers
  import opened Text
  import opened Order
  import opened FileSystem
  import opened EnvStore

  // ------------------------------------------------------------- arguments

  /** `handleWriteFlag`'s parsing: split at the first `=`, trim both sides,
      refuse an empty key. The value keeps any further `=`. */
  function ParseWriteArg(arg: string): (r: Result<(string, string), string>)
    ensures r.Err? <==> '=' !in arg || TrimSpace(Cut(arg, '=').value.0) == ""
    ensures r.Ok? ==> r.value == (TrimSpace(Cut(arg, '=').value.0), TrimSpace(Cut(arg, '=').value.1))
    ensures r.Ok? ==> r.value.0 != "" && IsTrimmingOf(r.value.0, Cut(arg, '=').value.0)
  {
    match Cut(arg, '=')
    case None => Err("invalid format: expected KEY=VALUE, got " + arg)
    case Some((k, v)) =>
      var key := TrimSpace(k);
      if key == "" then Err("environment variable name cannot be empty")
      else Ok((key, TrimSpace(v)))
  }

  /** Round trip: a trimmed key without `=` and a trimmed value written as
      `KEY=VALUE` parse back to themselves, whatever `=` the value holds. */
  lemma ParseWriteArgOfPair(key: string, value: string)
    requires key != [] && '=' !in key && !IsSpace(key[0]) && !IsSpace(key[|key| - 1])
    requires value == [] || (!IsSpace(value[0]) && !IsSpace(value[|value| - 1]))
    ensures ParseWriteArg(key + "=" + value) == Ok((key, value))
  {
    assert key + "=" + value == key + ['='] + value;
    CutCons(key, '=', value);
    TrimSpaceNoop(key);
    TrimSpaceNoop(value);
  }

  /** `handleWriteFlag`: a rejected argument never reaches the store. */
  function HandleWrite(fs: Fs, cfg: Config, version: string, arg: string): (r: Result<Fs, string>)
    ensures ParseWriteArg(arg).Err? ==> r == Err(ParseWriteArg(arg).error)
    ensures ParseWriteArg(arg).Ok? ==>
      r == SetEnvVar(fs, cfg, version, ParseWriteArg(arg).value.0, ParseWriteArg(arg).value.1)
  {
    match ParseWriteArg(arg)
    case Err(e) => Err(e)
    case Ok((key, value)) => SetEnvVar(fs, cfg, version, key, value)
  }

  /** A successful write stores the trimmed value under the trimmed key. */
  lemma HandleWriteStores(fs: Fs, cfg: Config, version: string, arg: string)
    requires '\n' !in version && '\n' !in arg
    requires HandleWrite(fs, cfg, version, arg).Ok?
    ensures var kv := ParseWriteArg(arg).value;
      LoadEnvVars(HandleWrite(fs, cfg, version, arg).value, cfg, version)
        == Ok(LoadEnvVars(fs, cfg, version).value[kv.0 := kv.1])
  {
    var kv := ParseWriteArg(arg).value;
    var parts := Cut(arg, '=').value;
    assert arg == parts.0 + ['='] + parts.1;
    TrimmedIsPart(parts.1);
    SetThenLoad(fs, cfg, version, kv.0, kv.1);
  }

  /** Trimming keeps only characters of the string. */
  lemma TrimmedIsPart(s: string)
    ensures forall c | c in TrimSpace(s) :: c in s
  {
    var i := TrimLeft(s);
    var j := i + TrimRight(s[i..]);
    assert TrimSpace(s) == s[i..j];
    forall c | c in s[i..j] ensures c in s {
      var k :| 0 <= k < j - i && s[i..j][k] == c;
      assert s[i + k] == c;
    }
  }

  /** `handleUnsetFlag`: the key is trimmed and an empty key is refused
      before the store is called. */
  function HandleUnset(fs: Fs, cfg: Config, version: string, key: string): (r: Result<Fs, string>)
    ensures TrimSpace(key) == "" ==> r == Err("environment variable name cannot be empty")
    ensures TrimSpace(key) != "" ==> r == UnsetEnvVar(fs, cfg, version, TrimSpace(key))
  {
    var k := TrimSpace(key);
    if k == "" then Err("environment variable name cannot be empty")
    else UnsetEnvVar(fs, cfg, version, k)
  }

  // ------------------------------------------------------------------ clear

  /** How `handleClearFlag` ended. */
  datatype ClearAction = NothingToClear | Cancelled | Cleared

  /** `handleClearFlag`: nothing to do for an empty overlay; otherwise the
      listing and the prompt, and only a `y` answer clears. */
  function HandleClear(fs: Fs, cfg: Config, version: string, response: string): (r: Result<(Fs, ClearAction), string>)
    ensures LoadEnvVars(fs, cfg, version).Err? ==> r.Err?
    ensures r.Ok? ==> LoadEnvVars(fs, cfg, version).Ok?
    ensures r.Ok? && r.value.1 == NothingToClear <==> LoadEnvVars(fs, cfg, version) == Ok(map[])
    ensures r.Ok? && r.value.1 == Cleared ==> (IsYes(response)
      && LoadEnvVars(fs, cfg, version).value != map[]
      && r.value.0 == ClearAllEnvVars(fs, cfg, version).value)
    ensures r.Ok? && r.value.1 != Cleared ==> r.value.0 == fs
    ensures LoadEnvVars(fs, cfg, version).Ok? && LoadEnvVars(fs, cfg, version).value != map[] && !IsYes(response)
      ==> r == Ok((fs, Cancelled))
  {
    match LoadEnvVars(fs, cfg, version)
    case Err(e) => Err("failed to load environment variables: " + e)
    case Ok(vars) =>
      if |vars| == 0 then Ok((fs, NothingToClear))
      else if !IsYes(response) then Ok((fs, Cancelled))
      else match ClearAllEnvVars(fs, cfg, version)
        case Err(e) => Err(e)
        case Ok(fs') => Ok((fs', Cleared))
  }

  // ----------------------------------------------------------------- listing

  /** The `  KEY=VALUE` lines of `listEnvVars` and of the clear prompt. */
  function ListLines(vars: EnvVars): (r: seq<string>)
    ensures |r| == |vars|
    ensures forall i | 0 <= i < |r| :: r[i] == "  " + EntryLine(SortedSet(vars.Keys)[i], vars[SortedSet(vars.Keys)[i]])
  {
    var keys := SortedSet(vars.Keys);
    seq(|keys|, i requires 0 <= i < |keys| => "  " + EntryLine(keys[i], vars[keys[i]]))
  }

  // ------------------------------------------------------------------- shell

  /** The keys of every other version's overlay. */
  ghost predicate InOtherVersion(all: map<string, EnvVars>, version: string, key: string) {
    exists v | v in all && v != version :: key in all[v]
  }

  /** The union of the key sets of the listed versions other than `version`,
      built the way `outputShellFormat` fills `otherVersionVars`. */
  function OtherKeys(all: map<string, EnvVars>, versions: seq<string>, version: string): set<string>
    requires forall i | 0 <= i < |versions| :: versions[i] in all
  {
    if |versions| == 0 then {}
    else
      var last := versions[|versions| - 1];
      var rest := OtherKeys(all, versions[..|versions| - 1], version);
      if last != version then rest + all[last].Keys else rest
  }

  lemma {:induction false} OtherKeysSpec(all: map<string, EnvVars>, versions: seq<string>, version: string, key: string)
    requires forall i | 0 <= i < |versions| :: versions[i] in all
    ensures key in OtherKeys(all, versions, version) <==>
      exists i | 0 <= i < |versions| :: versions[i] != version && key in all[versions[i]]
    decreases |versions|
  {
    if |versions| > 0 {
      var init := versions[..|versions| - 1];
      OtherKeysSpec(all, init, version, key);
      assert forall i | 0 <= i < |init| :: init[i] == versions[i];
    }
  }

  /** The keys `--clean` unsets: in some other version's overlay, not
      protected, and not in the current overlay. */
  function UnsetKeys(all: map<string, EnvVars>, version: string, current: EnvVars): (r: set<string>)
    ensures forall k :: k in r <==> InOtherVersion(all, version, k) && !IsProtectedVar(k) && k !in current
  {
    var versions := SortedSet(all.Keys);
    var others := OtherKeys(all, versions, version);
    forall k ensures k in others <==> InOtherVersion(all, version, k) {
      OtherKeysSpec(all, versions, version, k);
      if InOtherVersion(all, version, k) {
        var v :| v in all && v != version && k in all[v];
        var i :| 0 <= i < |versions| && versions[i] == v;
      }
    }
    set k | k in others && !IsProtectedVar(k) && k !in current
  }

  /** An `export` line. */
  function ExportLine(key: string, value: string): string {
    "export " + key + "='" + value + "'"
  }

  /** One export per variable, in ascending key order. */
  function ExportLines(current: EnvVars): (r: seq<string>)
    ensures |r| == |current|
    ensures forall i | 0 <= i < |r| :: r[i] == ExportLine(SortedSet(current.Keys)[i], current[SortedSet(current.Keys)[i]])
  {
    var keys := SortedSet(current.Keys);
    seq(|keys|, i requires 0 <= i < |keys| => ExportLine(keys[i], current[keys[i]]))
  }

  /** The output of `outputShellFormat`: the keys to unset, then one export
      per current variable (both in ascending key order, where the program
      follows map iteration order). */
  datatype ShellOutput = ShellOutput(unsets: seq<string>, exports: seq<string>)

  /** `outputShellFormat`; `all` is what `GetAllEnvVars` returns. */
  function OutputShellFormat(fs: Fs, cfg: Config, version: string, clean: bool,
                             all: Result<map<string, EnvVars>, string>): (r: Result<ShellOutput, string>)
    ensures r.Ok? <==> LoadEnvVars(fs, cfg, version).Ok? && (clean ==> all.Ok?)
    ensures r.Ok? && !clean ==> r.value.unsets == []
    ensures r.Ok? && clean ==> forall k :: k in r.value.unsets <==>
      InOtherVersion(all.value, version, k) && !IsProtectedVar(k) && k !in LoadEnvVars(fs, cfg, version).value
    ensures r.Ok? ==> r.value.exports == ExportLines(LoadEnvVars(fs, cfg, version).value)
  {
    match LoadEnvVars(fs, cfg, version)
    case Err(e) => Err("failed to load environment variables: " + e)
    case Ok(current) =>
      var exports := ExportLines(current);
      if !clean then Ok(ShellOutput([], exports))
      else match all
        case Err(e) => Err("failed to get all environment variables: " + e)
        case Ok(vars) => Ok(ShellOutput(SortedSet(UnsetKeys(vars, version, current)), exports))
  }

  /** The key of an export line can be read back from it. */
  lemma ExportKey(key: string, value: string)
    requires '=' !in key
    ensures Cut(ExportLine(key, value)[7..], '=') == Some((key, "'" + value + "'"))
  {
    assert ExportLine(key, value)[7..] == key + ['='] + ("'" + value + "'");
    CutCons(key, '=', "'" + value + "'");
  }

  /** Each variable is exported, every export is of a variable, and no
      line is repeated: exactly one export per key. */
  lemma ExportsOncePerKey(current: EnvVars)
    requires WellFormed(current)
    ensures forall k | k in current :: ExportLine(k, current[k]) in ExportLines(current)
    ensures forall i | 0 <= i < |ExportLines(current)| :: exists k | k in current :: ExportLines(current)[i] == ExportLine(k, current[k])
    ensures NoDuplicates(ExportLines(current))
  {
    ExportsCoverKeys(current);
    ExportsDistinct(current);
  }

  lemma ExportsCoverKeys(current: EnvVars)
    ensures forall k | k in current :: ExportLine(k, current[k]) in ExportLines(current)
  {
    var exports := ExportLines(current);
    var keys := SortedSet(current.Keys);
    forall k | k in current ensures ExportLine(k, current[k]) in exports {
      var i :| 0 <= i < |keys| && keys[i] == k;
      assert exports[i] == ExportLine(k, current[k]);
    }
  }

  lemma ExportsDistinct(current: EnvVars)
    requires WellFormed(current)
    ensures NoDuplicates(ExportLines(current))
  {
    var exports := ExportLines(current);
    var keys := SortedSet(current.Keys);
    forall i, j | 0 <= i < j < |exports| ensures exports[i] != exports[j] {
      assert Less(keys[i], keys[j]);
      LessIrreflexive(keys[i]);
      assert keys[i] in current && keys[j] in current;
      DistinctExports(current, keys[i], keys[j]);
    }
  }

  lemma DistinctExports(current: EnvVars, a: string, b: string)
    requires WellFormed(current) && a in current && b in current && a != b
    ensures ExportLine(a, current[a]) != ExportLine(b, current[b])
  {
    NameExcludes(a, '=');
    NameExcludes(b, '=');
    ExportKey(a, current[a]);
    ExportKey(b, current[b]);
  }

  /** A key that is set for the current version is never unset. */
  lemma CleanKeepsCurrent(fs: Fs, cfg: Config, version: string, all: Result<map<string, EnvVars>, string>, key: string)
    requires OutputShellFormat(fs, cfg, version, true, all).Ok?
    requires key in LoadEnvVars(fs, cfg, version).value || IsProtectedVar(key)
    ensures key !in OutputShellFormat(fs, cfg, version, true, all).value.unsets
  {
  }

  // ---------------------------------------------------------------- dispatch

  /** Which handler the `env` command runs; `Rejected` is cobra refusing the
      command line before the handler starts. */
  datatype EnvAction = Rejected | ClearAll | Shell | Write(arg: string) | Unset(key: string) | List

  /** The flags of one `env` command line. A flag in the exclusive group is
      `None` when it is not on the command line and `Some` of its value when
      it is, so `-w ""` and `--clear=false` count as given. */
  datatype EnvFlags = EnvFlags(clear: Option<bool>, shell: bool, write: Option<string>, unset: Option<string>)

  /** How many of `--write`, `--unset` and `--clear` are on the command
      line. */
  function ExclusiveGiven(f: EnvFlags): nat {
    (if f.clear.Some? then 1 else 0) + (if f.write.Some? then 1 else 0) + (if f.unset.Some? then 1 else 0)
  }

  /** The value a flag holds: the one given, or its default. */
  function FlagValue<T>(o: Option<T>, default: T): T {
    if o.Some? then o.value else default
  }

  /** `env` as cobra runs it: with two or more of `--write`, `--unset` and
      `--clear` given the command is refused; otherwise the handler is
      chosen by clear, then shell, then write, then unset, and listing when
      none applies. */
  function Dispatch(f: EnvFlags): (a: EnvAction)
    ensures a == Rejected <==> ExclusiveGiven(f) >= 2
    ensures a == ClearAll <==> ExclusiveGiven(f) < 2 && f.clear == Some(true)
    ensures a == Shell <==> ExclusiveGiven(f) < 2 && f.clear != Some(true) && f.shell
    ensures a.Write? <==> (ExclusiveGiven(f) < 2 && f.clear != Some(true) && !f.shell
      && f.write.Some? && f.write.value != "")
    ensures a.Unset? <==> (ExclusiveGiven(f) < 2 && f.clear != Some(true) && !f.shell
      && FlagValue(f.write, "") == "" && f.unset.Some? && f.unset.value != "")
    ensures a.Write? ==> a.arg == f.write.value
    ensures a.Unset? ==> a.key == f.unset.value
  {
    var clear, write, unset := FlagValue(f.clear, false), FlagValue(f.write, ""), FlagValue(f.unset, "");
    if ExclusiveGiven(f) >= 2 then Rejected
    else if clear then ClearAll
    else if f.shell then Shell
    else if write != "" then Write(write)
    else if unset != "" then Unset(unset)
    else List
  }

  /** Whenever a handler runs, at most one of the exclusive flags was given,
      so the precedence among clear, write and unset never decides anything:
      a handler that changes the overlay is the one its own flag names. */
  lemma DispatchNamesOneMutation(f: EnvFlags)
    ensures Dispatch(f) == ClearAll ==> f.write.None? && f.unset.None?
    ensures Dispatch(f).Write? ==> f.clear.None? && f.unset.None?
    ensures Dispatch(f).Unset? ==> f.clear.None? && f.write.None?
    ensures Dispatch(f) != Rejected && f.clear.Some? ==> f.write.None? && f.unset.None?
  {
    var n := ExclusiveGiven(f);
    if f.clear.Some? && (f.write.Some? || f.unset.Some?) {
      assert n >= 2;
    }
    if f.write.Some? && f.unset.Some? {
      assert n >= 2;
    }
  }

  /** Combining two of the exclusive flags is refused whatever their values,
      `--shell` included: `env --clear -w A=1` and `env -w A=1 -u B` run no
      handler. */
  lemma CombinedFlagsRejected(shell: bool, clear: bool, w: string, u: string)
    ensures Dispatch(EnvFlags(Some(clear), shell, Some(w), None)) == Rejected
    ensures Dispatch(EnvFlags(None, shell, Some(w), Some(u))) == Rejected
    ensures Dispatch(EnvFlags(Some(clear), shell, None, Some(u))) == Rejected
  {
  }

  /** `--shell` is outside the exclusive group: together with one of the
      group it takes precedence over write and unset, but not over clear. */
  lemma ShellBesideOneFlag(w: string, u: string)
    ensures Dispatch(EnvFlags(None, true, Some(w), None)) == Shell
    ensures Dispatch(EnvFlags(None, true, None, Some(u))) == Shell
    ensures Dispatch(EnvFlags(Some(true), true, None, None)) == ClearAll
  {
  }
}

=== FILE: env_store.dfy ===
/** The per-version environment overlay store of the `env` package: one file
    `<envDir>/<version>.env` per Go version, holding `KEY=VALUE` lines under
    two header comments. The package's implementation is not part of this
    model; its behaviour here is the one `internal/env/env_test.go` pins
    down. */
module EnvStore {
  import opened Wrappers
  import opened Text
  import opened Order
  import opened FileSystem

  /** The variables of one version (`EnvVars`). */
  type EnvVars = map<string, string>

  // ------------------------------------------------------------------- names

  predicate IsNameStart(c: char) {
    IsAsciiUpper(c) || IsAsciiLower(c) || c == '_'
  }

  predicate IsNameChar(c: char) {
    IsNameStart(c) || IsAsciiDigit(c)
  }

  /** The variable-name grammar `[A-Za-z_][A-Za-z0-9_]*` over ASCII. */
  predicate ValidName(name: string) {
    && |name| > 0
    && IsNameStart(name[0])
    && forall i | 1 <= i < |name| :: IsNameChar(name[i])
  }

  /** The scanner behind `ValidateVarName`: every character is a name
      character. */
  function NameTail(s: string): bool {
    |s| == 0 || (IsNameChar(s[0]) && NameTail(s[1..]))
  }

  lemma {:induction false} NameTailSpec(s: string)
    ensures NameTail(s) <==> forall i | 0 <= i < |s| :: IsNameChar(s[i])
    decreases |s|
  {
    if |s| > 0 {
      NameTailSpec(s[1..]);
      assert forall i | 1 <= i < |s| :: s[i] == s[1..][i - 1];
    }
  }

  /** `ValidateVarName`: no error exactly for names of the grammar; the
      error names the rejected variable. */
  function ValidateVarName(name: string): (r: Option<string>)
    ensures r.None? <==> ValidName(name)
    ensures r.Some? ==> Contains(r.value, name)
  {
    ScanMatchesGrammar(name);
    if |name| > 0 && IsNameStart(name[0]) && NameTail(name[1..]) then None
    else
      ContainsMiddle("invalid environment variable name '", name, "'");
      Some("invalid environment variable name '" + name + "'")
  }

  /** The scan accepts exactly the grammar. */
  lemma ScanMatchesGrammar(name: string)
    ensures ValidName(name) <==> |name| > 0 && IsNameStart(name[0]) && NameTail(name[1..])
  {
    if |name| > 0 {
      NameTailSpec(name[1..]);
      assert forall i | 1 <= i < |name| :: name[i] == name[1..][i - 1];
    }
  }

  /** The accepted and rejected names of `TestValidateVarName`. */
  lemma ValidNameExamples()
    ensures ValidName("VAR_NAME") && ValidName("VAR123") && ValidName("_VAR") && ValidName("_")
    ensures !ValidName("") && !ValidName("123VAR") && !ValidName("VAR-NAME")
    ensures !ValidName("VAR NAME") && !ValidName("VAR.NAME") && !ValidName("VAR@NAME")
    ensures !ValidName("VAR中文")
  {
    assert !IsNameChar("VAR-NAME"[3]);
    assert !IsNameChar("VAR NAME"[3]);
    assert !IsNameChar("VAR.NAME"[3]);
    assert !IsNameChar("VAR@NAME"[3]);
    assert !IsNameChar("VAR中文"[3]);
  }

  // ------------------------------------------------------------ protection

  /** The toolchain's own variables, which an overlay may not touch. */
  const ProtectedVars: set<string> := {
    "GOROOT", "GOPATH", "GOPROXY", "GOSUMDB", "GONOPROXY", "GONOSUMDB",
    "GOPRIVATE", "GO111MODULE", "GOOS", "GOARCH", "CGO_ENABLED"
  }

  /** `IsProtectedVar`: membership in `ProtectedVars` ignoring case. */
  predicate IsProtectedVar(name: string) {
    ToUpper(name) in ProtectedVars
  }

  lemma UpperOfLower(s: string)
    ensures ToUpper(ToLower(s)) == ToUpper(s)
  {
  }

  /** Protection does not depend on case. */
  lemma ProtectedIgnoresCase(name: string)
    ensures IsProtectedVar(ToLower(name)) <==> IsProtectedVar(name)
    ensures IsProtectedVar(ToUpper(name)) <==> IsProtectedVar(name)
  {
    UpperOfLower(name);
    assert ToUpper(ToUpper(name)) == ToUpper(name);
  }

  /** A character whose upper case is a name character is one itself. */
  lemma UpperKeepsNameChar(c: char)
    ensures IsNameChar(UpperChar(c)) ==> IsNameChar(c)
    ensures IsNameStart(UpperChar(c)) ==> IsNameStart(c)
  {
  }

  lemma ProtectedValid(p: string)
    requires p in ProtectedVars
    ensures ValidName(p)
  {
    assert forall i | 1 <= i < |p| :: IsNameChar(p[i]);
  }

  /** Every protected name is a valid name, so the protection error is the
      one a protected name gets whichever check comes first. */
  lemma {:induction false} ProtectedIsValid(name: string)
    ensures IsProtectedVar(name) ==> ValidName(name)
  {
    if IsProtectedVar(name) {
      var u := ToUpper(name);
      ProtectedValid(u);
      UpperKeepsNameChar(name[0]);
      forall i | 1 <= i < |name| ensures IsNameChar(name[i]) {
        assert IsNameChar(u[i]);
        UpperKeepsNameChar(name[i]);
      }
    }
  }

  /** The cases of `TestIsProtectedVar`. */
  lemma ProtectedExamples()
    ensures IsProtectedVar("goroot") && IsProtectedVar("GoPath") && IsProtectedVar("CGO_ENABLED")
    ensures !IsProtectedVar("GODEBUG") && !IsProtectedVar("GOWORK") && !IsProtectedVar("GO_CUSTOM")
    ensures !IsProtectedVar("MY_VAR") && !IsProtectedVar("")
  {
    assert ToUpper("goroot") == "GOROOT";
    assert ToUpper("GoPath") == "GOPATH";
    assert ToUpper("CGO_ENABLED") == "CGO_ENABLED";
    assert ToUpper("GODEBUG") == "GODEBUG";
    assert ToUpper("GOWORK") == "GOWORK";
    assert ToUpper("GO_CUSTOM") == "GO_CUSTOM";
    assert ToUpper("MY_VAR") == "MY_VAR";
  }

  // ------------------------------------------------------------ file format

  /** The two comment lines every saved file starts with. */
  function HeaderLines(version: string): seq<string> {
    [TitleComment + version, GeneratedComment]
  }

  const TitleComment := "# Environment variables for Go version "
  const GeneratedComment := "# Generated by sgv - do not edit manually"

  /** A line the parser passes over: blank or a `#` comment. */
  predicate IsSkipped(line: string) {
    line == "" || HasPrefix(line, "#")
  }

  /** A line that makes the whole load fail: neither skipped nor a
      `KEY=VALUE` line with a valid key. */
  predicate IsMalformed(line: string) {
    !IsSkipped(line) && (Cut(line, '=').None? || !ValidName(Cut(line, '=').value.0))
  }

  /** What one line does to the variables read so far: skipped lines change
      nothing; otherwise the line splits at its first `=` and the key must be
      valid; a later line for the same key overwrites an earlier one. */
  function ParseLine(line: string, vars: EnvVars): (r: Result<EnvVars, string>)
    ensures r.Err? <==> IsMalformed(line)
    ensures IsSkipped(line) ==> r == Ok(vars)
    ensures r.Ok? && !IsSkipped(line) ==> r.value == vars[Cut(line, '=').value.0 := Cut(line, '=').value.1]
  {
    if IsSkipped(line) then Ok(vars)
    else match Cut(line, '=')
      case None => Err("invalid line in environment file: " + line)
      case Some((key, value)) =>
        if !ValidName(key) then Err("invalid variable name in environment file: " + key)
        else Ok(vars[key := value])
  }

  /** The lines in order, stopping at the first malformed one. */
  function ParseLines(lines: seq<string>): Result<EnvVars, string>
    decreases |lines|
  {
    if |lines| == 0 then Ok(map[])
    else match ParseLines(lines[..|lines| - 1])
      case Err(e) => Err(e)
      case Ok(vars) => ParseLine(lines[|lines| - 1], vars)
  }

  /** The file content as `LoadEnvVars` reads it: split at line feeds. */
  function Parse(content: string): Result<EnvVars, string> {
    ParseLines(Split(content, '\n'))
  }

  /** Keys of the grammar and values without line feeds: the maps the file
      format can hold. */
  predicate WellFormed(vars: EnvVars) {
    forall k | k in vars :: ValidName(k) && '\n' !in vars[k]
  }

  /** A single malformed line fails the whole load. */
  lemma {:induction false} MalformedLineFails(lines: seq<string>, i: int)
    requires 0 <= i < |lines| && IsMalformed(lines[i])
    ensures ParseLines(lines).Err?
    decreases |lines|
  {
    if i < |lines| - 1 {
      MalformedLineFails(lines[..|lines| - 1], i);
    }
  }

  /** Whatever loads is well formed. */
  lemma {:induction false} ParsedIsWellFormed(lines: seq<string>)
    requires SeparatorFree(lines, '\n')
    ensures ParseLines(lines).Ok? ==> WellFormed(ParseLines(lines).value)
    decreases |lines|
  {
    if |lines| > 0 {
      var init := lines[..|lines| - 1];
      var line := lines[|lines| - 1];
      assert SeparatorFree(init, '\n') by {
        assert forall i | 0 <= i < |init| :: init[i] == lines[i];
      }
      ParsedIsWellFormed(init);
      assert '\n' !in line;
    }
  }

  /** The lines of a well-formed file's contents are separator free. */
  lemma ParsedContentIsWellFormed(content: string)
    ensures Parse(content).Ok? ==> WellFormed(Parse(content).value)
  {
    ParsedIsWellFormed(Split(content, '\n'));
  }

  /** The `KEY=VALUE` line of one variable. */
  function EntryLine(key: string, value: string): string {
    key + "=" + value
  }

  /** The lines of the given keys, in the given order. */
  function EntryLines(vars: EnvVars, keys: seq<string>): (r: seq<string>)
    requires forall i | 0 <= i < |keys| :: keys[i] in vars
    ensures |r| == |keys|
    ensures forall i | 0 <= i < |keys| :: r[i] == EntryLine(keys[i], vars[keys[i]])
  {
    seq(|keys|, i requires 0 <= i < |keys| => EntryLine(keys[i], vars[keys[i]]))
  }

  /** The content `SaveEnvVars` writes: the header, then one line per key in
      ascending key order, every line ended by a line feed. */
  function Serialize(version: string, vars: EnvVars): (content: string) {
    Join(HeaderLines(version) + EntryLines(vars, SortedSet(vars.Keys)) + [""], '\n')
  }

  /** A valid name contains no character outside the grammar, so no `=`,
      `#` or line feed. */
  lemma NameExcludes(name: string, c: char)
    requires ValidName(name) && !IsNameChar(c)
    ensures c !in name
  {
  }

  /** A line starting with `#` is skipped. */
  lemma CommentSkipped(line: string)
    requires |line| > 0 && line[0] == '#'
    ensures IsSkipped(line)
  {
    assert line[..1] == [line[0]];
  }

  lemma HeaderIsFree(version: string)
    requires '\n' !in version
    ensures SeparatorFree(HeaderLines(version), '\n')
    ensures forall i | 0 <= i < |HeaderLines(version)| :: IsSkipped(HeaderLines(version)[i])
  {
    CommentsFree();
    NotInConcat(TitleComment, version, '\n');
    assert (TitleComment + version)[0] == '#';
    CommentSkipped(TitleComment + version);
    CommentSkipped(GeneratedComment);
  }

  lemma CommentsFree()
    ensures '\n' !in TitleComment && '\n' !in GeneratedComment
    ensures |TitleComment| > 0 && TitleComment[0] == '#'
    ensures |GeneratedComment| > 0 && GeneratedComment[0] == '#'
  {
    TitleFree();
    GeneratedFree();
  }

  lemma TitleFree()
    ensures '\n' !in TitleComment
  {
  }

  lemma GeneratedFree()
    ensures '\n' !in GeneratedComment
  {
  }

  lemma NotInConcat(a: string, b: string, c: char)
    requires c !in a && c !in b
    ensures c !in a + b
  {
  }

  lemma EntryLinesAreFree(vars: EnvVars, keys: seq<string>)
    requires WellFormed(vars)
    requires forall i | 0 <= i < |keys| :: keys[i] in vars
    ensures SeparatorFree(EntryLines(vars, keys), '\n')
  {
    forall i | 0 <= i < |keys| ensures '\n' !in EntryLines(vars, keys)[i] {
      NameExcludes(keys[i], '\n');
    }
  }

  lemma ConcatIsFree(a: seq<string>, b: seq<string>, c: char)
    requires SeparatorFree(a, c) && SeparatorFree(b, c)
    ensures SeparatorFree(a + b, c)
  {
    forall i | 0 <= i < |a + b| ensures c !in (a + b)[i] {
      if i >= |a| {
        assert (a + b)[i] == b[i - |a|];
      }
    }
  }

  /** The lines of a saved file: the header, the variables sorted by key,
      and the empty piece after the final line feed. */
  lemma SerializedLines(version: string, vars: EnvVars)
    requires '\n' !in version && WellFormed(vars)
    ensures var keys := SortedSet(vars.Keys);
      && StrictlySorted(keys)
      && Split(Serialize(version, vars), '\n') == HeaderLines(version) + EntryLines(vars, keys) + [""]
  {
    var keys := SortedSet(vars.Keys);
    HeaderIsFree(version);
    EntryLinesAreFree(vars, keys);
    ConcatIsFree(HeaderLines(version), EntryLines(vars, keys), '\n');
    ConcatIsFree(HeaderLines(version) + EntryLines(vars, keys), [""], '\n');
    SplitJoin(HeaderLines(version) + EntryLines(vars, keys) + [""], '\n');
  }

  lemma {:induction false} SkippedLinesParseEmpty(lines: seq<string>)
    requires forall i | 0 <= i < |lines| :: IsSkipped(lines[i])
    ensures ParseLines(lines) == Ok(map[])
    decreases |lines|
  {
    if |lines| > 0 {
      SkippedLinesParseEmpty(lines[..|lines| - 1]);
    }
  }

  /** The line of a variable with a valid key sets that variable. */
  lemma ParseEntryLine(key: string, value: string, vars: EnvVars)
    requires ValidName(key)
    ensures ParseLine(EntryLine(key, value), vars) == Ok(vars[key := value])
  {
    var line := EntryLine(key, value);
    assert line == key + ['='] + value;
    NameExcludes(key, '=');
    CutCons(key, '=', value);
    assert line[0] == key[0];
    NameExcludes(key, '#');
  }

  lemma RestrictSnoc(vars: EnvVars, keys: seq<string>)
    requires |keys| > 0 && forall i | 0 <= i < |keys| :: keys[i] in vars
    ensures (map k | k in keys[..|keys| - 1] :: vars[k])[keys[|keys| - 1] := vars[keys[|keys| - 1]]]
      == map k | k in keys :: vars[k]
  {
    assert keys == keys[..|keys| - 1] + [keys[|keys| - 1]];
  }

  /** Parsing skipped lines followed by entry lines rebuilds those entries. */
  lemma {:induction false} ParseEntries(header: seq<string>, vars: EnvVars, keys: seq<string>)
    requires forall i | 0 <= i < |header| :: IsSkipped(header[i])
    requires forall i | 0 <= i < |keys| :: keys[i] in vars && ValidName(keys[i])
    ensures ParseLines(header + EntryLines(vars, keys)) == Ok(map k | k in keys :: vars[k])
    decreases |keys|
  {
    var lines := header + EntryLines(vars, keys);
    if |keys| == 0 {
      assert lines == header;
      SkippedLinesParseEmpty(header);
    } else {
      var init := keys[..|keys| - 1];
      var last := keys[|keys| - 1];
      assert lines[..|lines| - 1] == header + EntryLines(vars, init);
      ParseEntries(header, vars, init);
      assert lines[|lines| - 1] == EntryLine(last, vars[last]);
      ParseEntryLine(last, vars[last], map k | k in init :: vars[k]);
      RestrictSnoc(vars, keys);
    }
  }

  /** Round trip: loading what was saved gives the variables back, for
      line-feed-free versions and well-formed variables (values may be
      empty, quoted, unicode or contain `=`). */
  lemma ParseSerialize(version: string, vars: EnvVars)
    requires '\n' !in version && WellFormed(vars)
    ensures Parse(Serialize(version, vars)) == Ok(vars)
  {
    var keys := SortedSet(vars.Keys);
    SerializedLines(version, vars);
    var lines := HeaderLines(version) + EntryLines(vars, keys);
    assert (lines + [""])[..|lines|] == lines;
    HeaderIsFree(version);
    ParseEntries(HeaderLines(version), vars, keys);
    RestrictAll(vars, keys);
  }

  lemma RestrictAll(vars: EnvVars, keys: seq<string>)
    requires forall k :: k in keys <==> k in vars
    ensures (map k | k in keys :: vars[k]) == vars
  {
  }

  // -------------------------------------------------------------- the store

  /** `GetEnvFile`: the file of one version. */
  function EnvFile(cfg: Config, version: string): string {
    PathJoin(cfg.envDir, version + ".env")
  }

  /** Different versions have different files, none of them the directory. */
  lemma EnvFilesDistinct(cfg: Config, v: string, w: string)
    ensures EnvFile(cfg, v) != cfg.envDir
    ensures v != w ==> EnvFile(cfg, v) != EnvFile(cfg, w)
  {
    var a := cfg.envDir + "/";
    assert EnvFile(cfg, v) == a + v + ".env";
    assert EnvFile(cfg, w) == a + w + ".env";
    if |v| == |w| && EnvFile(cfg, v) == EnvFile(cfg, w) {
      assert v == EnvFile(cfg, v)[|a|..|a| + |v|];
      assert w == EnvFile(cfg, w)[|a|..|a| + |w|];
    }
  }

  /** `LoadEnvVars`: a version without a file has no variables; a file that
      cannot be read (a directory, a file without read permission) is an
      error; otherwise the file is parsed. */
  function LoadEnvVars(fs: Fs, cfg: Config, version: string): (r: Result<EnvVars, string>)
    ensures EnvFile(cfg, version) !in fs ==> r == Ok(map[])
    ensures r.Ok? ==> WellFormed(r.value)
    ensures r.Ok? ==> EnvFile(cfg, version) !in fs || fs[EnvFile(cfg, version)].File?
  {
    var path := EnvFile(cfg, version);
    if path !in fs then Ok(map[])
    else match fs[path]
      case File(content) =>
        ParsedContentIsWellFormed(content);
        Parse(content)
      case _ => Err("failed to read environment file " + path)
  }

  /** A file can be written at a path that is free or holds a regular
      file. */
  predicate Writable(fs: Fs, p: string) {
    p !in fs || fs[p].File?
  }

  /** `SaveEnvVars`: creates the directory if needed and writes the file. */
  function SaveEnvVars(fs: Fs, cfg: Config, version: string, vars: EnvVars): (r: Result<Fs, string>)
    ensures r.Ok? <==> (cfg.envDir !in fs || fs[cfg.envDir].Dir?) && Writable(fs, EnvFile(cfg, version))
    ensures r.Ok? ==> (EnvFile(cfg, version) in r.value
      && r.value[EnvFile(cfg, version)] == File(Serialize(version, vars)))
    ensures r.Ok? ==> IsDirectory(r.value, cfg.envDir)
    ensures r.Ok? ==> forall p | p != EnvFile(cfg, version) && p != cfg.envDir ::
      (p in r.value <==> p in fs) && (p in fs ==> r.value[p] == fs[p])
  {
    var path := EnvFile(cfg, version);
    EnvFilesDistinct(cfg, version, version);
    if cfg.envDir in fs && !fs[cfg.envDir].Dir? then Err("failed to create environment directory")
    else if !Writable(fs, path) then Err("failed to write environment file " + path)
    else Ok(fs[cfg.envDir := Dir][path := File(Serialize(version, vars))])
  }

  lemma Mentions(a: string, key: string, b: string, word: string)
    ensures Contains(a + key + b + word, key)
    ensures Contains(a + key + b + word, word)
  {
    ContainsMiddle(a, key, b + word);
    assert a + key + b + word == a + key + (b + word);
    ContainsMiddle(a + key + b, word, "");
    assert a + key + b + word + "" == a + key + b + word;
  }

  lemma Opens(word: string, rest: string)
    ensures Contains(word + rest, word)
  {
    ContainsMiddle("", word, rest);
    assert "" + word + rest == word + rest;
  }

  /** The checks `SetEnvVar` and `UnsetEnvVar` share, in order: a valid
      name, not protected, existing variables that load. */
  function CheckedLoad(fs: Fs, cfg: Config, version: string, key: string): (r: Result<EnvVars, string>)
    ensures r.Ok? <==> ValidName(key) && !IsProtectedVar(key) && LoadEnvVars(fs, cfg, version).Ok?
    ensures r.Ok? ==> r == LoadEnvVars(fs, cfg, version)
    ensures !ValidName(key) ==> r.Err? && Contains(r.error, key)
    ensures IsProtectedVar(key) ==> r.Err? && Contains(r.error, key) && Contains(r.error, "protected")
    ensures ValidName(key) && !IsProtectedVar(key) && LoadEnvVars(fs, cfg, version).Err? ==>
      r.Err? && Contains(r.error, "failed to load existing variables")
  {
    ProtectedIsValid(key);
    match ValidateVarName(key)
    case Some(e) => Err(e)
    case None =>
      if IsProtectedVar(key) then
        Mentions("environment variable ", key, " is ", "protected");
        Err("environment variable " + key + " is " + "protected")
      else match LoadEnvVars(fs, cfg, version)
        case Err(e) =>
          Opens("failed to load existing variables", ": " + e);
          Err("failed to load existing variables" + (": " + e))
        case Ok(vars) => Ok(vars)
  }

  /** `SetEnvVar`: load, set the key, save. */
  function SetEnvVar(fs: Fs, cfg: Config, version: string, key: string, value: string): (r: Result<Fs, string>)
    ensures r.Ok? <==> CheckedLoad(fs, cfg, version, key).Ok? && (cfg.envDir !in fs || fs[cfg.envDir].Dir?)
    ensures CheckedLoad(fs, cfg, version, key).Err? ==> r == Err(CheckedLoad(fs, cfg, version, key).error)
  {
    match CheckedLoad(fs, cfg, version, key)
    case Err(e) => Err(e)
    case Ok(vars) => SaveEnvVars(fs, cfg, version, vars[key := value])
  }

  /** `UnsetEnvVar`: load, remove the key, save; a key that is not set is an
      error naming it. */
  function UnsetEnvVar(fs: Fs, cfg: Config, version: string, key: string): (r: Result<Fs, string>)
    ensures r.Ok? <==> (CheckedLoad(fs, cfg, version, key).Ok? && key in CheckedLoad(fs, cfg, version, key).value
      && (cfg.envDir !in fs || fs[cfg.envDir].Dir?))
    ensures CheckedLoad(fs, cfg, version, key).Err? ==> r == Err(CheckedLoad(fs, cfg, version, key).error)
    ensures CheckedLoad(fs, cfg, version, key).Ok? && key !in CheckedLoad(fs, cfg, version, key).value ==>
      r.Err? && Contains(r.error, key) && Contains(r.error, "not found")
  {
    match CheckedLoad(fs, cfg, version, key)
    case Err(e) => Err(e)
    case Ok(vars) =>
      if key !in vars then
        Mentions("environment variable ", key, " ", "not found");
        Err("environment variable " + key + " " + "not found")
      else SaveEnvVars(fs, cfg, version, vars - {key})
  }

  /** `ClearAllEnvVars`: removes the version's file; no file is no error. */
  function ClearAllEnvVars(fs: Fs, cfg: Config, version: string): (r: Result<Fs, string>)
    ensures r.Ok? <==> EnvFile(cfg, version) !in fs || Removable(fs, EnvFile(cfg, version))
    ensures r.Ok? ==> EnvFile(cfg, version) !in r.value
    ensures r.Ok? ==> forall p | p != EnvFile(cfg, version) ::
      (p in r.value <==> p in fs) && (p in fs ==> r.value[p] == fs[p])
  {
    var path := EnvFile(cfg, version);
    if path !in fs then Ok(fs)
    else if Removable(fs, path) then Ok(fs - {path})
    else Err("failed to clear environment variables for " + version)
  }

  // ------------------------------------------------------------- properties

  /** What a successful save leaves is read back by the next load. */
  lemma SaveThenLoad(fs: Fs, cfg: Config, version: string, vars: EnvVars)
    requires '\n' !in version && WellFormed(vars)
    requires SaveEnvVars(fs, cfg, version, vars).Ok?
    ensures LoadEnvVars(SaveEnvVars(fs, cfg, version, vars).value, cfg, version) == Ok(vars)
  {
    ParseSerialize(version, vars);
  }

  /** Another version's file is left alone by a save. */
  lemma SaveIsolated(fs: Fs, cfg: Config, version: string, vars: EnvVars, other: string)
    requires other != version
    requires SaveEnvVars(fs, cfg, version, vars).Ok?
    ensures LoadEnvVars(SaveEnvVars(fs, cfg, version, vars).value, cfg, other) == LoadEnvVars(fs, cfg, other)
  {
    EnvFilesDistinct(cfg, other, version);
  }

  /** Set then load gives the previous variables with the key set to the
      value: a new key is added, an existing one overwritten, and every
      other key keeps its value. */
  lemma SetThenLoad(fs: Fs, cfg: Config, version: string, key: string, value: string)
    requires '\n' !in version && '\n' !in value
    requires SetEnvVar(fs, cfg, version, key, value).Ok?
    ensures LoadEnvVars(fs, cfg, version).Ok?
    ensures LoadEnvVars(SetEnvVar(fs, cfg, version, key, value).value, cfg, version)
      == Ok(LoadEnvVars(fs, cfg, version).value[key := value])
  {
    var vars := LoadEnvVars(fs, cfg, version).value;
    SaveThenLoad(fs, cfg, version, vars[key := value]);
  }

  /** Setting a variable of one version leaves every other version's
      variables as they were. */
  lemma SetIsolated(fs: Fs, cfg: Config, version: string, key: string, value: string, other: string)
    requires other != version
    requires SetEnvVar(fs, cfg, version, key, value).Ok?
    ensures LoadEnvVars(SetEnvVar(fs, cfg, version, key, value).value, cfg, other) == LoadEnvVars(fs, cfg, other)
  {
    SaveIsolated(fs, cfg, version, LoadEnvVars(fs, cfg, version).value[key := value], other);
  }

  /** Unset then load gives the previous variables without the key, and
      only without it. */
  lemma UnsetThenLoad(fs: Fs, cfg: Config, version: string, key: string)
    requires '\n' !in version
    requires UnsetEnvVar(fs, cfg, version, key).Ok?
    ensures LoadEnvVars(fs, cfg, version).Ok? && key in LoadEnvVars(fs, cfg, version).value
    ensures LoadEnvVars(UnsetEnvVar(fs, cfg, version, key).value, cfg, version)
      == Ok(LoadEnvVars(fs, cfg, version).value - {key})
  {
    var vars := LoadEnvVars(fs, cfg, version).value;
    SaveThenLoad(fs, cfg, version, vars - {key});
  }

  /** After clearing, the version has no variables. */
  lemma ClearThenLoad(fs: Fs, cfg: Config, version: string)
    requires ClearAllEnvVars(fs, cfg, version).Ok?
    ensures LoadEnvVars(ClearAllEnvVars(fs, cfg, version).value, cfg, version) == Ok(map[])
  {
  }

  /** The malformed-file cases of the tests: a line without `=` fails the
      load, a key that starts with a digit fails it, and `=` in a value is
      kept. */
  lemma MissingEqualsFails()
    ensures ParseLines(["VAR1=value1", "INVALID_LINE", "VAR2=value2"]).Err?
  {
    var lines := ["VAR1=value1", "INVALID_LINE", "VAR2=value2"];
    assert '=' !in lines[1] && lines[1][0] == 'I';
    MalformedLineFails(lines, 1);
  }

  /** A line whose key breaks the grammar is malformed. */
  lemma BadKeyMalformed(key: string, value: string)
    requires !ValidName(key) && '=' !in key && |key| > 0 && key[0] != '#'
    ensures IsMalformed(EntryLine(key, value))
  {
    var line := EntryLine(key, value);
    assert line == key + ['='] + value;
    CutCons(key, '=', value);
    assert line[..1] == key[..1];
  }

  lemma LeadingDigitFails()
    ensures ParseLines(["VAR1=value1", "123INVALID=value2"]).Err?
  {
    LeadingDigitMalformed();
    SecondLineFails("VAR1=value1", "123INVALID=value2");
  }

  lemma LeadingDigitMalformed()
    ensures IsMalformed("123INVALID=value2")
  {
    assert !ValidName("123INVALID") by { assert "123INVALID"[0] == '1'; }
    BadKeyMalformed("123INVALID", "value2");
    assert "123INVALID=value2" == EntryLine("123INVALID", "value2");
  }

  lemma SecondLineFails(a: string, b: string)
    requires IsMalformed(b)
    ensures ParseLines([a, b]).Err?
  {
    MalformedLineFails([a, b], 1);
  }

  lemma EqualsInValueKept()
    ensures ParseLines(["VAR1=value=with=equals"]) == Ok(map["VAR1" := "value=with=equals"])
  {
    var lines := ["VAR1=value=with=equals"];
    assert lines[..0] == [];
    assert lines[0] == EntryLine("VAR1", "value=with=equals");
    ParseEntryLine("VAR1", "value=with=equals", map[]);
  }
}

=== FILE: filesystem.dfy ===
/** The abstract filesystem the tool acts on, slash-separated paths in the
    manner of `path/filepath` (without `Clean`), and the explicit
    configuration record that replaces the tool's global path variables. */
module FileSystem {
  import opened Wrappers
  import opened Text

  /** What `Lstat` finds at a path. `Unstatable` is a path whose `Lstat`
      fails with something other than "does not exist" (a permission error on
      the parent, say); `Locked` is a regular file whose contents cannot be
      read. */
  datatype Node =
    | Dir
    | File(content: string)
    | Link(target: string)
    | Locked
    | Unstatable

  /** Every path that exists, with what is there. */
  type Fs = map<string, Node>

  /** The locations the tool works with: the directory holding one
      sub-directory per installed version, the active-version pointer, and the
      directory of per-version environment files. */
  datatype Config = Config(versionsDir: string, currentPath: string, envDir: string)

  // -------------------------------------------------------------------- paths

  /** `filepath.Join(dir, name)` for a clean `dir` and a non-empty `name`. */
  function PathJoin(dir: string, name: string): string {
    dir + "/" + name
  }

  /** Index of the last `/` in `s`, if any. */
  function LastSlash(s: string): (r: Option<nat>)
    ensures r.None? <==> '/' !in s
    ensures r.Some? ==> r.value < |s| && s[r.value] == '/' && '/' !in s[r.value + 1..]
  {
    if |s| == 0 then None
    else if s[|s| - 1] == '/' then Some(|s| - 1)
    else
      var r := LastSlash(s[..|s| - 1]);
      assert s == s[..|s| - 1] + [s[|s| - 1]];
      if r.Some? then
        assert s[r.value + 1..] == s[..|s| - 1][r.value + 1..] + [s[|s| - 1]];
        r
      else r
  }

  /** `s` without its trailing slashes. */
  function StripTrailingSlashes(s: string): (r: string)
    ensures |r| <= |s| && r == s[..|r|]
    ensures r != [] ==> r[|r| - 1] != '/'
  {
    if |s| > 0 && s[|s| - 1] == '/' then StripTrailingSlashes(s[..|s| - 1]) else s
  }

  /** `filepath.Base`: the last element of the path. */
  function BaseName(p: string): string {
    if p == "" then "."
    else
      var q := StripTrailingSlashes(p);
      if q == "" then "/"
      else match LastSlash(q)
        case None => q
        case Some(i) => q[i + 1..]
  }

  /** `filepath.Dir`: everything but the last element. */
  function DirName(p: string): string {
    match LastSlash(p)
    case None => "."
    case Some(i) => if i == 0 then "/" else p[..i]
  }

  /** A plain path element: non-empty and slash-free. */
  predicate IsElement(name: string) {
    name != "" && '/' !in name
  }

  lemma LastSlashOfJoin(dir: string, name: string)
    requires '/' !in name
    ensures LastSlash(PathJoin(dir, name)) == Some(|dir|)
  {
    var p := PathJoin(dir, name);
    var r := LastSlash(p);
    assert p[|dir|] == '/';
    assert p[|dir| + 1..] == name;
  }

  /** Dir of a joined path is the directory joined to. */
  lemma DirOfJoin(dir: string, name: string)
    requires '/' !in name
    requires dir != ""
    ensures DirName(PathJoin(dir, name)) == dir
  {
    LastSlashOfJoin(dir, name);
    assert PathJoin(dir, name)[..|dir|] == dir;
  }

  /** Base of a joined path is the element joined. */
  lemma BaseOfJoin(dir: string, name: string)
    requires IsElement(name)
    ensures BaseName(PathJoin(dir, name)) == name
  {
    var p := PathJoin(dir, name);
    assert StripTrailingSlashes(p) == p;
    LastSlashOfJoin(dir, name);
    assert p[|dir| + 1..] == name;
  }

  // ------------------------------------------------------------- directories

  /** `p` lies strictly below directory `dir`. */
  predicate Below(dir: string, p: string) {
    HasPrefix(p, dir + "/")
  }

  /** `p` is an immediate entry of directory `dir`. */
  predicate IsEntryOf(dir: string, p: string) {
    Below(dir, p) && IsElement(p[|dir| + 1..])
  }

  /** Names of the immediate entries of `dir` whose node satisfies `kind`. */
  function EntryNames(fs: Fs, dir: string, kind: Node -> bool): (names: set<string>)
    ensures forall n :: n in names <==> IsElement(n) && PathJoin(dir, n) in fs && kind(fs[PathJoin(dir, n)])
  {
    var names := set p | p in fs.Keys && IsEntryOf(dir, p) && kind(fs[p]) :: p[|dir| + 1..];
    forall n ensures n in names <==> IsElement(n) && PathJoin(dir, n) in fs && kind(fs[PathJoin(dir, n)]) {
      var p := PathJoin(dir, n);
      assert p[..|dir| + 1] == dir + "/";
      assert p[|dir| + 1..] == n;
      if n in names {
        var q :| q in fs.Keys && IsEntryOf(dir, q) && kind(fs[q]) && q[|dir| + 1..] == n;
        assert q == q[..|dir| + 1] + q[|dir| + 1..];
      }
      if IsElement(n) && p in fs && kind(fs[p]) {
        assert IsEntryOf(dir, p);
      }
    }
    names
  }

  predicate IsDirNode(n: Node) { n.Dir? }

  /** `dir` exists and is a directory. */
  predicate IsDirectory(fs: Fs, dir: string) {
    dir in fs && fs[dir].Dir?
  }

  /** `os.RemoveAll(p)`: `p` and everything below it disappear. */
  function RemoveAll(fs: Fs, p: string): (fs': Fs)
    ensures forall q :: q in fs' <==> q in fs && q != p && !Below(p, q)
    ensures forall q | q in fs' :: fs'[q] == fs[q]
  {
    map q | q in fs && q != p && !Below(p, q) :: fs[q]
  }

  /** `os.Remove(p)` succeeds on anything but a missing path, an unstatable
      one, or a directory that still has entries. */
  predicate Removable(fs: Fs, p: string) {
    && p in fs
    && !fs[p].Unstatable?
    && (fs[p].Dir? ==> forall q | q in fs :: !Below(p, q))
  }
}

=== FILE: gomod.dfy ===
/** Matching go.mod directive lines with the regular expressions the two
    snapshots of `findGoModVersion` use. RE2 semantics: `\s` is one of tab,
    newline, form feed, carriage return and space; `\d` is an ASCII digit;
    quantifiers are greedy and the leftmost match is taken. */
module GoMod {
  import opened Wrappers
  import opened Text

  /** What looking for `go.mod` in the working directory finds: the working
      directory cannot be determined, no file, a `Stat` error other than "does
      not exist", a file whose contents cannot be read, or its contents. */
  datatype GoModLookup =
    | NoWorkingDir
    | Absent
    | StatError
    | Unreadable
    | Present(content: string)

  /** RE2's `\s`. */
  predicate IsReSpace(c: char) {
    c == '\t' || c == '\n' || c == '\U{000C}' || c == '\r' || c == ' '
  }

  /** Every character of `s` satisfies `inRun`. */
  predicate All(s: string, inRun: char -> bool)
    decreases |s|
  {
    |s| == 0 || (inRun(s[0]) && All(s[1..], inRun))
  }

  /** A non-empty run of `\d`. */
  predicate IsDigits(s: string) {
    |s| > 0 && All(s, IsAsciiDigit)
  }

  /** The longest leading run of characters satisfying `inRun`, and what
      follows it: what a greedy `[...]*` consumes. */
  function SplitRun(s: string, inRun: char -> bool): (r: (string, string))
    decreases |s|
  {
    if |s| > 0 && inRun(s[0]) then
      var r := SplitRun(s[1..], inRun);
      ([s[0]] + r.0, r.1)
    else ([], s)
  }

  /** The run and the rest make up the input, the run is all `inRun`, and the
      rest does not start with another one, so the run is the longest. */
  lemma {:induction false} SplitRunSpec(s: string, inRun: char -> bool)
    ensures SplitRun(s, inRun).0 + SplitRun(s, inRun).1 == s
    ensures All(SplitRun(s, inRun).0, inRun)
    ensures SplitRun(s, inRun).1 == [] || !inRun(SplitRun(s, inRun).1[0])
    decreases |s|
  {
    if |s| > 0 && inRun(s[0]) {
      var r := SplitRun(s[1..], inRun);
      SplitRunSpec(s[1..], inRun);
      var run := [s[0]] + r.0;
      assert SplitRun(s, inRun) == (run, r.1);
      assert run[0] == s[0] && run[1..] == r.0;
      AllCons(run, inRun);
      assert run + r.1 == [s[0]] + (r.0 + r.1);
      assert s == [s[0]] + s[1..];
    }
  }

  /** A run followed by more text is consumed whole, and the splitting
      continues in that text. */
  lemma {:induction false} SplitRunConcat(p: string, rest: string, inRun: char -> bool)
    requires All(p, inRun)
    ensures SplitRun(p + rest, inRun).0 == p + SplitRun(rest, inRun).0
    ensures SplitRun(p + rest, inRun).1 == SplitRun(rest, inRun).1
    decreases |p|
  {
    if |p| == 0 {
      assert p + rest == rest;
    } else {
      var s := p + rest;
      assert s[0] == p[0] && s[1..] == p[1..] + rest;
      SplitRunConcat(p[1..], rest, inRun);
      assert [p[0]] + (p[1..] + SplitRun(rest, inRun).0) == p + SplitRun(rest, inRun).0;
    }
  }

  lemma AllCons(s: string, inRun: char -> bool)
    requires |s| > 0
    ensures All(s, inRun) <==> inRun(s[0]) && All(s[1..], inRun)
  {
  }

  lemma {:induction false} AllLast(s: string, inRun: char -> bool)
    requires |s| > 0 && All(s, inRun)
    ensures inRun(s[|s| - 1])
    decreases |s|
  {
    if |s| > 1 {
      AllLast(s[1..], inRun);
    }
  }

  // ---------------------------------------------------------- version shape

  /** The strings the pattern `\d+\.\d+(?:\.\d+)?` matches in full: two or
      three digit runs separated by dots. */
  predicate IsVersionShape(t: string) {
    IsTwoComponents(t) || IsThreeComponents(t)
  }

  predicate IsTwoComponents(t: string) {
    exists i | 0 < i < |t| :: TwoAt(t, i)
  }

  predicate IsThreeComponents(t: string) {
    exists i, j | 0 < i < j < |t| :: ThreeAt(t, i, j)
  }

  /** `t` is two digit runs around a dot at `i`. */
  predicate TwoAt(t: string, i: int) {
    0 < i < |t| && t[i] == '.' && IsDigits(t[..i]) && IsDigits(t[i + 1..])
  }

  /** `t` is three digit runs around dots at `i` and `j`. */
  predicate ThreeAt(t: string, i: int, j: int) {
    && 0 < i < j < |t|
    && t[i] == '.' && t[j] == '.'
    && IsDigits(t[..i]) && IsDigits(t[i + 1..j]) && IsDigits(t[j + 1..])
  }

  lemma ShapeOfTwo(p: string, q: string)
    requires IsDigits(p) && IsDigits(q)
    ensures IsVersionShape(p + ['.'] + q)
  {
    var t := p + ['.'] + q;
    assert t[|p|] == '.' && t[..|p|] == p && t[|p| + 1..] == q;
    assert TwoAt(t, |p|);
  }

  lemma ShapeOfThree(p: string, q: string, u: string)
    requires IsDigits(p) && IsDigits(q) && IsDigits(u)
    ensures IsVersionShape(p + ['.'] + q + ['.'] + u)
  {
    var t := p + ['.'] + q + ['.'] + u;
    var i, j := |p|, |p| + 1 + |q|;
    assert t[i] == '.' && t[j] == '.';
    assert t[..i] == p && t[i + 1..j] == q && t[j + 1..] == u;
    assert ThreeAt(t, i, j);
  }

  /** A version-shaped string written out as its digit runs. */
  lemma ShapeParts(t: string) returns (parts: seq<string>)
    requires IsVersionShape(t)
    ensures |parts| == 2 || |parts| == 3
    ensures forall k | 0 <= k < |parts| :: IsDigits(parts[k])
    ensures |parts| == 2 ==> t == parts[0] + ['.'] + parts[1]
    ensures |parts| == 3 ==> t == parts[0] + ['.'] + parts[1] + ['.'] + parts[2]
  {
    if IsTwoComponents(t) {
      var i :| 0 < i < |t| && TwoAt(t, i);
      parts := TwoParts(t, i);
    } else {
      var i, j :| 0 < i < j < |t| && ThreeAt(t, i, j);
      parts := ThreeParts(t, i, j);
    }
  }

  lemma TwoParts(t: string, i: int) returns (parts: seq<string>)
    requires TwoAt(t, i)
    ensures |parts| == 2 && IsDigits(parts[0]) && IsDigits(parts[1])
    ensures t == parts[0] + ['.'] + parts[1]
  {
    parts := [t[..i], t[i + 1..]];
    assert t == t[..i] + [t[i]] + t[i + 1..];
  }

  lemma ThreeParts(t: string, i: int, j: int) returns (parts: seq<string>)
    requires ThreeAt(t, i, j)
    ensures |parts| == 3 && IsDigits(parts[0]) && IsDigits(parts[1]) && IsDigits(parts[2])
    ensures t == parts[0] + ['.'] + parts[1] + ['.'] + parts[2]
  {
    parts := [t[..i], t[i + 1..j], t[j + 1..]];
    assert t == t[..i] + [t[i]] + t[i + 1..j] + [t[j]] + t[j + 1..];
  }

  /** A version shape starts and ends with a digit. */
  lemma ShapeEnds(t: string)
    requires IsVersionShape(t)
    ensures |t| > 0 && IsAsciiDigit(t[0]) && IsAsciiDigit(t[|t| - 1])
  {
    var parts := ShapeParts(t);
    var last := parts[|parts| - 1];
    assert t[0] == parts[0][0];
    assert t[|t| - 1] == last[|last| - 1];
    AllLast(last, IsAsciiDigit);
  }

  // ------------------------------------------------------------- matching

  /** What `(?:\.\d+)?` consumes at the start of `s`: a dot and a digit run,
      or nothing. */
  function OptionalComponent(s: string): (r: string)
    ensures HasPrefix(s, r)
    ensures r == [] || (r[0] == '.' && IsDigits(r[1..]))
  {
    if |s| > 0 && s[0] == '.' && SplitRun(s[1..], IsAsciiDigit).0 != [] then
      var (d, rest) := SplitRun(s[1..], IsAsciiDigit);
      SplitRunSpec(s[1..], IsAsciiDigit);
      assert s == ['.'] + d + rest;
      TrimPrefixOfConcat(['.'] + d, rest);
      ['.'] + d
    else []
  }

  lemma Associate(a: string, b: string, c: string, d: string)
    ensures a + (b + c + d) == a + b + c + d
  {
  }

  lemma PrefixAfter(a: string, s: string, r: string)
    requires HasPrefix(s, r)
    ensures HasPrefix(a + s, a + r)
  {
    assert (a + s)[..|a + r|] == a + s[..|r|];
  }

  /** What `\d+\.\d+(?:\.\d+)?` matches at the start of `s`, if anything. */
  function VersionPrefix(s: string): (r: Option<string>)
    ensures r.Some? ==> HasPrefix(s, r.value) && IsVersionShape(r.value)
  {
    var (d1, r1) := SplitRun(s, IsAsciiDigit);
    SplitRunSpec(s, IsAsciiDigit);
    if d1 == [] || r1 == [] || r1[0] != '.' then None
    else
      var (d2, r2) := SplitRun(r1[1..], IsAsciiDigit);
      SplitRunSpec(r1[1..], IsAsciiDigit);
      if d2 == [] then None
      else
        var t := OptionalComponent(r2);
        assert s == d1 + ['.'] + d2 + r2 by {
          assert r1 == ['.'] + r1[1..];
        }
        PrefixAfter(d1 + ['.'] + d2, r2, t);
        ShapeOfParts(d1, d2, t);
        Some(d1 + ['.'] + d2 + t)
  }

  lemma ShapeOfParts(d1: string, d2: string, t: string)
    requires IsDigits(d1) && IsDigits(d2)
    requires t == [] || (t[0] == '.' && IsDigits(t[1..]))
    ensures IsVersionShape(d1 + ['.'] + d2 + t)
  {
    if t == [] {
      assert d1 + ['.'] + d2 + t == d1 + ['.'] + d2;
      ShapeOfTwo(d1, d2);
    } else {
      assert d1 + ['.'] + d2 + t == d1 + ['.'] + d2 + ['.'] + t[1..];
      ShapeOfThree(d1, d2, t[1..]);
    }
  }

  lemma LongestOfTwo(p0: string, p1: string, tail: string)
    requires IsDigits(p0) && IsDigits(p1)
    ensures VersionPrefix(p0 + ['.'] + p1 + tail).Some?
    ensures |p0| + 1 + |p1| <= |VersionPrefix(p0 + ['.'] + p1 + tail).value|
  {
    var r1 := ['.'] + p1 + tail;
    assert p0 + ['.'] + p1 + tail == p0 + r1;
    assert r1 == ['.'] + (p1 + tail);
    RunBeforeDot(p0, p1 + tail);
    assert r1[1..] == p1 + tail;
    SplitRunConcat(p1, tail, IsAsciiDigit);
    assert SplitRun(p1 + tail, IsAsciiDigit) == (p1 + SplitRun(tail, IsAsciiDigit).0, SplitRun(tail, IsAsciiDigit).1);
    VersionPrefixOfRuns(p0 + r1, p0, r1, p1 + SplitRun(tail, IsAsciiDigit).0, SplitRun(tail, IsAsciiDigit).1);
  }

  lemma LongestOfThree(p0: string, p1: string, p2: string, tail: string)
    requires IsDigits(p0) && IsDigits(p1) && IsDigits(p2)
    ensures VersionPrefix(p0 + ['.'] + p1 + ['.'] + p2 + tail).Some?
    ensures |p0| + |p1| + |p2| + 2 <= |VersionPrefix(p0 + ['.'] + p1 + ['.'] + p2 + tail).value|
  {
    var r2 := ['.'] + p2 + tail;
    var r1 := ['.'] + p1 + r2;
    assert p0 + ['.'] + p1 + ['.'] + p2 + tail == p0 + r1;
    assert r1 == ['.'] + (p1 + r2);
    assert r2 == ['.'] + (p2 + tail);
    RunBeforeDot(p0, p1 + r2);
    assert r1[1..] == p1 + r2;
    RunBeforeDot(p1, p2 + tail);
    VersionPrefixOfRuns(p0 + r1, p0, r1, p1, r2);
    OptionalOfDot(p2, tail);
  }

  /** Text after a version that starts with neither a digit nor a dot is
      left alone: the capture is exactly the version. */
  lemma VersionPrefixStops(v: string, tail: string)
    requires IsVersionShape(v)
    requires tail == [] || (tail[0] != '.' && !IsAsciiDigit(tail[0]))
    ensures VersionPrefix(v + tail) == Some(v)
  {
    var parts := ShapeParts(v);
    if |parts| == 2 {
      StopsAfterTwo(parts[0], parts[1], tail);
    } else {
      StopsAfterThree(parts[0], parts[1], parts[2], tail);
      assert v + tail == parts[0] + ['.'] + parts[1] + ['.'] + parts[2] + tail;
    }
  }

  lemma StopsAfterTwo(p0: string, p1: string, tail: string)
    requires IsDigits(p0) && IsDigits(p1)
    requires tail == [] || (tail[0] != '.' && !IsAsciiDigit(tail[0]))
    ensures VersionPrefix(p0 + ['.'] + p1 + tail) == Some(p0 + ['.'] + p1)
  {
    var r1 := ['.'] + (p1 + tail);
    assert p0 + ['.'] + p1 + tail == p0 + r1;
    RunBeforeDot(p0, p1 + tail);
    assert r1[1..] == p1 + tail;
    RunStops(p1, tail);
    VersionPrefixOfRuns(p0 + r1, p0, r1, p1, tail);
    assert OptionalComponent(tail) == [];
  }

  lemma StopsAfterThree(p0: string, p1: string, p2: string, tail: string)
    requires IsDigits(p0) && IsDigits(p1) && IsDigits(p2)
    requires tail == [] || !IsAsciiDigit(tail[0])
    ensures VersionPrefix(p0 + ['.'] + p1 + ['.'] + p2 + tail) == Some(p0 + ['.'] + p1 + ['.'] + p2)
  {
    var r2 := ['.'] + (p2 + tail);
    var r1 := ['.'] + (p1 + r2);
    assert p0 + ['.'] + p1 + ['.'] + p2 + tail == p0 + r1;
    RunBeforeDot(p0, p1 + r2);
    assert r1[1..] == p1 + r2;
    RunBeforeDot(p1, p2 + tail);
    VersionPrefixOfRuns(p0 + r1, p0, r1, p1, r2);
    assert r2[1..] == p2 + tail;
    RunStops(p2, tail);
    assert OptionalComponent(r2) == ['.'] + p2;
  }

  /** A digit run followed by a dot splits at the dot. */
  lemma RunBeforeDot(p: string, rest: string)
    requires IsDigits(p)
    ensures SplitRun(p + (['.'] + rest), IsAsciiDigit) == (p, ['.'] + rest)
  {
    RunStops(p, ['.'] + rest);
  }

  /** A digit run followed by anything but a digit splits there. */
  lemma RunStops(p: string, rest: string)
    requires IsDigits(p)
    requires rest == [] || !IsAsciiDigit(rest[0])
    ensures SplitRun(p + rest, IsAsciiDigit) == (p, rest)
  {
    SplitRunConcat(p, rest, IsAsciiDigit);
    assert SplitRun(rest, IsAsciiDigit) == ([], rest);
    assert p + [] == p;
  }

  /** `VersionPrefix` read off the two digit runs it finds. */
  lemma VersionPrefixOfRuns(s: string, d1: string, r1: string, d2: string, r2: string)
    requires SplitRun(s, IsAsciiDigit) == (d1, r1) && d1 != [] && r1 != [] && r1[0] == '.'
    requires SplitRun(r1[1..], IsAsciiDigit) == (d2, r2) && d2 != []
    ensures VersionPrefix(s) == Some(d1 + ['.'] + d2 + OptionalComponent(r2))
  {
  }

  /** A dot and a digit run are taken by the optional third component. */
  lemma OptionalOfDot(d: string, tail: string)
    requires IsDigits(d)
    ensures |OptionalComponent(['.'] + d + tail)| >= 1 + |d|
  {
    var s := ['.'] + d + tail;
    assert s[1..] == d + tail;
    SplitRunConcat(d, tail, IsAsciiDigit);
  }

  /** The match is the longest version-shaped prefix: every version-shaped
      prefix of `s` is covered by it. Text after the version is ignored, but a
      third component is never dropped. */
  lemma VersionPrefixIsLongest(s: string, k: nat)
    requires k <= |s| && IsVersionShape(s[..k])
    ensures VersionPrefix(s).Some?
    ensures k <= |VersionPrefix(s).value|
  {
    var parts := ShapeParts(s[..k]);
    assert s == s[..k] + s[k..];
    if |parts| == 2 {
      assert s == parts[0] + ['.'] + parts[1] + s[k..];
      LongestOfTwo(parts[0], parts[1], s[k..]);
    } else {
      assert s == parts[0] + ['.'] + parts[1] + ['.'] + parts[2] + s[k..];
      LongestOfThree(parts[0], parts[1], parts[2], s[k..]);
    }
  }

  /** A version shape on its own is matched whole. */
  lemma VersionPrefixOfShape(v: string)
    requires IsVersionShape(v)
    ensures VersionPrefix(v) == Some(v)
  {
    assert v[..|v|] == v;
    VersionPrefixIsLongest(v, |v|);
  }

  // ------------------------------------------------------------ directives

  /** `line` begins with `keyword`, the non-empty white space `ws`, `lead` and
      `v`. */
  predicate IsDirectiveSpelling(line: string, keyword: string, ws: string, lead: string, v: string) {
    ws != [] && All(ws, IsReSpace) && HasPrefix(line, keyword + ws + lead + v)
  }

  /** The capture of `^<keyword>\s+<lead>(\d+\.\d+(?:\.\d+)?)` on one line,
      with no end anchor. */
  function Directive(line: string, keyword: string, lead: string): (r: Option<string>)
    ensures r.Some? ==> IsVersionShape(r.value)
    ensures r.Some? ==> exists ws :: IsDirectiveSpelling(line, keyword, ws, lead, r.value)
  {
    if !HasPrefix(line, keyword) then None
    else
      var r := AfterKeyword(line[|keyword|..], lead);
      if r.Some? then
        assert exists ws :: IsDirectiveSpelling(line, keyword, ws, lead, r.value) by {
          var ws :| ws != [] && All(ws, IsReSpace) && HasPrefix(line[|keyword|..], ws + lead + r.value);
          assert line == keyword + line[|keyword|..];
          PrefixAfter(keyword, line[|keyword|..], ws + lead + r.value);
          Associate(keyword, ws, lead, r.value);
          assert IsDirectiveSpelling(line, keyword, ws, lead, r.value);
        }
        r
      else r
  }

  /** The part of `Directive` after the keyword: `\s+<lead>` and the version. */
  function AfterKeyword(s: string, lead: string): (r: Option<string>)
    ensures r.Some? ==> IsVersionShape(r.value)
    ensures r.Some? ==> exists ws :: ws != [] && All(ws, IsReSpace) && HasPrefix(s, ws + lead + r.value)
  {
    var (ws, rest) := SplitRun(s, IsReSpace);
    SplitRunSpec(s, IsReSpace);
    if ws == [] || !HasPrefix(rest, lead) then None
    else
      var r := VersionPrefix(rest[|lead|..]);
      if r.Some? then
        assert rest == lead + rest[|lead|..];
        PrefixAfter(lead, rest[|lead|..], r.value);
        PrefixAfter(ws, rest, lead + r.value);
        assert ws + (lead + r.value) == ws + lead + r.value;
        r
      else r
  }

  /** Conversely, every line spelled that way matches, and the capture is the
      longest version at that place, so at least the spelled version. */
  lemma DirectiveComplete(keyword: string, ws: string, lead: string, v: string, tail: string)
    requires ws != [] && All(ws, IsReSpace)
    requires lead == [] || !IsReSpace(lead[0])
    requires IsVersionShape(v)
    ensures Directive(keyword + ws + lead + v + tail, keyword, lead) == VersionPrefix(v + tail)
    ensures VersionPrefix(v + tail).Some? && |v| <= |VersionPrefix(v + tail).value|
  {
    Associate5(keyword, ws, lead, v, tail);
    TrimPrefixOfConcat(keyword, ws + lead + v + tail);
    AfterKeywordComplete(ws, lead, v, tail);
  }

  lemma AfterKeywordComplete(ws: string, lead: string, v: string, tail: string)
    requires ws != [] && All(ws, IsReSpace)
    requires lead == [] || !IsReSpace(lead[0])
    requires IsVersionShape(v)
    ensures AfterKeyword(ws + lead + v + tail, lead) == VersionPrefix(v + tail)
    ensures VersionPrefix(v + tail).Some? && |v| <= |VersionPrefix(v + tail).value|
  {
    var after := lead + (v + tail);
    assert ws + lead + v + tail == ws + after;
    ShapeEnds(v);
    assert after == [] || !IsReSpace(after[0]) by {
      assert after[0] == (if lead == [] then v[0] else lead[0]);
    }
    TrimPrefixOfConcat(lead, v + tail);
    AfterKeywordOfRun(ws, after, lead);
    assert (v + tail)[..|v|] == v;
    VersionPrefixIsLongest(v + tail, |v|);
  }

  /** After a complete white-space run, the capture is the version prefix of
      what follows `lead`. */
  lemma AfterKeywordOfRun(ws: string, rest: string, lead: string)
    requires ws != [] && All(ws, IsReSpace)
    requires rest == [] || !IsReSpace(rest[0])
    requires HasPrefix(rest, lead)
    ensures AfterKeyword(ws + rest, lead) == VersionPrefix(rest[|lead|..])
  {
    SplitRunConcat(ws, rest, IsReSpace);
    assert SplitRun(rest, IsReSpace) == ([], rest);
  }

  lemma Associate5(a: string, b: string, c: string, d: string, e: string)
    ensures a + b + c + d + e == a + (b + c + d + e)
  {
  }

  /** The capture of the end-anchored `^go\s+(\d+\.\d+(\.\d+)?)$`: the whole
      rest of the line after `go` and its white space must be the version. */
  function AnchoredGo(line: string): (r: Option<string>)
    ensures r.Some? ==> IsVersionShape(r.value)
    ensures r.Some? ==> exists ws :: ws != [] && All(ws, IsReSpace) && line == "go" + ws + r.value
  {
    if !HasPrefix(line, "go") then None
    else
      var (ws, rest) := SplitRun(line[2..], IsReSpace);
      SplitRunSpec(line[2..], IsReSpace);
      if ws != [] && IsVersionShape(rest) then
        assert line == "go" + ws + rest;
        Some(rest)
      else None
  }

  /** Conversely, `go`, white space and a version shape, and nothing more,
      match with that version captured. */
  lemma AnchoredGoComplete(ws: string, v: string)
    requires ws != [] && All(ws, IsReSpace)
    requires IsVersionShape(v)
    ensures AnchoredGo("go" + ws + v) == Some(v)
  {
    var line := "go" + ws + v;
    assert line == "go" + (ws + v);
    TrimPrefixOfConcat("go", ws + v);
    ShapeEnds(v);
    SplitRunConcat(ws, v, IsReSpace);
    assert SplitRun(v, IsReSpace) == ([], v);
  }

  /** Wherever the anchored pattern matches, the unanchored one captures the
      same version. */
  lemma AnchoredAgrees(line: string)
    requires AnchoredGo(line).Some?
    ensures Directive(line, "go", "") == AnchoredGo(line)
  {
    var v := AnchoredGo(line).value;
    var ws :| ws != [] && All(ws, IsReSpace) && line == "go" + ws + v;
    assert line == "go" + ws + [] + v + [];
    DirectiveComplete("go", ws, [], v, []);
    assert v + [] == v;
    VersionPrefixOfShape(v);
  }

  /** The unanchored pattern ignores a Windows line ending: `go 1.21`
      followed by a carriage return still yields `1.21`. */
  lemma CarriageReturnLine()
    ensures Directive("go 1.21\r", "go", "") == Some("1.21")
  {
    var v, tail := "1.21", "\r";
    assert v == "1" + ['.'] + "21";
    ShapeOfTwo("1", "21");
    assert All(" ", IsReSpace);
    assert "go 1.21\r" == "go" + " " + [] + v + tail;
    DirectiveComplete("go", " ", [], v, tail);
    VersionPrefixStops(v, tail);
  }

  /** The end anchor rejects the same line, since the carriage return is
      left at the end. */
  lemma AnchoredRejectsCarriageReturn()
    ensures AnchoredGo("go 1.21\r") == None
  {
    if AnchoredGo("go 1.21\r").Some? {
      var r := AnchoredGo("go 1.21\r").value;
      var ws :| ws != [] && All(ws, IsReSpace) && "go 1.21\r" == "go" + ws + r;
      ShapeEnds(r);
      assert false;
    }
  }
}

=== FILE: list_cmd.dfy ===
/** The `list` command of `cmd/list.go`: the installed versions grouped by
    their `go<major>.<minor>` series, groups in ascending byte order, the
    active version marked. Colouring of the marker is not modelled. */
module ListCmd {
  import opened Wrappers
  import opened Text
  import opened Order
  import opened FileSystem
  import opened Version

  /** `getMajorVersion`: `go<first>.<second>` of the dot-separated parts
      after a leading `go`, or the version itself when it has no dot. */
  function GetMajorVersion(v: string): (r: string)
    ensures var parts := Split(TrimPrefix(v, "go"), '.');
      |parts| >= 2 ==> r == "go" + parts[0] + "." + parts[1] && '.' !in parts[0] && '.' !in parts[1]
    ensures '.' !in TrimPrefix(v, "go") ==> r == v
  {
    var parts := Split(TrimPrefix(v, "go"), '.');
    if |parts| >= 2 then "go" + parts[0] + "." + parts[1] else v
  }

  /** A series key is its own series key. */
  lemma GetMajorVersionIdempotent(v: string)
    ensures GetMajorVersion(GetMajorVersion(v)) == GetMajorVersion(v)
  {
    var parts := Split(TrimPrefix(v, "go"), '.');
    if |parts| >= 2 {
      assert "go" + parts[0] + "." + parts[1] == "go" + (parts[0] + ['.'] + parts[1]);
      MajorOfTwo(parts[0], parts[1]);
    } else {
      assert '.' !in TrimPrefix(v, "go") by {
        if '.' in TrimPrefix(v, "go") {
          SplitHasTwo(TrimPrefix(v, "go"));
        }
      }
    }
  }

  /** The series key of `go<a>.<b>` is itself. */
  lemma MajorOfTwo(a: string, b: string)
    requires '.' !in a && '.' !in b
    ensures GetMajorVersion("go" + (a + ['.'] + b)) == "go" + a + "." + b
  {
    SplitCons(a, '.', b);
    SplitFree(b, '.');
    MajorOfSplit(a + ['.'] + b, a, b);
  }

  /** The series key of `go<a>.<b>.<u>` is `go<a>.<b>`. */
  lemma MajorOfMore(a: string, b: string, u: string)
    requires '.' !in a && '.' !in b
    ensures GetMajorVersion("go" + (a + ['.'] + (b + ['.'] + u))) == "go" + a + "." + b
  {
    SplitCons(a, '.', b + ['.'] + u);
    SplitCons(b, '.', u);
    MajorOfSplit(a + ['.'] + (b + ['.'] + u), a, b);
  }

  lemma MajorOfSplit(x: string, a: string, b: string)
    requires var p := Split(x, '.'); |p| >= 2 && p[0] == a && p[1] == b
    ensures GetMajorVersion("go" + x) == "go" + a + "." + b
  {
    TrimPrefixOfConcat("go", x);
  }

  /** A string with a dot splits into at least two pieces. */
  lemma SplitHasTwo(s: string)
    ensures '.' in s ==> |Split(s, '.')| >= 2
  {
    if '.' in s {
      var i := IndexOf(s, '.');
      assert s == s[..i] + ['.'] + s[i + 1..];
      SplitCons(s[..i], '.', s[i + 1..]);
    }
  }

  // ----------------------------------------------------------------- grouping

  /** A listed version and whether it is the active one. */
  datatype Entry = Entry(version: string, current: bool)

  /** One series and its versions. */
  datatype Group = Group(key: string, entries: seq<Entry>)

  /** What `list` prints: the notice for an empty inventory, or the groups. */
  datatype ListReport = NoneInstalled | Grouped(groups: seq<Group>)

  /** The series keys of the versions, in ascending byte order. */
  function GroupKeys(locals: seq<string>): (r: seq<string>)
    ensures StrictlySorted(r)
    ensures forall k :: k in r <==> exists v | v in locals :: GetMajorVersion(v) == k
  {
    SortedSet(set v | v in locals :: GetMajorVersion(v))
  }

  /** The versions of series `key`, in inventory order. */
  function Members(locals: seq<string>, key: string): (r: seq<string>)
    ensures forall v :: v in r <==> v in locals && GetMajorVersion(v) == key
  {
    Filter(locals, v => GetMajorVersion(v) == key)
  }

  function Entries(members: seq<string>, current: string): (r: seq<Entry>)
    ensures |r| == |members|
    ensures forall k | 0 <= k < |r| :: r[k].version == members[k] && (r[k].current <==> members[k] == current)
  {
    seq(|members|, k requires 0 <= k < |members| => Entry(members[k], members[k] == current))
  }

  /** The versions of a group, without the markers. */
  function Versions(g: Group): (r: seq<string>)
    ensures |r| == |g.entries|
    ensures forall k | 0 <= k < |r| :: r[k] == g.entries[k].version
  {
    seq(|g.entries|, k requires 0 <= k < |g.entries| => g.entries[k].version)
  }

  /** The grouping of the inventory with the active version `current`
      marked; `""` marks nothing that is not named `""`. */
  function GroupVersions(locals: seq<string>, current: string): seq<Group> {
    var keys := GroupKeys(locals);
    seq(|keys|, k requires 0 <= k < |keys| => Group(keys[k], Entries(Members(locals, keys[k]), current)))
  }

  /** `list`'s `Run`. The installed list must be readable; a current version
      that cannot be read marks nothing. */
  function Run(fs: Fs, cfg: Config): (r: Result<ListReport, string>)
    ensures r.Err? <==> GetLocalVersions(fs, cfg).Err?
    ensures r.Err? ==> r.error == "Error getting local versions: " + GetLocalVersions(fs, cfg).error
    ensures r.Ok? ==> (r.value == NoneInstalled <==> GetLocalVersions(fs, cfg).value == [])
    ensures r.Ok? && GetLocalVersions(fs, cfg).value != [] ==>
      r.value == Grouped(GroupVersions(GetLocalVersions(fs, cfg).value, CurrentOrNone(fs, cfg)))
  {
    match GetLocalVersions(fs, cfg)
    case Err(e) => Err("Error getting local versions: " + e)
    case Ok(locals) =>
      if |locals| == 0 then Ok(NoneInstalled) else Ok(Grouped(GroupVersions(locals, CurrentOrNone(fs, cfg))))
  }

  /** The active version, or `""` when the pointer cannot be read. */
  function CurrentOrNone(fs: Fs, cfg: Config): string {
    match GetCurrentVersion(fs, cfg) case Ok(v) => v case Err(_) => ""
  }

  /** In the report of `list`, an entry is marked exactly when the active
      version can be read and is that entry's version; an unreadable active
      version marks nothing. */
  lemma RunMarksCurrent(fs: Fs, cfg: Config, i: int, k: int)
    requires Run(fs, cfg).Ok? && Run(fs, cfg).value.Grouped?
    requires 0 <= i < |Run(fs, cfg).value.groups|
    requires 0 <= k < |Run(fs, cfg).value.groups[i].entries|
    ensures var e := Run(fs, cfg).value.groups[i].entries[k];
      e.current <==> GetCurrentVersion(fs, cfg).Ok? && e.version == GetCurrentVersion(fs, cfg).value
  {
    var locals := GetLocalVersions(fs, cfg).value;
    var keys := GroupKeys(locals);
    var ms := Members(locals, keys[i]);
    var e := Run(fs, cfg).value.groups[i].entries[k];
    assert e == Entries(ms, CurrentOrNone(fs, cfg))[k];
    assert e.version == ms[k] && ms[k] in ms;
    assert e.version != "";
  }

  /** In the report of `list`, a version is listed under a series exactly
      when it is installed and belongs to that series, and every installed
      version is listed. */
  lemma RunListsInventory(fs: Fs, cfg: Config, v: string)
    requires Run(fs, cfg).Ok? && Run(fs, cfg).value.Grouped?
    ensures var groups := Run(fs, cfg).value.groups;
      && (forall i | 0 <= i < |groups| ::
           v in Versions(groups[i]) <==> v in GetLocalVersions(fs, cfg).value && GetMajorVersion(v) == groups[i].key)
      && (v in GetLocalVersions(fs, cfg).value ==> exists i | 0 <= i < |groups| :: groups[i].key == GetMajorVersion(v))
  {
    var locals := GetLocalVersions(fs, cfg).value;
    var current := CurrentOrNone(fs, cfg);
    forall i | 0 <= i < |GroupVersions(locals, current)|
      ensures var g := GroupVersions(locals, current)[i];
        v in Versions(g) <==> v in locals && GetMajorVersion(v) == g.key
    {
      GroupMembers(locals, current, i, v);
    }
    if v in locals {
      EveryVersionGrouped(locals, current, v);
    }
  }

  /** Group keys are ascending and distinct. */
  lemma GroupKeysAscending(locals: seq<string>, current: string)
    ensures var groups := GroupVersions(locals, current);
      forall i, j | 0 <= i < j < |groups| :: Less(groups[i].key, groups[j].key)
  {
    var keys := GroupKeys(locals);
    assert forall i | 0 <= i < |keys| :: GroupVersions(locals, current)[i].key == keys[i];
  }

  /** A version is in a group exactly when it is installed and its series
      key is the group's key, so every group is non-empty. */
  lemma GroupMembers(locals: seq<string>, current: string, i: int, v: string)
    requires 0 <= i < |GroupVersions(locals, current)|
    ensures var g := GroupVersions(locals, current)[i];
      && (v in Versions(g) <==> v in locals && GetMajorVersion(v) == g.key)
      && g.entries != []
  {
    var keys := GroupKeys(locals);
    var g := GroupVersions(locals, current)[i];
    var ms := Members(locals, keys[i]);
    assert g.key == keys[i];
    assert Versions(g) == ms;
    assert keys[i] in keys;
    var w :| w in locals && GetMajorVersion(w) == keys[i];
    assert w in ms;
  }

  /** Every installed version has a group: the one keyed by its series. */
  lemma EveryVersionGrouped(locals: seq<string>, current: string, v: string)
    requires v in locals
    ensures var groups := GroupVersions(locals, current);
      exists i | 0 <= i < |groups| :: groups[i].key == GetMajorVersion(v)
  {
    var keys := GroupKeys(locals);
    var groups := GroupVersions(locals, current);
    assert GetMajorVersion(v) in keys;
    var i :| 0 <= i < |keys| && keys[i] == GetMajorVersion(v);
    assert groups[i].key == keys[i];
  }

  /** `x` occurs before `y` in `s`. */
  predicate Before(s: seq<string>, x: string, y: string) {
    exists a, b | 0 <= a < b < |s| :: s[a] == x && s[b] == y
  }

  /** A group keeps the inventory order of its versions. */
  lemma GroupKeepsOrder(locals: seq<string>, current: string, i: int, j: int, k: int)
    requires 0 <= i < |GroupVersions(locals, current)|
    requires 0 <= j < k < |GroupVersions(locals, current)[i].entries|
    ensures var g := GroupVersions(locals, current)[i];
      Before(locals, g.entries[j].version, g.entries[k].version)
  {
    var keys := GroupKeys(locals);
    var g := GroupVersions(locals, current)[i];
    var ms := Members(locals, keys[i]);
    assert g.entries[j].version == ms[j] && g.entries[k].version == ms[k];
    FilterKeepsOrder(locals, v => GetMajorVersion(v) == keys[i], j, k);
  }

  /** `Filter` keeps the order of what it keeps. */
  lemma {:induction false} FilterKeepsOrder(s: seq<string>, keep: string -> bool, j: int, k: int)
    requires 0 <= j < k < |Filter(s, keep)|
    ensures Before(s, Filter(s, keep)[j], Filter(s, keep)[k])
    decreases |s|
  {
    var init := s[..|s| - 1];
    var last := s[|s| - 1];
    var rest := Filter(init, keep);
    var r := Filter(s, keep);
    if keep(last) && k == |r| - 1 {
      assert r == rest + [last];
      assert r[j] == rest[j];
      assert r[j] in init;
      var a :| 0 <= a < |init| && init[a] == r[j];
      assert s[a] == r[j] && s[|s| - 1] == r[k];
    } else {
      assert r[..|rest|] == rest;
      assert r[j] == rest[j] && r[k] == rest[k];
      FilterKeepsOrder(init, keep, j, k);
      var a, b :| 0 <= a < b < |init| && init[a] == rest[j] && init[b] == rest[k];
      assert s[a] == init[a] && s[b] == init[b];
    }
  }
}

=== FILE: order.dfy ===
/** Go's string ordering (`sort.Strings`, `<` on strings) and the sequence
    utilities the commands share: sorting a set of names, filtering, and
    duplicate removal in the style of `lo.Uniq`.

    Go compares strings byte by byte. UTF-8 preserves code-point order, so
    comparing the decoded characters lexicographically gives the same order. */
module Order {

  // ------------------------------------------------------------ string order

  /** Strict lexicographic order on strings (Go's `a < b`). */
  predicate Less(a: string, b: string)
    decreases |a|
  {
    if |a| == 0 then |b| > 0
    else if |b| == 0 then false
    else if a[0] != b[0] then a[0] < b[0]
    else Less(a[1..], b[1..])
  }

  lemma {:induction false} LessIrreflexive(a: string)
    ensures !Less(a, a)
    decreases |a|
  {
    if |a| > 0 {
      LessIrreflexive(a[1..]);
    }
  }

  lemma {:induction false} LessAsymmetric(a: string, b: string)
    ensures !(Less(a, b) && Less(b, a))
    decreases |a|
  {
    if |a| > 0 && |b| > 0 && a[0] == b[0] {
      LessAsymmetric(a[1..], b[1..]);
    }
  }

  lemma {:induction false} LessTransitive(a: string, b: string, c: string)
    requires Less(a, b) && Less(b, c)
    ensures Less(a, c)
    decreases |a|
  {
    if |a| > 0 && a[0] == b[0] && b[0] == c[0] {
      LessTransitive(a[1..], b[1..], c[1..]);
    }
  }

  lemma {:induction false} LessTotal(a: string, b: string)
    ensures a == b || Less(a, b) || Less(b, a)
    decreases |a|
  {
    if |a| > 0 && |b| > 0 && a[0] == b[0] {
      LessTotal(a[1..], b[1..]);
      if a[1..] == b[1..] {
        assert a == [a[0]] + a[1..];
        assert b == [b[0]] + b[1..];
      }
    }
  }

  /** `Less` is a strict total order. */
  lemma LessIsStrictTotalOrder()
    ensures forall a: string :: !Less(a, a)
    ensures forall a: string, b: string :: Less(a, b) ==> !Less(b, a)
    ensures forall a: string, b: string :: a == b || Less(a, b) || Less(b, a)
    ensures forall a: string, b: string, c: string :: Less(a, b) && Less(b, c) ==> Less(a, c)
  {
    forall a: string ensures !Less(a, a) {
      LessIrreflexive(a);
    }
    forall a: string, b: string ensures Less(a, b) ==> !Less(b, a) {
      LessAsymmetric(a, b);
    }
    forall a: string, b: string ensures a == b || Less(a, b) || Less(b, a) {
      LessTotal(a, b);
    }
    forall a: string, b: string, c: string | Less(a, b) && Less(b, c) ensures Less(a, c) {
      LessTransitive(a, b, c);
    }
  }

  /** Ascending without repeats. */
  predicate StrictlySorted(s: seq<string>) {
    forall i, j | 0 <= i < j < |s| :: Less(s[i], s[j])
  }

  // -------------------------------------------------- sorting a set of names

  /** `m` is the least element of `s`. */
  predicate IsLeast(m: string, s: set<string>) {
    m in s && forall x | x in s :: x == m || Less(m, x)
  }

  lemma {:induction false} LeastExists(s: set<string>)
    requires s != {}
    ensures exists m :: IsLeast(m, s)
    decreases |s|
  {
    var x :| x in s;
    if s == {x} {
      assert IsLeast(x, s);
    } else {
      LeastExists(s - {x});
      var m :| IsLeast(m, s - {x});
      LessTotal(m, x);
      if Less(m, x) {
        assert IsLeast(m, s);
      } else {
        forall y | y in s ensures y == x || Less(x, y) {
          if y != x {
            assert y == m || Less(m, y);
            if y != m {
              LessTransitive(x, m, y);
            }
          }
        }
        assert IsLeast(x, s);
      }
    }
  }

  /** The least element of a non-empty set of strings. */
  function Least(s: set<string>): (m: string)
    requires s != {}
    ensures IsLeast(m, s)
  {
    LeastExists(s);
    LessIsStrictTotalOrder();
    var m :| IsLeast(m, s);
    m
  }

  /** The elements of `s` in ascending order, each once: what the tool gets
      from collecting map keys or directory names and calling `sort.Strings`. */
  function SortedSet(s: set<string>): (r: seq<string>)
    ensures StrictlySorted(r)
    ensures |r| == |s|
    ensures forall x :: x in r <==> x in s
    decreases |s|
  {
    if s == {} then []
    else
      var m := Least(s);
      var rest := SortedSet(s - {m});
      assert forall x | x in rest :: Less(m, x);
      [m] + rest
  }

  /** A strictly sorted sequence is determined by its set of elements, so
      `SortedSet` is the only ordering `sort.Strings` can produce. */
  lemma {:induction false} SortedSetUnique(r: seq<string>, s: set<string>)
    requires StrictlySorted(r)
    requires forall x :: x in r <==> x in s
    ensures r == SortedSet(s)
    decreases |r|
  {
    if |r| == 0 {
      assert s == {};
    } else {
      assert r[0] in s;
      var m := Least(s);
      HeadIsLeast(r, s);
      TailIsRest(r, s);
      SortedSetUnique(r[1..], s - {m});
      SortedSetUnfold(s);
      assert r == [r[0]] + r[1..];
    }
  }

  lemma SortedSetUnfold(s: set<string>)
    requires s != {}
    ensures SortedSet(s) == [Least(s)] + SortedSet(s - {Least(s)})
  {
  }

  /** The head of a strictly sorted enumeration of `s` is its least element. */
  lemma HeadIsLeast(r: seq<string>, s: set<string>)
    requires |r| > 0 && StrictlySorted(r)
    requires forall x :: x in r <==> x in s
    ensures s != {} && r[0] == Least(s)
  {
    assert r[0] in s;
    var m := Least(s);
    assert m in r;
    var k :| 0 <= k < |r| && r[k] == m;
    assert k == 0 || Less(r[0], m);
    LessAsymmetric(m, r[0]);
  }

  /** The tail enumerates the rest of the set. */
  lemma TailIsRest(r: seq<string>, s: set<string>)
    requires |r| > 0 && StrictlySorted(r)
    requires forall x :: x in r <==> x in s
    ensures StrictlySorted(r[1..])
    ensures forall x :: x in r[1..] <==> x in s - {r[0]}
  {
    LessIrreflexive(r[0]);
    forall x ensures x in r[1..] <==> x in s - {r[0]} {
      if x in r[1..] {
        var k :| 1 <= k < |r| && r[k] == x;
        assert Less(r[0], r[k]);
      }
      if x in s - {r[0]} {
        var k :| 0 <= k < |r| && r[k] == x;
        assert k != 0;
        assert r[1..][k - 1] == x;
      }
    }
  }

  // -------------------------------------------------------------- sequences

  /** Every element occurs once. */
  predicate NoDuplicates<T(==)>(s: seq<T>) {
    forall i, j | 0 <= i < j < |s| :: s[i] != s[j]
  }

  /** The elements of `s` that satisfy `keep`, in their original order. */
  function Filter<T(!new)>(s: seq<T>, keep: T -> bool): (r: seq<T>)
    ensures |r| <= |s|
    ensures forall x :: x in r <==> x in s && keep(x)
  {
    if |s| == 0 then []
    else
      var rest := Filter(s[..|s| - 1], keep);
      assert s == s[..|s| - 1] + [s[|s| - 1]];
      if keep(s[|s| - 1]) then rest + [s[|s| - 1]] else rest
  }

  lemma FilterOne<T(!new)>(x: T, keep: T -> bool)
    ensures Filter([x], keep) == if keep(x) then [x] else []
  {
    assert [x][..0] == [];
  }

  lemma {:induction false} FilterConcat<T(!new)>(a: seq<T>, b: seq<T>, keep: T -> bool)
    ensures Filter(a + b, keep) == Filter(a, keep) + Filter(b, keep)
    decreases |b|
  {
    if |b| == 0 {
      assert a + b == a;
    } else {
      var b' := b[..|b| - 1];
      assert (a + b)[..|a + b| - 1] == a + b';
      FilterConcat(a, b', keep);
    }
  }

  lemma FilterNoDuplicates<T(!new)>(s: seq<T>, keep: T -> bool)
    requires NoDuplicates(s)
    ensures NoDuplicates(Filter(s, keep))
    decreases |s|
  {
    if |s| > 0 {
      FilterNoDuplicates(s[..|s| - 1], keep);
      assert s[|s| - 1] !in s[..|s| - 1];
    }
  }

  /** `lo.Uniq`: keep the first occurrence of each element. */
  function Dedupe<T(==,!new)>(s: seq<T>): (r: seq<T>)
    ensures NoDuplicates(r)
    ensures forall x :: x in r <==> x in s
    ensures |r| <= |s|
    decreases |s|
  {
    if |s| == 0 then []
    else
      var rest := Dedupe(s[..|s| - 1]);
      var last := s[|s| - 1];
      assert s == s[..|s| - 1] + [last];
      if last in rest then rest else rest + [last]
  }

  /** Dedupe keeps elements in the order of their first occurrence. */
  lemma {:induction false} DedupeKeepsFirstOrder<T(!new)>(s: seq<T>, i: int, j: int)
    requires 0 <= i < j < |Dedupe(s)|
    ensures FirstIndex(s, Dedupe(s)[i]) < FirstIndex(s, Dedupe(s)[j])
    decreases |s|
  {
    var init := s[..|s| - 1];
    var rest := Dedupe(init);
    var last := s[|s| - 1];
    assert s == init + [last];
    FirstIndexPrefix(init, last, Dedupe(s)[i]);
    if j < |rest| {
      DedupeKeepsFirstOrder(init, i, j);
      FirstIndexPrefix(init, last, Dedupe(s)[j]);
    } else {
      assert Dedupe(s)[j] == last && last !in init;
      assert Dedupe(s)[i] in init;
      FirstIndexBelow(init, Dedupe(s)[i]);
      FirstIndexLast(init, last);
    }
  }

  /** Position of the first occurrence of `x` in `s`. */
  function FirstIndex<T(==)>(s: seq<T>, x: T): (k: nat)
    requires x in s
    ensures k < |s| && s[k] == x && x !in s[..k]
  {
    if s[0] == x then 0 else 1 + FirstIndex(s[1..], x)
  }

  /** The first index is the only index holding `x` with no `x` before it. */
  lemma FirstIndexUnique<T>(s: seq<T>, x: T, k: nat)
    requires k < |s| && s[k] == x && x !in s[..k]
    ensures FirstIndex(s, x) == k
  {
  }

  lemma FirstIndexPrefix<T>(init: seq<T>, last: T, x: T)
    requires x in init
    ensures FirstIndex(init + [last], x) == FirstIndex(init, x)
  {
    var s := init + [last];
    var k := FirstIndex(init, x);
    assert s[..k] == init[..k];
    FirstIndexUnique(s, x, k);
  }

  lemma FirstIndexBelow<T>(init: seq<T>, x: T)
    requires x in init
    ensures FirstIndex(init, x) < |init|
  {
  }

  lemma FirstIndexLast<T>(init: seq<T>, last: T)
    requires last !in init
    ensures FirstIndex(init + [last], last) == |init|
  {
    var s := init + [last];
    assert s[..|init|] == init;
    FirstIndexUnique(s, last, |init|);
  }
}

=== FILE: rm_cmd.dfy ===
/** The `rm` command of `cmd/rm.go`: resolving arguments (full versions or
    series such as `1.22`) against the installed versions, the filter that
    drops versions not installed and the active one, and the confirmed
    removal of the version directories. */
module RmCmd {
  import opened Wrappers
  import opened Text
  import opened Order
  import opened FileSystem
  import opened Version

  /** An argument with the `go` prefix added when it lacks one. */
  function NormalizeArg(arg: string): (r: string)
    ensures HasPrefix(r, "go")
    ensures HasPrefix(arg, "go") ==> r == arg
    ensures !HasPrefix(arg, "go") ==> r == "go" + arg
  {
    if HasPrefix(arg, "go") then arg
    else
      TrimPrefixOfConcat("go", arg);
      "go" + arg
  }

  /** A series selector: no dot after the prefix (`go1`), or exactly two
      dot-separated parts (`go1.22`). */
  predicate IsSeries(normalized: string) {
    var bare := TrimPrefix(normalized, "go");
    '.' !in bare || |Split(bare, '.')| == 2
  }

  /** Installed version `v` belongs to series `s`: it is `s` itself or
      continues `s` with a dot. */
  predicate InSeries(v: string, s: string) {
    HasPrefix(v, s + ".") || v == s
  }

  /** A member of a series other than the series itself continues it with a
      dot, so `go1.2` does not take in `go1.22.1`. */
  lemma InSeriesNeedsDot(v: string, s: string)
    requires InSeries(v, s) && v != s
    ensures |v| > |s| && v[..|s|] == s && v[|s|] == '.'
  {
    assert v[..|s| + 1] == s + ".";
    assert v[..|s|] == (s + ".")[..|s|];
  }

  lemma SeriesExample()
    ensures !InSeries("go1.22.1", "go1.2")
    ensures InSeries("go1.22.1", "go1.22") && InSeries("go1.22", "go1.22")
  {
    assert "go1.22.1"[5] == '2';
    assert "go1.22.1"[..6] == "go1.22";
    assert "go1.22.1"[..7] == "go1.22.";
  }

  /** What one argument resolves to: the installed members of a series, in
      installed order, or the full version itself, installed or not. */
  function Resolve(arg: string, installed: seq<string>): seq<string> {
    var n := NormalizeArg(arg);
    if IsSeries(n) then Filter(installed, v => InSeries(v, n)) else [n]
  }

  /** A series resolves to its installed members, in installed order; a
      full version to itself, installed or not. */
  lemma ResolveSpec(arg: string, installed: seq<string>, v: string)
    ensures v in Resolve(arg, installed) <==> Selects(arg, installed, v)
    ensures !IsSeries(NormalizeArg(arg)) ==> Resolve(arg, installed) == [NormalizeArg(arg)]
  {
  }

  /** The pieces `f` gives for each argument, one after the other. */
  function ConcatMap(args: seq<string>, f: string -> seq<string>): seq<string>
    decreases |args|
  {
    if |args| == 0 then [] else ConcatMap(args[..|args| - 1], f) + f(args[|args| - 1])
  }

  lemma {:induction false} ConcatMapAppend(a: seq<string>, b: seq<string>, f: string -> seq<string>)
    ensures ConcatMap(a + b, f) == ConcatMap(a, f) + ConcatMap(b, f)
    decreases |b|
  {
    if |b| == 0 {
      assert a + b == a;
    } else {
      var init := b[..|b| - 1];
      var ab := a + b;
      var last := b[|b| - 1];
      assert ab[..|ab| - 1] == a + init;
      assert ab[|ab| - 1] == last;
      assert b[..|b| - 1] == init;
      ConcatMapAppend(a, init, f);
      calc {
        ConcatMap(ab, f);
        ConcatMap(a + init, f) + f(last);
        (ConcatMap(a, f) + ConcatMap(init, f)) + f(last);
        ConcatMap(a, f) + (ConcatMap(init, f) + f(last));
        ConcatMap(a, f) + ConcatMap(b, f);
      }
    }
  }

  /** `findVersionsToUninstall`: the resolutions of the arguments, one after
      the other. */
  function FindVersionsToUninstall(args: seq<string>, installed: seq<string>): seq<string> {
    ConcatMap(args, arg => Resolve(arg, installed))
  }

  /** Output order is argument order: the result for `a + b` is the result
      for `a` followed by the result for `b`. */
  lemma FindInArgumentOrder(a: seq<string>, b: seq<string>, installed: seq<string>)
    ensures FindVersionsToUninstall(a + b, installed)
      == FindVersionsToUninstall(a, installed) + FindVersionsToUninstall(b, installed)
  {
    ConcatMapAppend(a, b, arg => Resolve(arg, installed));
  }

  /** A member of the concatenation comes from some argument's piece. */
  predicate InSomePiece(args: seq<string>, f: string -> seq<string>, v: string) {
    exists i | 0 <= i < |args| :: v in f(args[i])
  }

  lemma {:induction false} ConcatMapMember(args: seq<string>, f: string -> seq<string>, v: string)
    ensures v in ConcatMap(args, f) <==> InSomePiece(args, f, v)
    decreases |args|
  {
    if |args| > 0 {
      var init := args[..|args| - 1];
      ConcatMapMember(init, f, v);
      if v in ConcatMap(init, f) {
        var i :| 0 <= i < |init| && v in f(init[i]);
        assert args[i] == init[i];
      }
      if v in f(args[|args| - 1]) {
        assert InSomePiece(args, f, v);
      }
      if InSomePiece(args, f, v) {
        var i :| 0 <= i < |args| && v in f(args[i]);
        if i < |init| {
          assert init[i] == args[i];
          assert InSomePiece(init, f, v);
        }
      }
    }
  }

  /** `v` is what argument `arg` selects. */
  predicate Selects(arg: string, installed: seq<string>, v: string) {
    var n := NormalizeArg(arg);
    if IsSeries(n) then v in installed && InSeries(v, n) else v == n
  }

  /** Every version found is selected by some argument, and every selected
      version is found. */
  lemma FindSpec(args: seq<string>, installed: seq<string>, v: string)
    ensures v in FindVersionsToUninstall(args, installed) <==> exists i | 0 <= i < |args| :: Selects(args[i], installed, v)
  {
    var f := arg => Resolve(arg, installed);
    ConcatMapMember(args, f, v);
    forall i | 0 <= i < |args|
      ensures v in f(args[i]) <==> Selects(args[i], installed, v)
    {
      ResolveSpec(args[i], installed, v);
    }
  }

  /** The filter of `Run`: drop versions not installed and the active one,
      then duplicates, keeping first occurrences. */
  function FinalVersions(found: seq<string>, installed: seq<string>, current: string): (r: seq<string>)
    ensures NoDuplicates(r)
    ensures forall v :: v in r <==> v in found && v in installed && v != current
  {
    Dedupe(Filter(found, v => v in installed && v != current))
  }

  /** The final list in the order of first occurrence in what was found. */
  lemma FinalKeepsOrder(found: seq<string>, installed: seq<string>, current: string, i: int, j: int)
    requires 0 <= i < j < |FinalVersions(found, installed, current)|
    ensures var r := FinalVersions(found, installed, current);
      var kept := Filter(found, v => v in installed && v != current);
      FirstIndex(kept, r[i]) < FirstIndex(kept, r[j])
  {
    DedupeKeepsFirstOrder(Filter(found, v => v in installed && v != current), i, j);
  }

  /** `RemoveAll` of each listed version's directory in turn. */
  function RemoveVersions(fs: Fs, cfg: Config, vs: seq<string>): Fs
    decreases |vs|
  {
    if |vs| == 0 then fs
    else RemoveAll(RemoveVersions(fs, cfg, vs[..|vs| - 1]), PathJoin(cfg.versionsDir, vs[|vs| - 1]))
  }

  /** A path is gone exactly when it is one of the directories or below
      one; everything else is untouched. */
  lemma {:induction false} RemoveVersionsSpec(fs: Fs, cfg: Config, vs: seq<string>, p: string)
    ensures p in RemoveVersions(fs, cfg, vs) <==>
      p in fs && forall i | 0 <= i < |vs| :: p != PathJoin(cfg.versionsDir, vs[i]) && !Below(PathJoin(cfg.versionsDir, vs[i]), p)
    ensures p in RemoveVersions(fs, cfg, vs) ==> RemoveVersions(fs, cfg, vs)[p] == fs[p]
    decreases |vs|
  {
    if |vs| > 0 {
      var init := vs[..|vs| - 1];
      RemoveVersionsSpec(fs, cfg, init, p);
      assert forall i | 0 <= i < |init| :: init[i] == vs[i];
    }
  }

  /** How a run ended: the filesystem, the final list, and whether the
      removal was confirmed. */
  datatype RmOutcome = RmOutcome(fs: Fs, final: seq<string>, removed: bool)

  /** `rm`'s `Run`. A current version that cannot be read only warns, and
      then no version counts as active; the installed list must be readable.
      Only a `y` answer removes, and only when the final list is not empty. */
  function Run(fs: Fs, cfg: Config, args: seq<string>, response: string): (r: Result<RmOutcome, string>)
    ensures r.Err? <==> GetLocalVersions(fs, cfg).Err?
    ensures r.Ok? ==> var current := GetCurrentVersion(fs, cfg);
      var installed := GetLocalVersions(fs, cfg).value;
      && r.value.final == FinalVersions(FindVersionsToUninstall(args, installed), installed,
                                        if current.Ok? then current.value else "")
      && (r.value.removed <==> r.value.final != [] && IsYes(response))
      && (r.value.removed ==> r.value.fs == RemoveVersions(fs, cfg, r.value.final))
      && (!r.value.removed ==> r.value.fs == fs)
  {
    var current := match GetCurrentVersion(fs, cfg) case Ok(v) => v case Err(_) => "";
    match GetLocalVersions(fs, cfg)
    case Err(e) => Err("could not list installed Go versions: " + e)
    case Ok(installed) =>
      var final := FinalVersions(FindVersionsToUninstall(args, installed), installed, current);
      if |final| == 0 || !IsYes(response) then Ok(RmOutcome(fs, final, false))
      else Ok(RmOutcome(RemoveVersions(fs, cfg, final), final, true))
  }

  /** Only installed versions are removed, never the active one, and an
      active version's directory survives a confirmed removal. */
  lemma RunSparesActive(fs: Fs, cfg: Config, args: seq<string>, response: string, p: string)
    requires Run(fs, cfg, args, response).Ok?
    requires GetCurrentVersion(fs, cfg).Ok? && IsElement(GetCurrentVersion(fs, cfg).value)
    requires p == PathJoin(cfg.versionsDir, GetCurrentVersion(fs, cfg).value) && p in fs
    ensures forall v | v in Run(fs, cfg, args, response).value.final ::
      v in GetLocalVersions(fs, cfg).value && v != GetCurrentVersion(fs, cfg).value
    ensures p in Run(fs, cfg, args, response).value.fs
  {
    var out := Run(fs, cfg, args, response).value;
    var current := GetCurrentVersion(fs, cfg).value;
    if out.removed {
      RemoveVersionsSpec(fs, cfg, out.final, p);
      forall i | 0 <= i < |out.final|
        ensures p != PathJoin(cfg.versionsDir, out.final[i]) && !Below(PathJoin(cfg.versionsDir, out.final[i]), p)
      {
        var v := out.final[i];
        assert v in out.final;
        assert IsElement(v);
        DistinctElements(cfg.versionsDir, v, current);
      }
    }
  }

  /** Two different elements joined to the same directory are different
      paths, neither below the other. */
  lemma DistinctElements(dir: string, v: string, w: string)
    requires IsElement(v) && IsElement(w) && v != w
    ensures PathJoin(dir, v) != PathJoin(dir, w)
    ensures !Below(PathJoin(dir, v), PathJoin(dir, w))
  {
    JoinInjective(dir, v, w);
    BelowJoin(dir, v, w);
  }

  lemma JoinInjective(dir: string, v: string, w: string)
    ensures PathJoin(dir, v) == PathJoin(dir, w) ==> v == w
  {
    var a := dir + "/";
    assert PathJoin(dir, v) == a + v && PathJoin(dir, w) == a + w;
    assert (a + v)[|a|..] == v;
    assert (a + w)[|a|..] == w;
  }

  lemma BelowJoin(dir: string, v: string, w: string)
    ensures Below(PathJoin(dir, v), PathJoin(dir, w)) && v != "" ==> '/' in w
  {
    var a := dir + "/";
    if Below(PathJoin(dir, v), PathJoin(dir, w)) && v != "" {
      var q := a + w;
      assert PathJoin(dir, w) == q;
      assert q[..|a + v| + 1] == a + v + "/";
      assert q[|a| + |v|] == '/';
      assert w[|v|] == q[|a| + |v|];
    }
  }

  /** Without a confirmation nothing is removed. */
  lemma RunNeedsConfirmation(fs: Fs, cfg: Config, args: seq<string>, response: string)
    requires Run(fs, cfg, args, response).Ok?
    requires !IsYes(response)
    ensures Run(fs, cfg, args, response).value.fs == fs
    ensures !Run(fs, cfg, args, response).value.removed
  {
  }
}

=== FILE: root_cmd.dfy ===
/** The root command of `cmd/root.go`: the older, end-anchored
    `findGoModVersion`, and `Run`, which prefixes the requested version,
    replaces it by the oldest installed version that satisfies go.mod when it
    is too old, installs it if its directory is missing and switches to it.
    The `normalizeGoVersion` and `isGoVersionCompatible` of this file have the
    same bodies as those of `cmd/util.go` and are taken from `UtilCmd`. */
module RootCmd {
  import opened Wrappers
  import opened Text
  import opened Semver
  import opened GoMod
  import opened FileSystem
  import opened Version
  import opened UtilCmd

  // ------------------------------------------------------------- go.mod

  /** The capture of the first line that matches, if any line does. */
  function FirstCapture(lines: seq<string>, capture: string -> Option<string>): Option<string>
  {
    if |lines| == 0 then None
    else if capture(lines[0]).Some? then capture(lines[0])
    else FirstCapture(lines[1..], capture)
  }

  /** No line matches exactly when there is no capture; otherwise the capture
      is that of a line before which no line matches. */
  lemma {:induction false} FirstCaptureSpec(lines: seq<string>, capture: string -> Option<string>)
    ensures FirstCapture(lines, capture).None? <==> forall i | 0 <= i < |lines| :: capture(lines[i]).None?
    ensures FirstCapture(lines, capture).Some? ==> exists i | 0 <= i < |lines| ::
      && capture(lines[i]) == FirstCapture(lines, capture)
      && forall j | 0 <= j < i :: capture(lines[j]).None?
  {
    if |lines| > 0 {
      var tail := lines[1..];
      FirstCaptureSpec(tail, capture);
      assert forall i | 0 <= i < |tail| :: tail[i] == lines[i + 1];
      var r := FirstCapture(lines, capture);
      if capture(lines[0]).Some? {
        assert capture(lines[0]) == r;
      } else if r.Some? {
        var i :| 0 <= i < |tail| && capture(tail[i]) == r && forall j | 0 <= j < i :: capture(tail[j]).None?;
        assert capture(lines[i + 1]) == r;
        assert forall j | 0 <= j < i + 1 :: capture(lines[j]).None? by {
          forall j | 0 <= j < i + 1 ensures capture(lines[j]).None? {
            if j > 0 {
              assert lines[j] == tail[j - 1];
            }
          }
        }
      } else {
        forall i | 0 <= i < |lines| ensures capture(lines[i]).None? {
          if i > 0 {
            assert lines[i] == tail[i - 1];
          }
        }
      }
    }
  }

  /** `findGoModVersion` of `cmd/root.go`: the first line that is exactly a
      `go` directive. A go.mod without one is an error here, unlike in
      `cmd/util.go`. */
  function FindGoModVersion(lookup: GoModLookup): (r: Result<string, string>)
    ensures lookup.Absent? <==> r == Ok("")
    ensures r.Ok? ==> lookup.Absent? || lookup.Present?
  {
    match lookup
    case NoWorkingDir => Err("failed to get current working directory")
    case StatError => Err("error checking for go.mod file")
    case Unreadable => Err("failed to read go.mod file")
    case Absent => Ok("")
    case Present(content) =>
      match FirstCapture(Split(content, '\n'), AnchoredGo)
      case Some(v) => Ok("go" + v)
      case None => Err("go.mod found, but no go version specified")
  }

  /** A present go.mod gives the version of its first exact `go` line, and
      an error when it has none. */
  lemma FindGoModVersionFirstLine(content: string)
    ensures var lines := Split(content, '\n');
      FindGoModVersion(Present(content)).Ok? <==> exists i | 0 <= i < |lines| :: AnchoredGo(lines[i]).Some?
    ensures var lines := Split(content, '\n');
      FindGoModVersion(Present(content)).Ok? ==> exists i | 0 <= i < |lines| ::
        && AnchoredGo(lines[i]).Some?
        && FindGoModVersion(Present(content)).value == "go" + AnchoredGo(lines[i]).value
        && forall j | 0 <= j < i :: AnchoredGo(lines[j]).None?
  {
    FirstCaptureSpec(Split(content, '\n'), AnchoredGo);
  }

  // ------------------------------------------------------ suitable version

  /** The fallback loop of `Run`: the installed version compatible with the
      requirement that is lowest under semver, the first of equals; `""` when
      none is compatible. */
  function Suitable(locals: seq<string>, required: string): string
  {
    if |locals| == 0 then ""
    else
      var s := Suitable(locals[..|locals| - 1], required);
      var lv := locals[|locals| - 1];
      if IsGoVersionCompatible(lv, required) && (s == "" || Compare(NormalizeGoVersion(lv), NormalizeGoVersion(s)) < 0) then lv
      else s
  }

  /** Installed version names are never empty. */
  predicate NonEmptyNames(locals: seq<string>) {
    forall k | 0 <= k < |locals| :: locals[k] != ""
  }

  /** No installed version is compatible with the requirement. */
  predicate NoneCompatible(locals: seq<string>, required: string) {
    forall k | 0 <= k < |locals| :: !IsGoVersionCompatible(locals[k], required)
  }

  /** `v` is installed, compatible, and no compatible installed version is
      lower. */
  predicate MinimalCompatible(v: string, locals: seq<string>, required: string) {
    && v in locals
    && IsGoVersionCompatible(v, required)
    && forall k | 0 <= k < |locals| && IsGoVersionCompatible(locals[k], required) ::
         Compare(NormalizeGoVersion(v), NormalizeGoVersion(locals[k])) <= 0
  }

  /** The fallback finds the minimum compatible installed version, and finds
      none exactly when no installed version is compatible. */
  lemma {:induction false} SuitableSpec(locals: seq<string>, required: string)
    requires NonEmptyNames(locals)
    ensures Suitable(locals, required) == "" <==> NoneCompatible(locals, required)
    ensures Suitable(locals, required) != "" ==> MinimalCompatible(Suitable(locals, required), locals, required)
  {
    if |locals| > 0 {
      var init := locals[..|locals| - 1];
      var lv := locals[|locals| - 1];
      assert locals == init + [lv];
      assert NonEmptyNames(init) by {
        assert forall k | 0 <= k < |init| :: init[k] == locals[k];
      }
      SuitableSpec(init, required);
      var s := Suitable(init, required);
      if IsGoVersionCompatible(lv, required) && (s == "" || Compare(NormalizeGoVersion(lv), NormalizeGoVersion(s)) < 0) {
        NewMinimum(init, lv, s, required);
      } else if s != "" {
        KeepMinimum(init, lv, s, required);
      } else {
        NoneStill(init, lv, required);
      }
    }
  }

  lemma NewMinimum(init: seq<string>, lv: string, s: string, required: string)
    requires s == "" ==> NoneCompatible(init, required)
    requires s != "" ==> MinimalCompatible(s, init, required)
    requires IsGoVersionCompatible(lv, required)
    requires s == "" || Compare(NormalizeGoVersion(lv), NormalizeGoVersion(s)) < 0
    ensures MinimalCompatible(lv, init + [lv], required)
  {
    var locals := init + [lv];
    forall k | 0 <= k < |locals| && IsGoVersionCompatible(locals[k], required)
      ensures Compare(NormalizeGoVersion(lv), NormalizeGoVersion(locals[k])) <= 0
    {
      if k < |init| {
        assert locals[k] == init[k];
        CompareAntisymmetric(NormalizeGoVersion(lv), NormalizeGoVersion(s));
        CompareAntisymmetric(NormalizeGoVersion(lv), NormalizeGoVersion(init[k]));
        CompareAntisymmetric(NormalizeGoVersion(s), NormalizeGoVersion(init[k]));
        CompareTransitive(NormalizeGoVersion(init[k]), NormalizeGoVersion(s), NormalizeGoVersion(lv));
      } else {
        CompareReflexive(NormalizeGoVersion(lv));
      }
    }
    assert locals[|init|] == lv;
  }

  lemma KeepMinimum(init: seq<string>, lv: string, s: string, required: string)
    requires MinimalCompatible(s, init, required)
    requires !(IsGoVersionCompatible(lv, required) && Compare(NormalizeGoVersion(lv), NormalizeGoVersion(s)) < 0)
    ensures MinimalCompatible(s, init + [lv], required)
  {
    var locals := init + [lv];
    forall k | 0 <= k < |locals| && IsGoVersionCompatible(locals[k], required)
      ensures Compare(NormalizeGoVersion(s), NormalizeGoVersion(locals[k])) <= 0
    {
      if k < |init| {
        assert locals[k] == init[k];
      } else {
        CompareAntisymmetric(NormalizeGoVersion(lv), NormalizeGoVersion(s));
      }
    }
  }

  lemma NoneStill(init: seq<string>, lv: string, required: string)
    requires NoneCompatible(init, required)
    requires !IsGoVersionCompatible(lv, required)
    ensures NoneCompatible(init + [lv], required)
  {
    var locals := init + [lv];
    forall k | 0 <= k < |locals| ensures !IsGoVersionCompatible(locals[k], required) {
      if k < |init| {
        assert locals[k] == init[k];
      }
    }
  }

  /** The loop of `Run` as written, scanning the installed versions in
      order. */
  method FindSuitable(locals: seq<string>, required: string) returns (suitable: string)
    ensures suitable == Suitable(locals, required)
  {
    suitable := "";
    var i := 0;
    while i < |locals|
      invariant 0 <= i <= |locals|
      invariant suitable == Suitable(locals[..i], required)
    {
      var lv := locals[i];
      assert locals[..i + 1][..i] == locals[..i];
      if IsGoVersionCompatible(lv, required) {
        if suitable == "" || Compare(NormalizeGoVersion(lv), NormalizeGoVersion(suitable)) < 0 {
          suitable := lv;
        }
      }
      i := i + 1;
    }
    assert locals[..|locals|] == locals;
  }

  // -------------------------------------------------------------- choosing

  /** The requested version with a `go` prefix. */
  function RequestedName(requested: string): (r: string)
    ensures HasPrefix(r, "go")
    ensures TrimPrefix(r, "go") == TrimPrefix(requested, "go")
    ensures HasPrefix(requested, "go") ==> r == requested
  {
    TrimPrefixOfConcat("go", requested);
    if !HasPrefix(requested, "go") then "go" + requested else requested
  }

  /** The go.mod requirement, `""` when there is none or it cannot be
      determined: a lookup error only prints a warning. */
  function Requirement(lookup: GoModLookup): (r: string)
    ensures FindGoModVersion(lookup).Err? ==> r == ""
    ensures FindGoModVersion(lookup).Ok? ==> r == FindGoModVersion(lookup).value
  {
    match FindGoModVersion(lookup)
    case Ok(v) => v
    case Err(_) => ""
  }

  /** The version `Run` goes on with, or the message it exits with. A
      request below the requirement needs the installed list, and a listing
      that fails then ends the run. */
  function ChooseVersion(requested: string, lookup: GoModLookup, fs: Fs, cfg: Config): (r: Result<string, string>)
    ensures r.Ok? ==> HasPrefix(r.value, "go") || (GetLocalVersions(fs, cfg).Ok? && r.value in GetLocalVersions(fs, cfg).value)
    ensures (Requirement(lookup) != "" && !IsGoVersionCompatible(RequestedName(requested), Requirement(lookup))
      && GetLocalVersions(fs, cfg).Err?) ==> r == Err("Error getting local versions: " + GetLocalVersions(fs, cfg).error)
  {
    var v := RequestedName(requested);
    var required := Requirement(lookup);
    if required == "" || IsGoVersionCompatible(v, required) then Ok(v)
    else
      match GetLocalVersions(fs, cfg)
      case Err(e) => Err("Error getting local versions: " + e)
      case Ok(locals) =>
        var s := Suitable(locals, required);
        if s == "" then Err("No installed Go version found that meets the go.mod requirement")
        else
          assert s in locals by {
            LocalNamesNonEmpty(fs, cfg);
            SuitableSpec(locals, required);
          }
          Ok(s)
  }

  lemma LocalNamesNonEmpty(fs: Fs, cfg: Config)
    requires GetLocalVersions(fs, cfg).Ok?
    ensures NonEmptyNames(GetLocalVersions(fs, cfg).value)
  {
    var locals := GetLocalVersions(fs, cfg).value;
    forall k | 0 <= k < |locals| ensures locals[k] != "" {
      assert locals[k] in locals;
    }
  }

  /** Without a usable requirement the request is used as given, with the
      `go` prefix; a go.mod lookup error counts as no requirement. */
  lemma ChooseWithoutRequirement(requested: string, lookup: GoModLookup, fs: Fs, cfg: Config)
    requires FindGoModVersion(lookup).Err? || lookup.Absent?
    ensures ChooseVersion(requested, lookup, fs, cfg) == Ok(RequestedName(requested))
  {
  }

  /** A request that satisfies the requirement is kept. */
  lemma ChooseKeepsCompatible(requested: string, lookup: GoModLookup, fs: Fs, cfg: Config)
    requires IsGoVersionCompatible(RequestedName(requested), Requirement(lookup))
    ensures ChooseVersion(requested, lookup, fs, cfg) == Ok(RequestedName(requested))
  {
  }

  /** A request below the requirement is replaced by the lowest compatible
      installed version; with none, the choice fails. */
  lemma ChooseOverride(requested: string, lookup: GoModLookup, fs: Fs, cfg: Config)
    requires Requirement(lookup) != ""
    requires !IsGoVersionCompatible(RequestedName(requested), Requirement(lookup))
    requires GetLocalVersions(fs, cfg).Ok?
    ensures ChooseVersion(requested, lookup, fs, cfg).Err? <==> NoneCompatible(GetLocalVersions(fs, cfg).value, Requirement(lookup))
    ensures ChooseVersion(requested, lookup, fs, cfg).Ok? ==>
      MinimalCompatible(ChooseVersion(requested, lookup, fs, cfg).value, GetLocalVersions(fs, cfg).value, Requirement(lookup))
  {
    var locals, required := GetLocalVersions(fs, cfg).value, Requirement(lookup);
    ChooseFallback(requested, lookup, fs, cfg);
    LocalNamesNonEmpty(fs, cfg);
    SuitableSpec(locals, required);
  }

  lemma ChooseFallback(requested: string, lookup: GoModLookup, fs: Fs, cfg: Config)
    requires Requirement(lookup) != ""
    requires !IsGoVersionCompatible(RequestedName(requested), Requirement(lookup))
    requires GetLocalVersions(fs, cfg).Ok?
    ensures var s := Suitable(GetLocalVersions(fs, cfg).value, Requirement(lookup));
      ChooseVersion(requested, lookup, fs, cfg) ==
        if s == "" then Err("No installed Go version found that meets the go.mod requirement") else Ok(s)
  {
  }

  // ------------------------------------------------------------------ run

  /** What `Run` leaves behind: the filesystem, the version it settled on
      (`""` when it exited before choosing one), whether the installer was
      called, and the message it exited with, if any. */
  datatype RunOutcome = RunOutcome(fs: Fs, version: string, installAttempted: bool, error: Option<string>)

  /** The installer (`installer.Install`), which is not part of this model:
      from a filesystem and a version name to the filesystem after the
      download, or an error. */
  type Installer = (Fs, string) -> Result<Fs, string>

  /** `Run`. `os.Stat` of the version directory is taken to succeed on every
      existing node and to fail with "does not exist" on a missing one. */
  function Run(requested: string, lookup: GoModLookup, fs: Fs, cfg: Config, install: Installer): (r: RunOutcome)
    ensures ChooseVersion(requested, lookup, fs, cfg).Err? ==> r.fs == fs && r.error.Some? && !r.installAttempted
    ensures ChooseVersion(requested, lookup, fs, cfg).Ok? ==> r.version == ChooseVersion(requested, lookup, fs, cfg).value
  {
    match ChooseVersion(requested, lookup, fs, cfg)
    case Err(e) => RunOutcome(fs, "", false, Some(e))
    case Ok(v) =>
      var p := PathJoin(cfg.versionsDir, v);
      if p in fs && fs[p].Unstatable? then RunOutcome(fs, v, false, Some("Error checking installation path"))
      else if p !in fs then
        match install(fs, v)
        case Err(_) => RunOutcome(fs, v, true, Some("Error installing Go version"))
        case Ok(fs') => Finish(fs', cfg, v, true)
      else Finish(fs, cfg, v, false)
  }

  /** The switch at the end of `Run`. */
  function Finish(fs: Fs, cfg: Config, v: string, installAttempted: bool): (r: RunOutcome)
    ensures r.version == v && r.installAttempted == installAttempted
    ensures r.error.None? <==> SwitchToVersion(fs, cfg, v).error.None?
    ensures r.fs == SwitchToVersion(fs, cfg, v).fs
  {
    var sw := SwitchToVersion(fs, cfg, v);
    if sw.error.Some? then RunOutcome(sw.fs, v, installAttempted, Some("Error switching to Go version"))
    else RunOutcome(sw.fs, v, installAttempted, None)
  }

  /** The installer is called exactly when the chosen version's directory is
      missing. */
  lemma RunInstallsOnlyWhenMissing(requested: string, lookup: GoModLookup, fs: Fs, cfg: Config, install: Installer)
    ensures Run(requested, lookup, fs, cfg, install).installAttempted <==>
      && ChooseVersion(requested, lookup, fs, cfg).Ok?
      && PathJoin(cfg.versionsDir, ChooseVersion(requested, lookup, fs, cfg).value) !in fs
  {
  }

  /** After a successful run, the active version is the one chosen. */
  lemma RunSwitchesToChosen(requested: string, lookup: GoModLookup, fs: Fs, cfg: Config, install: Installer)
    requires Run(requested, lookup, fs, cfg, install).error.None?
    requires IsElement(Run(requested, lookup, fs, cfg, install).version)
    ensures GetCurrentVersion(Run(requested, lookup, fs, cfg, install).fs, cfg) == Ok(Run(requested, lookup, fs, cfg, install).version)
  {
    var r := Run(requested, lookup, fs, cfg, install);
    var v := ChooseVersion(requested, lookup, fs, cfg).value;
    var p := PathJoin(cfg.versionsDir, v);
    if p !in fs {
      SwitchThenCurrent(install(fs, v).value, cfg, v);
    } else {
      SwitchThenCurrent(fs, cfg, v);
    }
  }
}

=== FILE: semver.dfy ===
/** A specification of `semver.Compare` from golang.org/x/mod for release
    versions only: precedence as in item 11 of Semantic Versioning 2.0.0.
    Prerelease and build suffixes (`v1.23.0-rc.1`, `v1.23.0+meta`), which
    the library accepts, are not modelled: such strings count as invalid.

    A valid string is `v` followed by one to three dot-separated numerals
    without leading zeros; missing components count as 0, so `v1.21` and
    `v1.21.0` are equal. Every other string (`v1.21rc1`, `1.21`, `v1.2.3.4`)
    is invalid: invalid strings rank below every valid one and equal each
    other. */
module Semver {
  import opened Wrappers
  import opened Text

  datatype Triple = Triple(major: nat, minor: nat, patch: nat)

  // ----------------------------------------------------------------- numerals

  /** A decimal numeral with no leading zero (`0` itself is allowed). */
  predicate IsNumeral(s: string) {
    && |s| > 0
    && (forall k | 0 <= k < |s| :: IsAsciiDigit(s[k]))
    && (s[0] == '0' ==> |s| == 1)
  }

  function DigitValue(c: char): nat
    requires IsAsciiDigit(c)
  {
    c as int - '0' as int
  }

  /** The number a string of decimal digits denotes. */
  function NumeralValue(s: string): nat
    requires forall k | 0 <= k < |s| :: IsAsciiDigit(s[k])
  {
    if |s| == 0 then 0
    else NumeralValue(s[..|s| - 1]) * 10 + DigitValue(s[|s| - 1])
  }

  function DigitChar(d: nat): (c: char)
    requires d < 10
    ensures IsAsciiDigit(c) && DigitValue(c) == d
  {
    ('0' as int + d) as char
  }

  /** The canonical decimal numeral of `n`; `NumeralValue` is its inverse. */
  function Numeral(n: nat): (s: string)
    ensures IsNumeral(s)
    ensures NumeralValue(s) == n
    ensures '.' !in s
  {
    if n < 10 then [DigitChar(n)]
    else
      var init := Numeral(n / 10);
      var s := init + [DigitChar(n % 10)];
      assert s[..|s| - 1] == init;
      s
  }

  /** Numerals are exactly the images of `Numeral`: the text is recovered
      from the value. */
  lemma {:induction false} NumeralOfValue(s: string)
    requires IsNumeral(s)
    ensures Numeral(NumeralValue(s)) == s
    decreases |s|
  {
    if |s| == 1 {
      assert NumeralValue(s) == DigitValue(s[0]);
      assert s == [s[0]];
    } else {
      var init := s[..|s| - 1];
      assert init[0] == s[0];
      assert IsNumeral(init);
      NumeralOfValue(init);
      LeadingNonZero(init);
      var n := NumeralValue(s);
      assert n / 10 == NumeralValue(init);
      assert n % 10 == DigitValue(s[|s| - 1]);
      assert s == init + [s[|s| - 1]];
    }
  }

  lemma {:induction false} LeadingNonZero(s: string)
    requires IsNumeral(s) && s[0] != '0'
    ensures NumeralValue(s) >= 1
    decreases |s|
  {
    if |s| == 1 {
      assert s[..0] == [];
    } else {
      var init := s[..|s| - 1];
      assert init[0] == s[0];
      LeadingNonZero(init);
    }
  }

  // ------------------------------------------------------------------ parsing

  predicate AllNumerals(parts: seq<string>) {
    forall k | 0 <= k < |parts| :: IsNumeral(parts[k])
  }

  /** The precedence-relevant components of a valid version, `None` if the
      string is not a valid version. */
  function Parse(v: string): (r: Option<Triple>)
    ensures r.Some? ==> |v| > 0 && v[0] == 'v'
  {
    if |v| == 0 || v[0] != 'v' then None
    else ParseParts(Split(v[1..], '.'))
  }

  /** The components of the dot-separated pieces after the `v`. */
  function ParseParts(parts: seq<string>): Option<Triple>
    requires |parts| >= 1
  {
    if |parts| > 3 || !AllNumerals(parts) then None
    else
      Some(Triple(
        NumeralValue(parts[0]),
        if |parts| > 1 then NumeralValue(parts[1]) else 0,
        if |parts| > 2 then NumeralValue(parts[2]) else 0))
  }

  predicate IsValid(v: string) {
    Parse(v).Some?
  }

  // --------------------------------------------------------------- comparison

  function Sign(a: nat, b: nat): int {
    if a < b then -1 else if a > b then 1 else 0
  }

  /** Numeric comparison, major first, then minor, then patch. */
  function CompareTriple(a: Triple, b: Triple): (r: int)
    ensures r == 0 <==> a == b
    ensures -1 <= r <= 1
  {
    if a.major != b.major then Sign(a.major, b.major)
    else if a.minor != b.minor then Sign(a.minor, b.minor)
    else Sign(a.patch, b.patch)
  }

  /** `semver.Compare(a, b)`: -1, 0 or +1. */
  function Compare(a: string, b: string): (r: int)
    ensures -1 <= r <= 1
  {
    match (Parse(a), Parse(b))
    case (None, None) => 0
    case (None, Some(_)) => -1
    case (Some(_), None) => 1
    case (Some(x), Some(y)) => CompareTriple(x, y)
  }

  /** Precedence relations. */
  predicate Ge(a: string, b: string) { Compare(a, b) >= 0 }

  lemma CompareReflexive(a: string)
    ensures Compare(a, a) == 0
  {
  }

  /** Strings that parse alike are tied. */
  lemma CompareSameParse(a: string, b: string)
    requires Parse(a) == Parse(b)
    ensures Compare(a, b) == 0
  {
  }

  lemma CompareAntisymmetric(a: string, b: string)
    ensures Compare(a, b) == -Compare(b, a)
  {
  }

  lemma CompareTransitive(a: string, b: string, c: string)
    requires Compare(a, b) >= 0 && Compare(b, c) >= 0
    ensures Compare(a, c) >= 0
    ensures Compare(a, b) > 0 || Compare(b, c) > 0 ==> Compare(a, c) > 0
  {
  }

  lemma CompareTotal(a: string, b: string)
    ensures Compare(a, b) <= 0 || Compare(b, a) <= 0
  {
  }

  /** Invalid strings sit below every valid one and are tied with each other. */
  lemma InvalidRanksLowest(a: string, b: string)
    requires !IsValid(a)
    ensures IsValid(b) ==> Compare(a, b) == -1
    ensures !IsValid(b) ==> Compare(a, b) == 0
  {
  }

  // ----------------------------------------------------- canonical renderings

  /** `<major>.<minor>` with canonical numerals. */
  function Two(major: nat, minor: nat): string {
    Numeral(major) + "." + Numeral(minor)
  }

  /** `<major>.<minor>.<patch>` with canonical numerals. */
  function Three(major: nat, minor: nat, patch: nat): string {
    Numeral(major) + "." + Numeral(minor) + "." + Numeral(patch)
  }

  lemma SplitTwo(major: nat, minor: nat)
    ensures Split(Two(major, minor), '.') == [Numeral(major), Numeral(minor)]
  {
    SplitOfTwo(Numeral(major), Numeral(minor));
  }

  lemma SplitThree(major: nat, minor: nat, patch: nat)
    ensures Split(Three(major, minor, patch), '.') == [Numeral(major), Numeral(minor), Numeral(patch)]
  {
    SplitOfThree(Numeral(major), Numeral(minor), Numeral(patch));
  }

  lemma SplitOfTwo(a: string, b: string)
    requires '.' !in a && '.' !in b
    ensures Split(a + "." + b, '.') == [a, b]
  {
    SplitCons(a, '.', b);
    SplitFree(b, '.');
  }

  lemma SplitOfThree(a: string, b: string, c: string)
    requires '.' !in a && '.' !in b && '.' !in c
    ensures Split(a + "." + b + "." + c, '.') == [a, b, c]
  {
    assert a + "." + b + "." + c == a + ['.'] + (b + ['.'] + c);
    SplitCons(a, '.', b + ['.'] + c);
    SplitOfTwo(b, c);
  }

  /** A two-component version parses with patch 0. */
  lemma ParseTwo(major: nat, minor: nat)
    ensures Parse("v" + Two(major, minor)) == Some(Triple(major, minor, 0))
  {
    ParseOfV(Two(major, minor));
    SplitTwo(major, minor);
    ParsePartsOfTwo(major, minor);
  }

  /** A three-component version parses to its components. */
  lemma ParseThree(major: nat, minor: nat, patch: nat)
    ensures Parse("v" + Three(major, minor, patch)) == Some(Triple(major, minor, patch))
  {
    ParseOfV(Three(major, minor, patch));
    SplitThree(major, minor, patch);
    ParsePartsOfThree(major, minor, patch);
  }

  lemma ParseOfV(s: string)
    ensures Parse("v" + s) == ParseParts(Split(s, '.'))
  {
    assert ("v" + s)[1..] == s;
  }

  /** Canonical numerals parse to their values. */
  lemma ParsePartsOfTwo(major: nat, minor: nat)
    ensures ParseParts([Numeral(major), Numeral(minor)]) == Some(Triple(major, minor, 0))
  {
    assert AllNumerals([Numeral(major), Numeral(minor)]);
  }

  lemma ParsePartsOfThree(major: nat, minor: nat, patch: nat)
    ensures ParseParts([Numeral(major), Numeral(minor), Numeral(patch)]) == Some(Triple(major, minor, patch))
  {
    assert AllNumerals([Numeral(major), Numeral(minor), Numeral(patch)]);
  }

  /** Ordering is numeric and independent of how many components are
      written: `v1.21` equals `v1.21.0`, and `v1.9` is below `v1.10`. */
  lemma CompareIsNumeric(a: nat, b: nat, c: nat, d: nat, e: nat, f: nat)
    ensures Compare("v" + Two(a, b), "v" + Three(c, d, e)) == CompareTriple(Triple(a, b, 0), Triple(c, d, e))
    ensures Compare("v" + Three(c, d, e), "v" + Two(a, b)) == CompareTriple(Triple(c, d, e), Triple(a, b, 0))
    ensures Compare("v" + Two(a, b), "v" + Two(c, d)) == CompareTriple(Triple(a, b, 0), Triple(c, d, 0))
    ensures Compare("v" + Three(a, b, e), "v" + Three(c, d, f)) == CompareTriple(Triple(a, b, e), Triple(c, d, f))
  {
    ParseTwo(a, b);
    ParseThree(c, d, e);
    ParseTwo(c, d);
    ParseThree(a, b, e);
    ParseThree(c, d, f);
  }

  /** Release-candidate spellings such as `v1.21rc1` are not valid. */
  lemma ReleaseCandidateInvalid()
    ensures !IsValid("v1.21rc1")
  {
    assert "v1.21rc1" == "v" + ("1" + ['.'] + "21rc1");
    ParseOfV("1" + ['.'] + "21rc1");
    SplitCons("1", '.', "21rc1");
    SplitFree("21rc1", '.');
    NotNumeral21rc1();
  }

  lemma NotNumeral21rc1()
    ensures !IsNumeral("21rc1")
  {
    assert !IsAsciiDigit("21rc1"[2]);
  }
}

=== FILE: sub_cmd.dfy ===
/** The `sub` command of `cmd/sub.go`: list the versions of one Go series
    from the downloads catalog in semantic-version order, marking the
    installed ones. The catalog arrives as the regular-expression matches
    scraped from the downloads page; fetching and scraping are not modelled. */
module SubCmd {
  import opened Wrappers
  import opened Text
  import opened Order
  import opened Semver
  import opened FileSystem
  import opened Version

  // ------------------------------------------------------------ the argument

  /** The series the argument names: `go` dropped, `1.` put in front unless
      it is already there, so `go1.22`, `1.22` and `22` all give `1.22`. */
  function SeriesArg(arg: string): (r: string)
    ensures HasPrefix(r, "1.")
    ensures var bare := TrimPrefix(arg, "go");
      HasPrefix(bare, "1.") ==> r == bare
    ensures var bare := TrimPrefix(arg, "go");
      !HasPrefix(bare, "1.") ==> r == "1." + bare
  {
    var bare := TrimPrefix(arg, "go");
    if HasPrefix(bare, "1.") then bare
    else
      TrimPrefixOfConcat("1.", bare);
      "1." + bare
  }

  /** Normalising twice changes nothing: a series is its own argument. */
  lemma SeriesArgIdempotent(arg: string)
    ensures SeriesArg(SeriesArg(arg)) == SeriesArg(arg)
  {
    var r := SeriesArg(arg);
    assert r[0] == '1';
    assert !HasPrefix(r, "go");
  }

  lemma SeriesArgExamples()
    ensures SeriesArg("go1.22") == "1.22"
    ensures SeriesArg("1.22") == "1.22"
    ensures SeriesArg("22") == "1.22"
  {
    TrimPrefixOfConcat("go", "1.22");
    assert "1.22"[..2] == "1.";
    assert "22"[..2][1] != "1."[1];
    assert !HasPrefix("22", "go");
    assert !HasPrefix("1.22", "go");
  }

  // ---------------------------------------------------------------- matching

  /** The catalog versions whose name starts with `go` and the series, in
      catalog order. */
  function Matches(all: seq<string>, series: string): (r: seq<string>)
    ensures forall v :: v in r <==> v in all && HasPrefix(v, "go" + series)
  {
    Filter(all, v => HasPrefix(v, "go" + series))
  }

  /** The prefix test has no dot after the series, so the series `1.2`
      also takes in `go1.21` and `go1.22.4`. */
  lemma SeriesPrefixTakesLongerMinors()
    ensures Matches(["go1.21", "go1.2.2", "go1.3"], "1.2") == ["go1.21", "go1.2.2"]
  {
    var keep := v => HasPrefix(v, "go" + "1.2");
    SeriesPrefixFacts();
    assert ["go1.21", "go1.2.2", "go1.3"] == ["go1.21"] + ["go1.2.2"] + ["go1.3"];
    FilterConcat(["go1.21"] + ["go1.2.2"], ["go1.3"], keep);
    FilterConcat(["go1.21"], ["go1.2.2"], keep);
    FilterOne("go1.21", keep);
    FilterOne("go1.2.2", keep);
    FilterOne("go1.3", keep);
  }

  lemma SeriesPrefixFacts()
    ensures "go" + "1.2" == "go1.2"
    ensures HasPrefix("go1.21", "go1.2") && HasPrefix("go1.2.2", "go1.2") && !HasPrefix("go1.3", "go1.2")
  {
    assert "go1.21"[..5] == "go1.2";
    assert "go1.2.2"[..5] == "go1.2";
    assert "go1.3"[..5][4] != "go1.2"[4];
  }

  // ----------------------------------------------------------------- sorting

  /** The string handed to `semver.Compare`: `v` in place of `go`. */
  function SemverKey(v: string): string {
    "v" + TrimPrefix(v, "go")
  }

  /** `a` may come before `b` in the listing. */
  predicate NotAfter(a: string, b: string) {
    Compare(SemverKey(a), SemverKey(b)) <= 0
  }

  lemma NotAfterTransitive(a: string, b: string, c: string)
    requires NotAfter(a, b) && NotAfter(b, c)
    ensures NotAfter(a, c)
  {
    CompareAntisymmetric(SemverKey(a), SemverKey(b));
    CompareAntisymmetric(SemverKey(b), SemverKey(c));
    CompareAntisymmetric(SemverKey(a), SemverKey(c));
    CompareTransitive(SemverKey(c), SemverKey(b), SemverKey(a));
  }

  lemma NotAfterTotal(a: string, b: string)
    ensures NotAfter(a, b) || NotAfter(b, a)
  {
    CompareTotal(SemverKey(a), SemverKey(b));
  }

  /** An order in which any two versions compare and which chains. */
  ghost predicate TotalPreorder(le: (string, string) -> bool) {
    && (forall a, b :: le(a, b) || le(b, a))
    && (forall a, b, c :: le(a, b) && le(b, c) ==> le(a, c))
  }

  /** `NotAfter` is such an order. */
  lemma NotAfterIsTotalPreorder()
    ensures TotalPreorder((a, b) => NotAfter(a, b))
  {
    forall a, b ensures NotAfter(a, b) || NotAfter(b, a) {
      NotAfterTotal(a, b);
    }
    forall a, b, c | NotAfter(a, b) && NotAfter(b, c) ensures NotAfter(a, c) {
      NotAfterTransitive(a, b, c);
    }
  }

  /** Every element is at or below every later one. */
  predicate Sorted(s: seq<string>, le: (string, string) -> bool) {
    forall i, j | 0 <= i < j < |s| :: le(s[i], s[j])
  }

  /** `x` placed after the leading elements not above it. */
  function Insert(x: string, s: seq<string>, le: (string, string) -> bool): seq<string>
    decreases |s|
  {
    if |s| == 0 then [x]
    else if !le(s[0], x) then [x] + s
    else [s[0]] + Insert(x, s[1..], le)
  }

  /** Insertion adds `x` and nothing else. */
  lemma {:induction false} InsertPermutes(x: string, s: seq<string>, le: (string, string) -> bool)
    ensures multiset(Insert(x, s, le)) == multiset(s) + multiset{x}
    decreases |s|
  {
    if |s| > 0 {
      assert s == [s[0]] + s[1..];
      if le(s[0], x) {
        InsertPermutes(x, s[1..], le);
      }
    }
  }

  /** Insertion into a sorted sequence keeps it sorted. */
  lemma {:induction false} InsertSorted(x: string, s: seq<string>, le: (string, string) -> bool)
    requires TotalPreorder(le) && Sorted(s, le)
    ensures Sorted(Insert(x, s, le), le)
    decreases |s|
  {
    if |s| == 0 {
    } else if !le(s[0], x) {
      var r := [x] + s;
      forall i, j | 0 <= i < j < |r|
        ensures le(r[i], r[j])
      {
        if i == 0 && j > 1 {
          assert le(x, s[0]) && le(s[0], s[j - 1]);
        }
      }
    } else {
      var tail := s[1..];
      InsertSorted(x, tail, le);
      InsertPermutes(x, tail, le);
      var ins := Insert(x, tail, le);
      forall k | 0 <= k < |ins|
        ensures le(s[0], ins[k])
      {
        InsertedFrom(x, tail, ins, k);
        if ins[k] != x {
          var m :| 0 <= m < |tail| && tail[m] == ins[k];
          assert s[m + 1] == tail[m];
        }
      }
      var r := [s[0]] + ins;
      forall i, j | 0 <= i < j < |r|
        ensures le(r[i], r[j])
      {
        if i > 0 {
          assert r[i] == ins[i - 1] && r[j] == ins[j - 1];
        }
      }
    }
  }

  lemma InsertedFrom(x: string, tail: seq<string>, ins: seq<string>, k: int)
    requires multiset(ins) == multiset(tail) + multiset{x}
    requires 0 <= k < |ins|
    ensures ins[k] == x || ins[k] in tail
  {
    assert ins[k] in multiset(ins);
  }

  /** Insertion of each element in turn. */
  function InsertionSort(s: seq<string>, le: (string, string) -> bool): seq<string>
    decreases |s|
  {
    if |s| == 0 then [] else Insert(s[|s| - 1], InsertionSort(s[..|s| - 1], le), le)
  }

  /** The result is sorted and holds exactly the elements given, each as
      often as given. */
  lemma {:induction false} InsertionSortSpec(s: seq<string>, le: (string, string) -> bool)
    requires TotalPreorder(le)
    ensures Sorted(InsertionSort(s, le), le)
    ensures multiset(InsertionSort(s, le)) == multiset(s)
    decreases |s|
  {
    if |s| > 0 {
      var init := s[..|s| - 1];
      InsertionSortSpec(init, le);
      InsertSorted(s[|s| - 1], InsertionSort(init, le), le);
      InsertPermutes(s[|s| - 1], InsertionSort(init, le), le);
      assert s == init + [s[|s| - 1]];
    }
  }

  /** The listing order. `sort.Slice` is not stable, so the source leaves
      the order of versions with equal keys open; this model keeps them in
      the order given. */
  function SortBySemver(s: seq<string>): seq<string> {
    InsertionSort(s, (a, b) => NotAfter(a, b))
  }

  /** The listing is in semantic-version order and holds exactly the
      versions given, each as often as given. */
  lemma SortBySemverSpec(s: seq<string>)
    ensures forall i, j | 0 <= i < j < |SortBySemver(s)| :: NotAfter(SortBySemver(s)[i], SortBySemver(s)[j])
    ensures multiset(SortBySemver(s)) == multiset(s)
  {
    NotAfterIsTotalPreorder();
    InsertionSortSpec(s, (a, b) => NotAfter(a, b));
  }

  // ---------------------------------------------------------------- the report

  /** One line of the listing: the version and whether it is installed. */
  datatype Row = Row(version: string, installed: bool)

  /** What `sub` prints: the series it normalised to and its rows. */
  datatype SubReport = SubReport(series: string, rows: seq<Row>)

  /** The rows for the sorted matches, each marked by membership in the
      local versions. */
  function Rows(sorted: seq<string>, local: seq<string>): (r: seq<Row>)
    ensures |r| == |sorted|
    ensures forall k | 0 <= k < |r| :: r[k].version == sorted[k] && (r[k].installed <==> sorted[k] in local)
  {
    seq(|sorted|, k requires 0 <= k < |sorted| => Row(sorted[k], sorted[k] in local))
  }

  /** `sub`'s `RunE` over the scraped matches and the installed versions. */
  function Run(arg: string, scraped: Result<seq<string>, string>, fs: Fs, cfg: Config): (r: Result<SubReport, string>)
    ensures r.Err? <==> scraped.Err? || GetLocalVersions(fs, cfg).Err?
    ensures scraped.Err? ==> r == Err("failed to fetch Go versions: " + scraped.error)
    ensures scraped.Ok? && GetLocalVersions(fs, cfg).Err? ==>
      r == Err("failed to get local Go versions: " + GetLocalVersions(fs, cfg).error)
    ensures r.Ok? ==> r.value.series == SeriesArg(arg)
  {
    var series := SeriesArg(arg);
    match scraped
    case Err(e) => Err("failed to fetch Go versions: " + e)
    case Ok(matches) =>
      match GetLocalVersions(fs, cfg)
      case Err(e) => Err("failed to get local Go versions: " + e)
      case Ok(local) =>
        var all := UniqueVersions(matches);
        Ok(SubReport(series, Rows(SortBySemver(Matches(all, series)), local)))
  }

  /** The rows of a report: in semantic-version order, each catalog version
      of the series exactly once and nothing else, marked installed exactly
      when it is a local version. */
  lemma RunListsSeries(arg: string, matches: seq<string>, fs: Fs, cfg: Config)
    requires GetLocalVersions(fs, cfg).Ok?
    ensures var r := Run(arg, Ok(matches), fs, cfg);
      var local := GetLocalVersions(fs, cfg).value;
      var rows := r.value.rows;
      && (forall i, j | 0 <= i < j < |rows| :: NotAfter(rows[i].version, rows[j].version))
      && (forall i, j | 0 <= i < j < |rows| :: rows[i].version != rows[j].version)
      && (forall v :: (exists k | 0 <= k < |rows| :: rows[k].version == v) <==>
            v in matches && HasPrefix(v, "go" + SeriesArg(arg)))
      && (forall k | 0 <= k < |rows| :: rows[k].installed <==> rows[k].version in local)
  {
    var local := GetLocalVersions(fs, cfg).value;
    var series := SeriesArg(arg);
    var sorted := SortBySemver(Matches(UniqueVersions(matches), series));
    SortedMatches(series, matches);
    assert Run(arg, Ok(matches), fs, cfg).value.rows == Rows(sorted, local);
    RowsHold(sorted, local);
  }

  /** The sorted matches: in semantic-version order, without repeats, and
      exactly the catalog versions of the series. */
  lemma SortedMatches(series: string, matches: seq<string>)
    ensures var sorted := SortBySemver(Matches(UniqueVersions(matches), series));
      && (forall i, j | 0 <= i < j < |sorted| :: NotAfter(sorted[i], sorted[j]))
      && NoDuplicates(sorted)
      && (forall v :: v in sorted <==> v in matches && HasPrefix(v, "go" + series))
  {
    var found := Matches(UniqueVersions(matches), series);
    var sorted := SortBySemver(found);
    SortBySemverSpec(found);
    FilterNoDuplicates(UniqueVersions(matches), v => HasPrefix(v, "go" + series));
    PermutationKeepsDistinct(found, sorted);
    forall v ensures v in sorted <==> v in found {
      assert v in sorted <==> v in multiset(sorted);
      assert v in found <==> v in multiset(found);
    }
  }

  /** The rows list the versions as given, each marked by the inventory. */
  lemma RowsHold(sorted: seq<string>, local: seq<string>)
    ensures var rows := Rows(sorted, local);
      && (forall i, j | 0 <= i < j < |rows| :: rows[i].version == sorted[i] && rows[j].version == sorted[j])
      && (forall v :: (exists k | 0 <= k < |rows| :: rows[k].version == v) <==> v in sorted)
  {
    var rows := Rows(sorted, local);
    forall v ensures (exists k | 0 <= k < |rows| :: rows[k].version == v) <==> v in sorted {
      if v in sorted {
        var k :| 0 <= k < |sorted| && sorted[k] == v;
        assert rows[k].version == v;
      }
    }
  }

  lemma PermutationKeepsDistinct(s: seq<string>, t: seq<string>)
    requires NoDuplicates(s) && multiset(s) == multiset(t)
    ensures NoDuplicates(t)
  {
    DistinctCounts(s);
    forall i, j | 0 <= i < j < |t|
      ensures t[i] != t[j]
    {
      CountTwo(t, i, j);
      assert t[i] in multiset(s);
    }
  }

  /** In a sequence without duplicates every element occurs once. */
  lemma {:induction false} DistinctCounts(s: seq<string>)
    requires NoDuplicates(s)
    ensures forall x | x in multiset(s) :: multiset(s)[x] == 1
    decreases |s|
  {
    if |s| > 0 {
      var init := s[..|s| - 1];
      assert NoDuplicates(init);
      DistinctCounts(init);
      assert s == init + [s[|s| - 1]];
      assert s[|s| - 1] !in init;
    }
  }

  /** Two positions holding the same element make it occur at least twice. */
  lemma CountTwo(t: seq<string>, i: int, j: int)
    requires 0 <= i < j < |t|
    ensures t[i] == t[j] ==> multiset(t)[t[i]] >= 2
  {
    assert t == t[..i] + [t[i]] + t[i + 1..j] + [t[j]] + t[j + 1..];
  }

  /** The notice printed when the series has no versions. */
  const NoneFound := "No versions found for the specified major version."

  /** The lines printed: the title, then either the notice or one line per
      row, the version with ` (installed)` after it when installed. */
  function Render(report: SubReport): (lines: seq<string>)
    ensures |lines| >= 2
    ensures lines[0] == "Available minor versions for go" + report.series + ":"
    ensures report.rows == [] ==> lines == [lines[0], NoneFound]
    ensures report.rows != [] ==> |lines| == |report.rows| + 1
    ensures forall k | 0 <= k < |report.rows| ::
      lines[k + 1] == if report.rows[k].installed then report.rows[k].version + " (installed)" else report.rows[k].version
  {
    var title := "Available minor versions for go" + report.series + ":";
    if |report.rows| == 0 then [title, NoneFound]
    else [title] + seq(|report.rows|, k requires 0 <= k < |report.rows| => RowLine(report.rows[k]))
  }

  function RowLine(row: Row): string {
    if row.installed then row.version + " (installed)" else row.version
  }
}

=== FILE: switch_contract.dfy ===
/** The switch that `TestSwitchToVersion` in `internal/version/version_test.go`
    demands, which is stronger than the implementation in `Version`: the
    version must be installed, only a link (or nothing) may be replaced, and
    the new link is made under a temporary name beside the pointer and then
    renamed over it, so a failure leaves the filesystem as it was. */
module SwitchContract {
  import opened Wrappers
  import opened Text
  import opened FileSystem
  import opened Version

  /** The prefix of the temporary link's name. */
  const TempPrefix := ".current.tmp."

  /** The temporary link beside the pointer; `suffix` is the random part. */
  function TempPath(cfg: Config, suffix: string): string {
    PathJoin(DirName(cfg.currentPath), TempPrefix + suffix)
  }

  /** The layout an installed version has: `<versions>/<v>/go` is a directory
      and `<versions>/<v>/go/bin/go` a regular file. */
  predicate Installed(fs: Fs, cfg: Config, version: string) {
    var bin := PathJoin(PathJoin(Target(cfg, version), "bin"), "go");
    && IsElement(version)
    && IsDirectory(fs, Target(cfg, version))
    && bin in fs && fs[bin].File?
  }

  /** The pointer path is free or holds a link. */
  predicate Replaceable(fs: Fs, cfg: Config) {
    cfg.currentPath !in fs || fs[cfg.currentPath].Link?
  }

  /** The switch that `TestSwitchToVersion` demands. `renameOk` says whether the final rename succeeds,
      which depends on the operating system. */
  function SwitchValidated(fs: Fs, cfg: Config, version: string, suffix: string, renameOk: bool): (r: SwitchResult)
    ensures r.error.None? <==>
      && Installed(fs, cfg, version)
      && Replaceable(fs, cfg)
      && IsDirectory(fs, DirName(cfg.currentPath))
      && TempPath(cfg, suffix) !in fs
      && TempPath(cfg, suffix) != cfg.currentPath
      && renameOk
    ensures r.error.None? ==> r.fs == fs[cfg.currentPath := Link(Target(cfg, version))]
    ensures r.error.Some? ==> r.fs == fs
  {
    var tmp := TempPath(cfg, suffix);
    if !Installed(fs, cfg, version) then SwitchResult(fs, Some("version is not installed"))
    else if !Replaceable(fs, cfg) then SwitchResult(fs, Some("current path exists and is not a symlink"))
    else if !IsDirectory(fs, DirName(cfg.currentPath)) || tmp in fs || tmp == cfg.currentPath then
      SwitchResult(fs, Some("failed to create temporary symlink"))
    else
      var staged := fs[tmp := Link(Target(cfg, version))];
      if !renameOk then SwitchResult(staged - {tmp}, Some("failed to rename temporary symlink"))
      else SwitchResult((staged - {tmp})[cfg.currentPath := staged[tmp]], None)
  }

  /** Nothing new is left behind: every path after the switch existed before
      or is the pointer, so no temporary link remains. */
  lemma NoTemporaryLeft(fs: Fs, cfg: Config, version: string, suffix: string, renameOk: bool)
    ensures forall p | p in SwitchValidated(fs, cfg, version, suffix, renameOk).fs :: p in fs || p == cfg.currentPath
    ensures TempPath(cfg, suffix) !in fs ==> TempPath(cfg, suffix) !in SwitchValidated(fs, cfg, version, suffix, renameOk).fs
  {
  }

  /** A successful switch points at the version, so reading the pointer
      gives the version back. */
  lemma ValidatedThenCurrent(fs: Fs, cfg: Config, version: string, suffix: string, renameOk: bool)
    requires SwitchValidated(fs, cfg, version, suffix, renameOk).error.None?
    ensures GetCurrentVersion(SwitchValidated(fs, cfg, version, suffix, renameOk).fs, cfg) == Ok(version)
  {
    CurrentOfTarget(SwitchValidated(fs, cfg, version, suffix, renameOk).fs, cfg, version);
  }

  /** An existing link is replaced by one to the new version. */
  lemma ValidatedReplacesLink(fs: Fs, cfg: Config, version: string, suffix: string, previous: string)
    requires Installed(fs, cfg, version)
    requires cfg.currentPath in fs && fs[cfg.currentPath] == Link(previous)
    requires IsDirectory(fs, DirName(cfg.currentPath))
    requires TempPath(cfg, suffix) !in fs
    ensures SwitchValidated(fs, cfg, version, suffix, true).error.None?
    ensures SwitchValidated(fs, cfg, version, suffix, true).fs[cfg.currentPath] == Link(Target(cfg, version))
  {
  }

  /** A version that is not installed is refused and no pointer appears. */
  lemma ValidatedRejectsMissing(fs: Fs, cfg: Config, version: string, suffix: string, renameOk: bool)
    requires !IsDirectory(fs, Target(cfg, version))
    ensures SwitchValidated(fs, cfg, version, suffix, renameOk).error.Some?
    ensures cfg.currentPath !in fs ==> cfg.currentPath !in SwitchValidated(fs, cfg, version, suffix, renameOk).fs
  {
  }

  /** A regular file at the pointer path is refused and kept as it is. */
  lemma ValidatedKeepsRegularFile(fs: Fs, cfg: Config, version: string, suffix: string, renameOk: bool, content: string)
    requires cfg.currentPath in fs && fs[cfg.currentPath] == File(content)
    ensures SwitchValidated(fs, cfg, version, suffix, renameOk).error.Some?
    ensures SwitchValidated(fs, cfg, version, suffix, renameOk).fs[cfg.currentPath] == File(content)
  {
  }

  /** The "target missing" scenario of the test: an empty temporary
      directory and a switch to `go9.9`. The switch that `TestSwitchToVersion`
      demands fails and leaves
      no pointer, where the implementation succeeds. */
  lemma ValidatedMissingTargetScenario(suffix: string, renameOk: bool)
    ensures var cfg := Config("/t/versions", "/t/current", "/t/env");
      var r := SwitchValidated(map["/t" := Dir], cfg, "go9.9", suffix, renameOk);
      r.error.Some? && "/t/current" !in r.fs
  {
    var cfg := Config("/t/versions", "/t/current", "/t/env");
    assert |Target(cfg, "go9.9")| > 2;
    ValidatedRejectsMissing(map["/t" := Dir], cfg, "go9.9", suffix, renameOk);
  }
}

=== FILE: text.dfy ===
/** String helpers with the meaning of Go's `strings` package functions the
    tool uses: prefix tests and trimming, single-character splitting and
    joining, substring search, Unicode space trimming and ASCII case mapping.
    Strings are `seq<char>`; a Dafny `char` is a Unicode scalar value, which is
    what Go's `range` over a string yields. */
module Text {
  import opened Wrappers

  // ---------------------------------------------------------------- prefixes

  /** `strings.HasPrefix(s, p)`. */
  predicate HasPrefix(s: string, p: string) {
    |p| <= |s| && s[..|p|] == p
  }

  /** `strings.TrimPrefix(s, p)`: drop one leading `p` if present. */
  function TrimPrefix(s: string, p: string): (r: string)
    ensures HasPrefix(s, p) ==> p + r == s
    ensures !HasPrefix(s, p) ==> r == s
  {
    if HasPrefix(s, p) then s[|p|..] else s
  }

  lemma TrimPrefixOfConcat(p: string, x: string)
    ensures HasPrefix(p + x, p)
    ensures TrimPrefix(p + x, p) == x
  {
    assert (p + x)[..|p|] == p;
    assert (p + x)[|p|..] == x;
  }

  lemma PrefixOfConcat(p: string, x: string, y: string)
    requires HasPrefix(x, p)
    ensures HasPrefix(x + y, p)
  {
    assert (x + y)[..|p|] == x[..|p|];
  }

  // --------------------------------------------------------------- substrings

  /** `strings.Contains(s, sub)`: `sub` occurs somewhere in `s`. */
  predicate Contains(s: string, sub: string) {
    exists i | 0 <= i <= |s| - |sub| :: OccursAt(s, sub, i)
  }

  /** `sub` occurs in `s` starting at index `i`. */
  predicate OccursAt(s: string, sub: string, i: int) {
    0 <= i && i + |sub| <= |s| && s[i..i + |sub|] == sub
  }

  lemma ContainsMiddle(a: string, b: string, c: string)
    ensures Contains(a + b + c, b)
  {
    var s := a + b + c;
    assert OccursAt(s, b, |a|) by {
      assert s[|a|..|a| + |b|] == b;
    }
  }

  // ---------------------------------------------------------------- splitting

  /** Index of the first occurrence of `c` in `s`. */
  function IndexOf(s: string, c: char): (i: nat)
    requires c in s
    ensures i < |s| && s[i] == c && c !in s[..i]
  {
    if s[0] == c then 0 else 1 + IndexOf(s[1..], c)
  }

  /** `strings.Join(parts, [c])`. */
  function Join(parts: seq<string>, c: char): string {
    if |parts| == 0 then ""
    else if |parts| == 1 then parts[0]
    else parts[0] + [c] + Join(parts[1..], c)
  }

  /** No part contains the separator. */
  predicate SeparatorFree(parts: seq<string>, c: char) {
    forall i | 0 <= i < |parts| :: c !in parts[i]
  }

  /** `strings.Split(s, [c])`: the pieces between occurrences of `c`.
      Like Go, splitting the empty string yields one empty piece. */
  function Split(s: string, c: char): (parts: seq<string>)
    ensures |parts| >= 1
    ensures SeparatorFree(parts, c)
    decreases |s|
  {
    if c !in s then [s]
    else
      var i := IndexOf(s, c);
      [s[..i]] + Split(s[i + 1..], c)
  }

  /** Joining the pieces with the separator gives the string back. */
  lemma {:induction false} JoinSplit(s: string, c: char)
    ensures Join(Split(s, c), c) == s
    decreases |s|
  {
    if c in s {
      var i := IndexOf(s, c);
      JoinSplit(s[i + 1..], c);
      var parts := Split(s, c);
      assert parts[1..] == Split(s[i + 1..], c);
      assert s == s[..i] + [c] + s[i + 1..];
    }
  }

  /** Joining separator-free pieces and splitting again gives the pieces back. */
  lemma {:induction false} SplitJoin(parts: seq<string>, c: char)
    requires |parts| >= 1 && SeparatorFree(parts, c)
    ensures Split(Join(parts, c), c) == parts
    decreases |parts|
  {
    if |parts| == 1 {
      assert Join(parts, c) == parts[0];
    } else {
      var rest := Join(parts[1..], c);
      var s := parts[0] + [c] + rest;
      assert Join(parts, c) == s;
      assert s[|parts[0]|] == c;
      assert s[..|parts[0]|] == parts[0];
      IndexOfAfterFree(parts[0], c, rest);
      assert s[|parts[0]| + 1..] == rest;
      SplitJoin(parts[1..], c);
      assert Split(s, c) == [parts[0]] + parts[1..];
    }
  }

  lemma IndexOfAfterFree(a: string, c: char, b: string)
    requires c !in a
    ensures c in a + [c] + b
    ensures IndexOf(a + [c] + b, c) == |a|
  {
    var s := a + [c] + b;
    assert s[|a|] == c;
    assert s[..|a|] == a;
  }

  /** A string that splits into two pieces is those pieces around the one
      separator. */
  lemma SplitInTwo(x: string, c: char)
    requires |Split(x, c)| == 2
    ensures var parts := Split(x, c); x == parts[0] + [c] + parts[1]
  {
    var i := IndexOf(x, c);
    var rest := x[i + 1..];
    assert Split(x, c) == [x[..i]] + Split(rest, c);
    SplitOnePiece(rest, c);
    assert x == x[..i] + [c] + rest;
  }

  /** A string that splits into one piece has no separator. */
  lemma SplitOnePiece(s: string, c: char)
    ensures |Split(s, c)| == 1 ==> c !in s
  {
    if c in s {
      var rest := Split(s[IndexOf(s, c) + 1..], c);
      assert |Split(s, c)| == 1 + |rest|;
    }
  }

  /** Splitting a string with no separator yields the string itself. */
  lemma SplitFree(s: string, c: char)
    requires c !in s
    ensures Split(s, c) == [s]
  {
  }

  /** Splitting `a + [c] + b` when `a` is separator-free peels off `a`. */
  lemma SplitCons(a: string, c: char, b: string)
    requires c !in a
    ensures Split(a + [c] + b, c) == [a] + Split(b, c)
  {
    var s := a + [c] + b;
    IndexOfAfterFree(a, c, b);
    assert s[..|a|] == a;
    assert s[|a| + 1..] == b;
  }

  /** `strings.SplitN(s, [c], 2)` as an option: the text before and after the
      first `c`, or `None` when `c` does not occur. */
  function Cut(s: string, c: char): (r: Option<(string, string)>)
    ensures r.None? <==> c !in s
    ensures r.Some? ==> r.value.0 + [c] + r.value.1 == s && c !in r.value.0
  {
    if c !in s then None
    else
      var i := IndexOf(s, c);
      assert s == s[..i] + [c] + s[i + 1..];
      Some((s[..i], s[i + 1..]))
  }

  lemma CutCons(a: string, c: char, b: string)
    requires c !in a
    ensures Cut(a + [c] + b, c) == Some((a, b))
  {
    var s := a + [c] + b;
    IndexOfAfterFree(a, c, b);
    assert s[..|a|] == a;
    assert s[|a| + 1..] == b;
  }

  // --------------------------------------------------------------- whitespace

  /** `unicode.IsSpace`: the Latin-1 spaces plus the other characters with the
      Unicode White_Space property. */
  predicate IsSpace(c: char) {
    || c == '\t' || c == '\n' || c == '\U{000B}' || c == '\U{000C}' || c == '\r' || c == ' '
    || c == '\U{0085}' || c == '\U{00A0}' || c == '\U{1680}'
    || ('\U{2000}' <= c <= '\U{200A}')
    || c == '\U{2028}' || c == '\U{2029}' || c == '\U{202F}' || c == '\U{205F}' || c == '\U{3000}'
  }

  /** `r` is `s` with its leading and trailing white space removed. */
  ghost predicate IsTrimmingOf(r: string, s: string) {
    exists i, j | 0 <= i <= j <= |s| ::
      && r == s[i..j]
      && (forall k | 0 <= k < i :: IsSpace(s[k]))
      && (forall k | j <= k < |s| :: IsSpace(s[k]))
      && (r != [] ==> !IsSpace(r[0]) && !IsSpace(r[|r| - 1]))
  }

  function TrimLeft(s: string): (r: nat)
    ensures r <= |s|
    ensures forall k | 0 <= k < r :: IsSpace(s[k])
    ensures r < |s| ==> !IsSpace(s[r])
  {
    if |s| > 0 && IsSpace(s[0]) then 1 + TrimLeft(s[1..]) else 0
  }

  function TrimRight(s: string): (r: nat)
    ensures r <= |s|
    ensures forall k | r <= k < |s| :: IsSpace(s[k])
    ensures r > 0 ==> !IsSpace(s[r - 1])
  {
    if |s| > 0 && IsSpace(s[|s| - 1]) then TrimRight(s[..|s| - 1]) else |s|
  }

  /** `strings.TrimSpace`. */
  function TrimSpace(s: string): (r: string)
    ensures IsTrimmingOf(r, s)
  {
    var i := TrimLeft(s);
    var j := i + TrimRight(s[i..]);
    assert forall k | j <= k < |s| :: IsSpace(s[k]) by {
      forall k | j <= k < |s| ensures IsSpace(s[k]) {
        assert s[k] == s[i..][k - i];
      }
    }
    s[i..j]
  }

  /** A string with no white space at either end trims to itself. */
  lemma TrimSpaceNoop(s: string)
    requires s == [] || (!IsSpace(s[0]) && !IsSpace(s[|s| - 1]))
    ensures TrimSpace(s) == s
  {
    var i := TrimLeft(s);
    assert i == 0;
    assert s[0..] == s;
    var j := TrimRight(s);
    assert j == |s|;
  }

  // ------------------------------------------------------------- ASCII cases

  predicate IsAsciiUpper(c: char) { 'A' <= c <= 'Z' }
  predicate IsAsciiLower(c: char) { 'a' <= c <= 'z' }
  predicate IsAsciiDigit(c: char) { '0' <= c <= '9' }

  function LowerChar(c: char): char {
    if IsAsciiUpper(c) then (c as int + 32) as char else c
  }

  function UpperChar(c: char): char {
    if IsAsciiLower(c) then (c as int - 32) as char else c
  }

  /** `strings.ToLower`, restricted to the ASCII letters. */
  function ToLower(s: string): (r: string)
    ensures |r| == |s|
    ensures forall k | 0 <= k < |s| :: r[k] == LowerChar(s[k])
  {
    seq(|s|, k requires 0 <= k < |s| => LowerChar(s[k]))
  }

  /** `strings.ToUpper`, restricted to the ASCII letters. */
  function ToUpper(s: string): (r: string)
    ensures |r| == |s|
    ensures forall k | 0 <= k < |s| :: r[k] == UpperChar(s[k])
  {
    seq(|s|, k requires 0 <= k < |s| => UpperChar(s[k]))
  }

  /** The confirmation test used by every prompt: trimmed, lowercased `y`. */
  predicate IsYes(response: string) {
    ToLower(TrimSpace(response)) == "y"
  }

  /** Only a `y` or `Y` (after trimming) confirms. */
  lemma IsYesExactly(response: string)
    ensures IsYes(response) <==> TrimSpace(response) in {"y", "Y"}
  {
    LowerIsY(TrimSpace(response));
  }

  /** The strings that lowercase to `y` are `y` and `Y`. */
  lemma LowerIsY(t: string)
    ensures ToLower(t) == "y" <==> t == "y" || t == "Y"
  {
    if ToLower(t) == "y" {
      assert |t| == 1;
      LowerCharIsY(t[0]);
      assert t == [t[0]];
    }
    if t == "y" || t == "Y" {
      LowerCharIsY(t[0]);
      assert ToLower(t) == [LowerChar(t[0])];
    }
  }

  lemma LowerCharIsY(c: char)
    ensures LowerChar(c) == 'y' <==> c == 'y' || c == 'Y'
  {
  }
}

=== FILE: util_cmd.dfy ===
/** The version helpers of `cmd/util.go`: reading the required Go version
    from go.mod (the last `go` line, overridden by a newer `toolchain` line),
    the 1.21 rule that writes `go1.21` as `go1.21.0`, the `v` form used for
    semantic-version comparison, compatibility and the 1.13 support floor. */
module UtilCmd {
  import opened Wrappers
  import opened Text
  import opened Semver
  import opened GoMod

  // ------------------------------------------------------------- scanning

  /** The capture of `^go\s+(\d+\.\d+(?:\.\d+)?)` on a line. */
  function GoCapture(line: string): Option<string> {
    Directive(line, "go", "")
  }

  /** The capture of `^toolchain\s+go(\d+\.\d+(?:\.\d+)?)` on a line. */
  function ToolchainCapture(line: string): Option<string> {
    Directive(line, "toolchain", "go")
  }

  /** The capture of the last line that matches, if any line does. */
  function LastCapture(lines: seq<string>, capture: string -> Option<string>): Option<string>
  {
    if |lines| == 0 then None
    else if capture(lines[|lines| - 1]).Some? then capture(lines[|lines| - 1])
    else LastCapture(lines[..|lines| - 1], capture)
  }

  /** No line matches exactly when there is no capture; otherwise the capture
      is that of a line after which no line matches. */
  lemma {:induction false} LastCaptureSpec(lines: seq<string>, capture: string -> Option<string>)
    ensures LastCapture(lines, capture).None? <==> forall i | 0 <= i < |lines| :: capture(lines[i]).None?
    ensures LastCapture(lines, capture).Some? ==> exists i | 0 <= i < |lines| ::
      && capture(lines[i]) == LastCapture(lines, capture)
      && forall j | i < j < |lines| :: capture(lines[j]).None?
  {
    if |lines| > 0 {
      var init := lines[..|lines| - 1];
      LastCaptureSpec(init, capture);
      assert forall i | 0 <= i < |init| :: init[i] == lines[i];
      var r := LastCapture(lines, capture);
      if capture(lines[|lines| - 1]).None? && r.Some? {
        var i :| 0 <= i < |init| && capture(init[i]) == r && forall j | i < j < |init| :: capture(init[j]).None?;
        assert forall j | i < j < |lines| :: capture(lines[j]).None? by {
          forall j | i < j < |lines| ensures capture(lines[j]).None? {
            if j < |init| {
              assert lines[j] == init[j];
            }
          }
        }
      }
    }
  }

  /** A match on a later line replaces an earlier one: adding a matching line
      at the end makes it the result. */
  lemma LastLineWins(lines: seq<string>, line: string, capture: string -> Option<string>)
    requires capture(line).Some?
    ensures LastCapture(lines + [line], capture) == capture(line)
  {
    assert (lines + [line])[|lines|] == line;
  }

  /** A line that does not match leaves the result alone. */
  lemma NonMatchingLineKeeps(lines: seq<string>, line: string, capture: string -> Option<string>)
    requires capture(line).None?
    ensures LastCapture(lines + [line], capture) == LastCapture(lines, capture)
  {
    assert (lines + [line])[..|lines|] == lines;
  }

  /** The variable the loop keeps: `"go"` and the capture, or `""`. */
  function Stored(c: Option<string>): string {
    if c.None? then "" else "go" + c.value
  }

  /** The scanning loop of `findGoModVersion` as written: every line is tried
      against both patterns and a match overwrites what was kept. */
  method ScanLines(lines: seq<string>) returns (goVersion: string, toolchainVersion: string)
    ensures goVersion == Stored(LastCapture(lines, GoCapture))
    ensures toolchainVersion == Stored(LastCapture(lines, ToolchainCapture))
  {
    goVersion, toolchainVersion := "", "";
    var i := 0;
    while i < |lines|
      invariant 0 <= i <= |lines|
      invariant goVersion == Stored(LastCapture(lines[..i], GoCapture))
      invariant toolchainVersion == Stored(LastCapture(lines[..i], ToolchainCapture))
    {
      var line := lines[i];
      assert lines[..i + 1] == lines[..i] + [line];
      StoredStep(lines[..i], line, GoCapture);
      StoredStep(lines[..i], line, ToolchainCapture);
      var g := GoCapture(line);
      if g.Some? {
        goVersion := "go" + g.value;
      }
      var t := ToolchainCapture(line);
      if t.Some? {
        toolchainVersion := "go" + t.value;
      }
      i := i + 1;
    }
    assert lines[..|lines|] == lines;
  }

  /** One more line: a match overwrites, anything else keeps. */
  lemma StoredStep(lines: seq<string>, line: string, capture: string -> Option<string>)
    ensures Stored(LastCapture(lines + [line], capture)) ==
      if capture(line).Some? then "go" + capture(line).value else Stored(LastCapture(lines, capture))
  {
    if capture(line).Some? {
      LastLineWins(lines, line, capture);
    } else {
      NonMatchingLineKeeps(lines, line, capture);
    }
  }

  // -------------------------------------------------------- normalisation

  /** `normalizeGoVersion`: the `v` form `semver` compares. The input gets a
      `go` prefix if it lacks one, which is then replaced by `v`; the branch
      that returns its argument unchanged can never be taken, since the
      string starts with `g` by then. */
  function NormalizeGoVersion(v: string): (r: string)
    ensures r == "v" + TrimPrefix(v, "go")
  {
    var w := if !HasPrefix(v, "go") then "go" + v else v;
    TrimPrefixOfConcat("go", v);
    GoIsNotV(w);
    if !HasPrefix(w, "v") then "v" + TrimPrefix(w, "go")
    else assert false; w
  }

  lemma GoIsNotV(w: string)
    requires HasPrefix(w, "go")
    ensures !HasPrefix(w, "v")
  {
    assert w[0] == "go"[0];
  }

  /** Writing the `go` prefix or leaving it off makes no difference. */
  lemma NormalizeGoVersionPrefix(x: string)
    requires !HasPrefix(x, "go")
    ensures NormalizeGoVersion("go" + x) == NormalizeGoVersion(x)
  {
    TrimPrefixOfConcat("go", x);
  }

  /** `normalizeGoModVersion`: from Go 1.21 on, a two-component version
      `goX.Y` denotes `goX.Y.0`. Dotless, three-component and older versions
      are kept as they are. */
  function NormalizeGoModVersion(v: string): (r: string)
    ensures r == v || (r == "go" + TrimPrefix(v, "go") + ".0" && |Split(TrimPrefix(v, "go"), '.')| == 2)
  {
    var num := TrimPrefix(v, "go");
    if '.' !in num then v
    else
      var parts := Split(num, '.');
      if |parts| == 2 && Compare("v" + num, "v1.21") >= 0 then "go" + num + ".0"
      else v
  }

  lemma Numeral21()
    ensures Two(1, 21) == "1.21"
  {
    assert Numeral(1) == "1";
    assert Numeral(21) == Numeral(2) + [DigitChar(1)];
  }

  lemma Numeral13()
    ensures Two(1, 13) == "1.13"
  {
    assert Numeral(1) == "1";
    assert Numeral(13) == Numeral(1) + [DigitChar(3)];
  }

  /** `normalizeGoVersion("go1.13")`, the support floor, is `v1.13`, a valid
      version. */
  lemma Floor113()
    ensures NormalizeGoVersion("go1.13") == "v1.13"
    ensures Parse("v1.13") == Some(Triple(1, 13, 0))
  {
    NormalizeFloor();
    ParseFloor();
  }

  lemma NormalizeFloor()
    ensures NormalizeGoVersion("go1.13") == "v1.13"
  {
    assert "go1.13" == "go" + "1.13";
    TrimPrefixOfConcat("go", "1.13");
  }

  lemma ParseFloor()
    ensures Parse("v1.13") == Some(Triple(1, 13, 0))
  {
    Numeral13();
    ParseTwo(1, 13);
    assert "v" + Two(1, 13) == "v1.13";
  }

  /** On canonical two-component versions the rule appends `.0` exactly from
      1.21 on. */
  lemma NormalizeGoModVersionOfTwo(major: nat, minor: nat)
    ensures NormalizeGoModVersion("go" + Two(major, minor)) ==
      if major > 1 || (major == 1 && minor >= 21) then "go" + Three(major, minor, 0)
      else "go" + Two(major, minor)
  {
    TwoShape(major, minor);
    CompareWith121(major, minor);
    AppendZero(major, minor);
  }

  lemma TwoShape(major: nat, minor: nat)
    ensures TrimPrefix("go" + Two(major, minor), "go") == Two(major, minor)
    ensures '.' in Two(major, minor)
    ensures |Split(Two(major, minor), '.')| == 2
  {
    TrimPrefixOfConcat("go", Two(major, minor));
    assert Two(major, minor)[|Numeral(major)|] == '.';
    SplitTwo(major, minor);
  }

  lemma CompareWith121(major: nat, minor: nat)
    ensures Compare("v" + Two(major, minor), "v1.21") >= 0 <==> major > 1 || (major == 1 && minor >= 21)
  {
    ParseTwo(major, minor);
    Parse121();
  }

  lemma Parse121()
    ensures Parse("v1.21") == Some(Triple(1, 21, 0))
  {
    Numeral21();
    ParseTwo(1, 21);
    assert "v" + Two(1, 21) == "v1.21";
  }

  lemma AppendZero(major: nat, minor: nat)
    ensures "go" + Two(major, minor) + ".0" == "go" + Three(major, minor, 0)
  {
    assert Numeral(0) == "0";
  }

  /** Three-component versions are never changed. */
  lemma NormalizeGoModVersionOfThree(major: nat, minor: nat, patch: nat)
    ensures NormalizeGoModVersion("go" + Three(major, minor, patch)) == "go" + Three(major, minor, patch)
  {
    TrimPrefixOfConcat("go", Three(major, minor, patch));
    SplitThree(major, minor, patch);
  }

  lemma SplitAppendZero(x: string)
    requires |Split(x, '.')| == 2
    ensures Split(x + ".0", '.') == Split(x, '.') + ["0"]
  {
    var parts := Split(x, '.');
    SplitInTwo(x, '.');
    assert x + ".0" == parts[0] + ['.'] + (parts[1] + ['.'] + "0");
    SplitCons(parts[0], '.', parts[1] + ['.'] + "0");
    SplitCons(parts[1], '.', "0");
    SplitFree("0", '.');
  }

  /** Applying the rule twice is applying it once. */
  lemma NormalizeGoModVersionIdempotent(v: string)
    ensures NormalizeGoModVersion(NormalizeGoModVersion(v)) == NormalizeGoModVersion(v)
  {
    var r := NormalizeGoModVersion(v);
    if r != v {
      var num := TrimPrefix(v, "go");
      assert r == "go" + (num + ".0");
      NormalizeAppendedZero(num);
    }
  }

  /** A version the rule has extended is left as it is. */
  lemma NormalizeAppendedZero(num: string)
    requires |Split(num, '.')| == 2
    ensures NormalizeGoModVersion("go" + (num + ".0")) == "go" + (num + ".0")
  {
    TrimPrefixOfConcat("go", num + ".0");
    SplitAppendZero(num);
    NormalizeKeepsOtherShapes("go" + (num + ".0"));
  }

  /** Anything but two dot-separated parts after `go` is left alone. */
  lemma NormalizeKeepsOtherShapes(w: string)
    requires |Split(TrimPrefix(w, "go"), '.')| != 2
    ensures NormalizeGoModVersion(w) == w
  {
  }

  lemma ParseOfTwoParts(num: string)
    requires |Split(num, '.')| == 2
    ensures Parse("v" + num) == Parse("v" + num + ".0")
  {
    var v, w := "v" + num, "v" + num + ".0";
    assert v[1..] == num;
    assert w[1..] == num + ".0";
    SplitAppendZero(num);
    ParsePartsAppendZero(Split(num, '.'));
  }

  lemma ParsePartsAppendZero(parts: seq<string>)
    requires |parts| == 2
    ensures ParseParts(parts + ["0"]) == ParseParts(parts)
  {
    var parts' := parts + ["0"];
    assert IsNumeral(parts'[2]);
    assert parts'[0] == parts[0] && parts'[1] == parts[1];
    assert AllNumerals(parts') <==> AllNumerals(parts);
  }

  /** The rule never changes what a version means to `semver`. */
  lemma NormalizeGoModVersionKeepsPrecedence(v: string)
    ensures Compare(NormalizeGoVersion(NormalizeGoModVersion(v)), NormalizeGoVersion(v)) == 0
  {
    var r := NormalizeGoModVersion(v);
    var num := TrimPrefix(v, "go");
    if r != v {
      assert r == "go" + (num + ".0");
      TrimPrefixOfConcat("go", num + ".0");
      assert NormalizeGoVersion(r) == "v" + num + ".0";
      ParseOfTwoParts(num);
      CompareSameParse(NormalizeGoVersion(r), NormalizeGoVersion(v));
    } else {
      CompareReflexive(NormalizeGoVersion(v));
    }
  }

  // ------------------------------------------------------------ selection

  /** The directive whose version counts, before normalisation: the
      toolchain version if there is one and either there is no `go` version
      or it is strictly newer; otherwise the `go` version; `""` if neither
      line occurs. */
  function Chosen(goVersion: string, toolchainVersion: string): (r: string)
    ensures r == "" <==> goVersion == "" && toolchainVersion == ""
    ensures r == goVersion || r == toolchainVersion
  {
    if toolchainVersion != "" && (goVersion == "" || Compare(NormalizeGoVersion(toolchainVersion), NormalizeGoVersion(goVersion)) > 0) then toolchainVersion
    else goVersion
  }

  /** The chosen version is the newest of those present, and the `go`
      version wins ties. */
  lemma ChosenIsNewest(goVersion: string, toolchainVersion: string)
    ensures goVersion != "" ==> Compare(NormalizeGoVersion(Chosen(goVersion, toolchainVersion)), NormalizeGoVersion(goVersion)) >= 0
    ensures toolchainVersion != "" ==> Compare(NormalizeGoVersion(Chosen(goVersion, toolchainVersion)), NormalizeGoVersion(toolchainVersion)) >= 0
    ensures goVersion != "" && (toolchainVersion == "" || Compare(NormalizeGoVersion(toolchainVersion), NormalizeGoVersion(goVersion)) <= 0) ==>
      Chosen(goVersion, toolchainVersion) == goVersion
  {
    CompareReflexive(NormalizeGoVersion(goVersion));
    CompareReflexive(NormalizeGoVersion(toolchainVersion));
    CompareAntisymmetric(NormalizeGoVersion(toolchainVersion), NormalizeGoVersion(goVersion));
  }

  /** `findGoModVersion` of `cmd/util.go`: a missing go.mod is no
      requirement, and so is one with neither directive. */
  function FindGoModVersion(lookup: GoModLookup): (r: Result<string, string>)
    ensures r.Ok? <==> lookup.Absent? || lookup.Present?
    ensures lookup.Absent? ==> r == Ok("")
  {
    match lookup
    case NoWorkingDir => Err("failed to get current working directory")
    case StatError => Err("error checking for go.mod file")
    case Unreadable => Err("failed to read go.mod file")
    case Absent => Ok("")
    case Present(content) =>
      var lines := Split(content, '\n');
      var v := Chosen(Stored(LastCapture(lines, GoCapture)), Stored(LastCapture(lines, ToolchainCapture)));
      if v == "" then Ok("") else Ok(NormalizeGoModVersion(v))
  }

  /** No `go` or `toolchain` directive on any line. */
  predicate NoDirective(lines: seq<string>) {
    forall i | 0 <= i < |lines| :: GoCapture(lines[i]).None? && ToolchainCapture(lines[i]).None?
  }

  /** A go.mod yields no version exactly when no line holds a directive. */
  lemma FindGoModVersionEmpty(content: string)
    ensures FindGoModVersion(Present(content)) == Ok("") <==> NoDirective(Split(content, '\n'))
  {
    var lines := Split(content, '\n');
    var g, t := LastCapture(lines, GoCapture), LastCapture(lines, ToolchainCapture);
    PresentIsChosen(content);
    StoredEmpty(g);
    StoredEmpty(t);
    LastCaptureSpec(lines, GoCapture);
    LastCaptureSpec(lines, ToolchainCapture);
  }

  lemma PresentIsChosen(content: string)
    ensures var lines := Split(content, '\n');
      FindGoModVersion(Present(content)) == Ok("") <==>
        Chosen(Stored(LastCapture(lines, GoCapture)), Stored(LastCapture(lines, ToolchainCapture))) == ""
  {
    var lines := Split(content, '\n');
    var v := Chosen(Stored(LastCapture(lines, GoCapture)), Stored(LastCapture(lines, ToolchainCapture)));
    PresentUnfolds(content);
    NormalizedEmpty(v);
  }

  lemma PresentUnfolds(content: string)
    ensures var lines := Split(content, '\n');
      var v := Chosen(Stored(LastCapture(lines, GoCapture)), Stored(LastCapture(lines, ToolchainCapture)));
      FindGoModVersion(Present(content)) == if v == "" then Ok("") else Ok(NormalizeGoModVersion(v))
  {
  }

  lemma NormalizedEmpty(v: string)
    ensures v != "" ==> NormalizeGoModVersion(v) != ""
  {
  }

  lemma StoredEmpty(c: Option<string>)
    ensures Stored(c) == "" <==> c.None?
  {
    if c.Some? {
      assert |Stored(c)| >= 2;
    }
  }

  /** `result` is the version of a directive on `line`, with the 1.21 rule
      applied. */
  predicate FromDirective(line: string, result: Result<string, string>) {
    || (GoCapture(line).Some? && result == Ok(NormalizeGoModVersion("go" + GoCapture(line).value)))
    || (ToolchainCapture(line).Some? && result == Ok(NormalizeGoModVersion("go" + ToolchainCapture(line).value)))
  }

  /** The version found comes from a `go` or `toolchain` line of the file. */
  lemma FindGoModVersionFromLine(content: string)
    requires FindGoModVersion(Present(content)) != Ok("")
    ensures exists i | 0 <= i < |Split(content, '\n')| ::
      FromDirective(Split(content, '\n')[i], FindGoModVersion(Present(content)))
  {
    var lines := Split(content, '\n');
    var g := LastCapture(lines, GoCapture);
    var t := LastCapture(lines, ToolchainCapture);
    var v := Chosen(Stored(g), Stored(t));
    assert v != "";
    assert FindGoModVersion(Present(content)) == Ok(NormalizeGoModVersion(v));
    if v == Stored(g) && g.Some? {
      LastCaptureSpec(lines, GoCapture);
      var i :| 0 <= i < |lines| && GoCapture(lines[i]) == g && forall j | i < j < |lines| :: GoCapture(lines[j]).None?;
      assert v == "go" + GoCapture(lines[i]).value;
      assert FromDirective(lines[i], FindGoModVersion(Present(content)));
    } else {
      assert v == Stored(t) && t.Some?;
      LastCaptureSpec(lines, ToolchainCapture);
      var i :| 0 <= i < |lines| && ToolchainCapture(lines[i]) == t && forall j | i < j < |lines| :: ToolchainCapture(lines[j]).None?;
      assert v == "go" + ToolchainCapture(lines[i]).value;
      assert FromDirective(lines[i], FindGoModVersion(Present(content)));
    }
  }

  // ---------------------------------------------------------- comparisons

  /** `isGoVersionCompatible`: the candidate is at least the requirement. */
  predicate IsGoVersionCompatible(candidate: string, required: string) {
    Compare(NormalizeGoVersion(candidate), NormalizeGoVersion(required)) >= 0
  }

  lemma CompatibleReflexive(v: string)
    ensures IsGoVersionCompatible(v, v)
  {
    CompareReflexive(NormalizeGoVersion(v));
  }

  lemma CompatibleTransitive(a: string, b: string, c: string)
    requires IsGoVersionCompatible(a, b) && IsGoVersionCompatible(b, c)
    ensures IsGoVersionCompatible(a, c)
  {
    CompareTransitive(NormalizeGoVersion(a), NormalizeGoVersion(b), NormalizeGoVersion(c));
  }

  /** Of any two versions one is compatible with the other. */
  lemma CompatibleTotal(a: string, b: string)
    ensures IsGoVersionCompatible(a, b) || IsGoVersionCompatible(b, a)
  {
    CompareAntisymmetric(NormalizeGoVersion(a), NormalizeGoVersion(b));
  }

  /** `isGoVersionSupported`: at least Go 1.13. */
  predicate IsGoVersionSupported(v: string) {
    Compare(NormalizeGoVersion(v), NormalizeGoVersion("go1.13")) >= 0
  }

  /** Support is the compatibility with `go1.13`, so it holds for every
      version at least as new as a supported one. */
  lemma SupportedUpward(a: string, b: string)
    requires IsGoVersionSupported(a) && IsGoVersionCompatible(b, a)
    ensures IsGoVersionSupported(b)
  {
    CompareTransitive(NormalizeGoVersion(b), NormalizeGoVersion(a), NormalizeGoVersion("go1.13"));
  }

  /** Numerically: `goX.Y` is supported exactly from 1.13 on. */
  lemma SupportedOfTwo(major: nat, minor: nat)
    ensures IsGoVersionSupported("go" + Two(major, minor)) <==> major > 1 || (major == 1 && minor >= 13)
  {
    TrimPrefixOfConcat("go", Two(major, minor));
    NormalizeFloor();
    CompareWithFloor(major, minor);
  }

  lemma CompareWithFloor(major: nat, minor: nat)
    ensures Compare("v" + Two(major, minor), "v1.13") >= 0 <==> major > 1 || (major == 1 && minor >= 13)
  {
    ParseTwo(major, minor);
    ParseFloor();
  }

  /** Release candidates such as `go1.21rc1` are not valid semantic versions,
      so they rank lowest and are never supported. */
  lemma ReleaseCandidateUnsupported()
    ensures !IsGoVersionSupported("go1.21rc1")
  {
    assert "go1.21rc1" == "go" + "1.21rc1";
    TrimPrefixOfConcat("go", "1.21rc1");
    assert NormalizeGoVersion("go1.21rc1") == "v1.21rc1";
    ReleaseCandidateInvalid();
    Floor113();
  }
}

=== FILE: version.dfy ===
/** The installed-version inventory and the active-version pointer, as the
    `version` package implements them: listing the versions directory,
    reading the pointer, picking the latest stable catalog entry, repointing
    the pointer, and de-duplicating scraped version names. */
module Version {
  import opened Wrappers
  import opened Text
  import opened Order
  import opened FileSystem

  /** One entry of the remote catalog (`GoVersion`). */
  datatype GoVersion = GoVersion(version: string, stable: bool)

  // ---------------------------------------------------------------- inventory

  /** `GetLocalVersions`: the names of the sub-directories of the versions
      directory, in byte order. Plain files and links are not versions. */
  function GetLocalVersions(fs: Fs, cfg: Config): (r: Result<seq<string>, string>)
    ensures r.Ok? <==> IsDirectory(fs, cfg.versionsDir)
    ensures r.Ok? ==> StrictlySorted(r.value)
    ensures r.Ok? ==> forall n :: n in r.value <==>
      IsElement(n) && IsDirectory(fs, PathJoin(cfg.versionsDir, n))
  {
    if !IsDirectory(fs, cfg.versionsDir) then Err("failed to read versions directory")
    else Ok(SortedSet(EntryNames(fs, cfg.versionsDir, IsDirNode)))
  }

  /** The sub-directory holding a version's toolchain, which the pointer
      designates. */
  function Target(cfg: Config, version: string): string {
    PathJoin(PathJoin(cfg.versionsDir, version), "go")
  }

  /** `GetCurrentVersion`: the name of the directory two levels above the
      pointer's target. Fails when the pointer is missing or is not a link. */
  function GetCurrentVersion(fs: Fs, cfg: Config): (r: Result<string, string>)
    ensures r.Ok? <==> cfg.currentPath in fs && fs[cfg.currentPath].Link?
    ensures r.Ok? ==> r.value == BaseName(DirName(fs[cfg.currentPath].target))
  {
    var p := cfg.currentPath;
    if p in fs && fs[p].Link? then Ok(BaseName(DirName(fs[p].target)))
    else Err("failed to read current symlink")
  }

  /** Reading the pointer of a link at `Target(cfg, v)` gives `v` back. */
  lemma CurrentOfTarget(fs: Fs, cfg: Config, v: string)
    requires IsElement(v)
    requires cfg.currentPath in fs && fs[cfg.currentPath] == Link(Target(cfg, v))
    ensures GetCurrentVersion(fs, cfg) == Ok(v)
  {
    DirOfJoin(PathJoin(cfg.versionsDir, v), "go");
    BaseOfJoin(cfg.versionsDir, v);
  }

  // ------------------------------------------------------------------ catalog

  /** Index of the first stable entry. */
  function FirstStable(vs: seq<GoVersion>): (r: Option<nat>)
    ensures r.None? <==> forall j | 0 <= j < |vs| :: !vs[j].stable
    ensures r.Some? ==> r.value < |vs| && vs[r.value].stable
    ensures r.Some? ==> forall j | 0 <= j < r.value :: !vs[j].stable
  {
    if |vs| == 0 then None
    else if vs[0].stable then Some(0)
    else
      var rest := FirstStable(vs[1..]);
      assert forall j | 1 <= j < |vs| :: vs[j] == vs[1..][j - 1];
      if rest.None? then None else Some(rest.value + 1)
  }

  /** `GetLatestGoVersion` over the fetched catalog: the first stable entry in
      catalog order. A fetch error is passed on. */
  function GetLatestGoVersion(catalog: Result<seq<GoVersion>, string>): (r: Result<string, string>)
    ensures catalog.Err? ==> r == Err(catalog.error)
    ensures catalog.Ok? && r.Ok? ==> exists i | 0 <= i < |catalog.value| ::
      && catalog.value[i].stable
      && catalog.value[i].version == r.value
      && forall j | 0 <= j < i :: !catalog.value[j].stable
    ensures catalog.Ok? ==> (r.Err? <==> forall j | 0 <= j < |catalog.value| :: !catalog.value[j].stable)
  {
    match catalog
    case Err(e) => Err(e)
    case Ok(vs) =>
      match FirstStable(vs)
      case None => Err("no stable Go version found")
      case Some(i) => Ok(vs[i].version)
  }

  /** The de-duplication step of `FetchAllGoVersions`: every scraped version
      name once. (Go's map iteration leaves the order unspecified; the model
      keeps first occurrences.) */
  function UniqueVersions(matches: seq<string>): (r: seq<string>)
    ensures NoDuplicates(r)
    ensures forall v :: v in r <==> v in matches
  {
    Dedupe(matches)
  }

  // ------------------------------------------------------------------- switch

  /** The filesystem after a switch attempt and the error, if any. */
  datatype SwitchResult = SwitchResult(fs: Fs, error: Option<string>)

  /** `SwitchToVersion` as implemented: remove whatever is at the pointer path,
      then create a link to the version's toolchain directory. The version is
      not validated, and the removal is not undone when the link cannot be
      created. */
  function SwitchToVersion(fs: Fs, cfg: Config, version: string): (r: SwitchResult)
    ensures r.error.None? <==>
      && (cfg.currentPath in fs ==> Removable(fs, cfg.currentPath))
      && IsDirectory(fs - {cfg.currentPath}, DirName(cfg.currentPath))
    ensures r.error.None? ==> r.fs == fs[cfg.currentPath := Link(Target(cfg, version))]
    ensures r.error.Some? ==> r.fs == fs || r.fs == fs - {cfg.currentPath}
    ensures cfg.currentPath in fs && fs[cfg.currentPath].Unstatable? ==> r.fs == fs && r.error.Some?
  {
    var p := cfg.currentPath;
    if p in fs && fs[p].Unstatable? then SwitchResult(fs, Some("failed to stat current symlink"))
    else if p in fs && !Removable(fs, p) then SwitchResult(fs, Some("failed to remove existing symlink"))
    else
      var cleared := fs - {p};
      if !IsDirectory(cleared, DirName(p)) then SwitchResult(cleared, Some("failed to create new symlink"))
      else SwitchResult(cleared[p := Link(Target(cfg, version))], None)
  }

  /** Round trip: after a successful switch to a plain version name, reading
      the pointer yields that name. */
  lemma SwitchThenCurrent(fs: Fs, cfg: Config, v: string)
    requires IsElement(v)
    requires SwitchToVersion(fs, cfg, v).error.None?
    ensures GetCurrentVersion(SwitchToVersion(fs, cfg, v).fs, cfg) == Ok(v)
  {
    CurrentOfTarget(SwitchToVersion(fs, cfg, v).fs, cfg, v);
  }

  /** The implementation switches to a version that is not installed: the
      pointer becomes a dangling link (the switch that `TestSwitchToVersion` demands
      fails and leaves no pointer). */
  lemma AsWrittenAcceptsMissingVersion(fs: Fs, cfg: Config, v: string)
    requires cfg.currentPath !in fs
    requires IsDirectory(fs, DirName(cfg.currentPath))
    requires PathJoin(cfg.versionsDir, v) !in fs
    ensures SwitchToVersion(fs, cfg, v).error.None?
    ensures cfg.currentPath in SwitchToVersion(fs, cfg, v).fs
  {
  }

  /** The implementation deletes a regular file found at the pointer path
      (the switch that `TestSwitchToVersion`
      demands fails and leaves the file intact). */
  lemma AsWrittenReplacesRegularFile(fs: Fs, cfg: Config, v: string, content: string)
    requires cfg.currentPath in fs && fs[cfg.currentPath] == File(content)
    requires DirName(cfg.currentPath) != cfg.currentPath
    requires IsDirectory(fs, DirName(cfg.currentPath))
    ensures SwitchToVersion(fs, cfg, v).error.None?
    ensures SwitchToVersion(fs, cfg, v).fs[cfg.currentPath] != File(content)
  {
  }

  /** The scenario of the "target missing" test, run against the
      implementation: it succeeds and leaves a pointer. */
  lemma AsWrittenMissingTargetScenario()
    ensures var cfg := Config("/t/versions", "/t/current", "/t/env");
      var r := SwitchToVersion(map["/t" := Dir], cfg, "go9.9");
      r.error.None? && "/t/current" in r.fs
  {
    var cfg := Config("/t/versions", "/t/current", "/t/env");
    var fs: Fs := map["/t" := Dir];
    ScenarioPaths();
    assert IsDirectory(fs, DirName(cfg.currentPath));
    AsWrittenAcceptsMissingVersion(fs, cfg, "go9.9");
  }

  /** The paths of the scenario, one join at a time. */
  lemma ScenarioPaths()
    ensures DirName("/t/current") == "/t"
    ensures "/t/current" != "/t" && "/t/versions/go9.9" != "/t"
  {
    assert "/t/current" == PathJoin("/t", "current");
    DirOfJoin("/t", "current");
    assert |"/t/current"| != |"/t"|;
    assert |"/t/versions/go9.9"| != |"/t"|;
  }
}

=== FILE: wrappers.dfy ===
/** Failure-carrying result types shared by every module of the model. */
module Wrappers {

  /** A value that may be missing. */
  datatype Option<+T> = None | Some(value: T)

  /** Either a computed value or the error that prevented it. */
  datatype Result<+R, +E> = Ok(value: R) | Err(error: E)
}
